=== FILE: README.md ===
# Node.Asteroids game engine in Dafny

This project models the core of Node.Asteroids, a multiplayer Asteroids game
whose server and browser clients run the same simulation engine (`Game`,
common/engine.js). The parts modelled are:

- **The game tick** (`computeState`):
  - the delta state is reset;
  - the queued user commands are drained;
  - the scheduler counts its tasks down;
  - the physics pass advances every entity not flagged for removal, wraps it round the world, tests it against every later entity and dispatches on the pair's types;
  - the survivors are compacted into a new entity array and id map.
- **The entity classes**:
  - Player, Bullet and Asteroid, and the Shield and ShieldUp power-ups;
  - their constructor defaults and the field-whitelist `merge`;
  - `toJSON` and the circle geometry;
  - commands, hits, collisions and shield top-ups.
- **The engine's other operations**: the elastic-collision rule, `save`, `load`, the class lookup `_instantiate`, `join`/`addBot`/`leave`, the replica-side `delta` with its bounded state buffer, and the id lookups.
- **The client's small data structures**: the namespaced event handler, the keyboard input with its 100-sample buffer, the viewport's world-to-screen arithmetic, and the wrapping message sequence counter.

Some code changes objects in place: `Game`, `Entity`, the delta tracker, `EventHandler`, `Input` and the sequence counter. That code is modelled as Dafny classes whose methods state the new state. Each such method also states the invariant it keeps: for `Game`, distinct valid entities and an id map that points at entities with that id. Pure code becomes functions, and the lemmas about those functions give the behaviour the game relies on:

- surviving scheduler tasks come out in reverse order;
- `save` writes the entities last first;
- `delta` fires its events last first;
- a Shield pickup grants nothing when the shield would pass 100;
- the sequence counter has period 4002.

Numbers are exact reals standing in for JavaScript doubles. A property an object does not have is `None`, and JavaScript truthiness is written out (`Json.Truthy`, `Json.Has`). An entity's `id` and a bullet's `owner` keep the JSON value they were given, `None` when undefined. The pair gate compares them with `===` (`Json.StrictEquals`). Objects used as maps are indexed by `String(id)` (`Json.KeyOf`), so the numbers 1 and 2 are the keys "1" and "2", and an undefined id is the key "undefined". Several things are parameters of the operations that use them:
- randomness: draws `u` in [0, 1);
- trigonometry: `trig`, giving `(sin, cos)`;
- vector normalisation: `unit`;
- the values scheduled callbacks return: `returnsFalse`.

Modules follow the source files:

| module | file | source |
|---|---|---|
| `Options`, `Vectors`, `Json` | options, vectors, json | optional values, `vec3`, JSON property bags |
| `Arrays` | arrays | `arrRemove` (client/eventhandler.js, common/engine.js) |
| `DeltaTracking` | delta | `registerChange` / `registerEvent` |
| `Entities` | entity | Entity, the five classes' constructors, `merge`, `toJSON`, geometry |
| `Players`, `Bullets`, `Asteroids`, `Powerups` | player, bullet, asteroid, powerup | per-class behaviour |
| `Elastic` | collision | `_handleCollision`'s formula |
| `Scheduling` | schedule | `schedule` and the countdown pass |
| `World` | world | the physics pass of `computeState` |
| `Snapshots` | snapshot | saved states, the class lookup, delta messages |
| `Engine` | engine | the `Game` class |
| `Events`, `KeyInput`, `Viewports`, `Sequencing` | eventhandler, input, viewport, sequence | client structures, sequence numbers |

Notes on the code's behaviour:
- The Player's default radius is 15.
- A Shield pickup adds nothing (rather than topping up to 100) when `shield + power` would exceed 100.
- Each entity's `computeState` is applied before it is paired with the entities after it.
- A scheduled callback is called with the tick length alone.
- The event handler's `unbind` with a namespace on a never-bound event throws: `Events.EventHandler.Unbind` returns `false` and changes nothing.

## Model

| member | source | states |
|---|---|---|
| Arrays.SliceFrom | client/eventhandler.js:4 | `slice(start)` drops exactly the first `start` elements, or keeps the last `-start` for a negative start |
| Arrays.ArrRemoveOne | client/eventhandler.js:3-7 | `arrRemove(a, i)` deletes exactly element `i`, keeping the others in order; the length drops by one |
| Arrays.ArrRemoveFromEnd | common/engine.js:13-17 | a negative `from` counts from the end: `-k` deletes the k-th element from the end |
| Arrays.ArrRemoveRange | common/engine.js:13-17 | with `to`, exactly the elements `from..to` inclusive are deleted |
| DeltaTracking.Register | common/engine.js:120-136 | after a change the scope and id always have a record (the sanity checks create them) |
| DeltaTracking.RegisterEffect | common/engine.js:120-136 | a defined value sets that one field of the record and keeps its other fields; no value replaces the record; every other record, and whether it exists, is unchanged |
| DeltaTracking.FieldChangesStack | common/engine.js:128-132 | two field changes to one record leave both fields set, the later one on top |
| DeltaTracking.FieldChangesCommute | common/engine.js:128-132 | field changes to different properties of a record commute |
| DeltaTracking.WholeOverridesField | common/engine.js:133-135 | a whole-record change discards the fields set before it in the tick |
| DeltaTracking.DeltaTracker.constructor | common/engine.js:34 | the delta state starts with no changes and no events |
| DeltaTracking.DeltaTracker.Reset | common/engine.js:162 | the start of a tick empties the changes and events |
| DeltaTracking.DeltaTracker.RegisterChange | common/engine.js:120-136 | the changes become `Register` of the old ones; events untouched |
| DeltaTracking.DeltaTracker.RegisterEvent | common/engine.js:141-147 | the event is appended after the earlier ones; changes untouched |
| Json.AllPublic | common/entity.js:50 | no modelled property name starts with `_`, so `toJSON` copies every own property |
| Json.NumOr | common/player.js:27-37 | `params.x \|\| d`: a truthy numeric parameter is used, a missing or falsy one gives the default, and the result is always the default or the parameter's own number |
| Json.ValueOf | common/bullet.js:13-15 | `params.id` and `params.owner` are the stored value, or undefined exactly when the property is absent |
| Json.InArray | common/engine.js:141-147 | an undefined value in an event array is written as JSON writes it, `null`; any other value is kept |
| Json.KeyOf | common/engine.js:232 | `String(id)`: undefined is "undefined", a string is itself, and a number is a numeral (`IsNumeral`) |
| Json.NumberKey | common/engine.js:232 | a number's key is a numeral: an optional minus sign, then digits with a point |
| Json.IntegerKey | common/engine.js:232 | an integer's key is its sign followed by the numeral of its magnitude |
| Json.IntegerKeysDistinct | common/engine.js:396 | two records with different integer ids are mapped under different keys |
| Json.NumberSharesNumeralKey | common/engine.js:396 | a numeric id and the string of its numeral index the same property, as `obj[1]` and `obj["1"]` do |
| Vectors.DistSq | common/entity.js:61-63 | the squared centre distance is never negative |
| Vectors.DistSqSymmetric | common/entity.js:61-63 | the distance from a to b is the distance from b to a |
| Entities.MergeList | common/entity.js:15 | each class's `_mergeProps` whitelist has no repeated entry (Asteroid and power-up lists from common/asteroid.js:41 and common/powerup.js:23, 55, 92) |
| Entities.CallsExactly | common/entity.js:28-37 | a merge callback fires for a pair (q, v) exactly when q is whitelisted, defined on the source with value v and has a callback |
| Entities.CallsOnce | common/entity.js:32-36 | over a repeat-free whitelist each field's callback fires at most once |
| Entities.MergeKeepsUnlisted | common/entity.js:15 | a property outside the whitelist is never copied |
| Entities.OutsideWorldAt | common/entity.js:73-87 | `false` exactly when the circle lies within the world; otherwise each axis reports -1 below the low edge, else +1 beyond the high edge, else 0 |
| Entities.IntersectsSymmetric | common/entity.js:65-67 | `a.intersects(b)` iff `b.intersects(a)` |
| Entities.IntersectsByDistance | common/entity.js:61-67 | the squared-distance test is the source's `distance < r1 + r2` for the true distance |
| Entities.OverlapPositive | common/entity.js:69-71 | `overlap` is positive exactly when the two entities intersect |
| Entities.Event | common/engine.js:141-147 | an entity's event is `[name, id, ...args]`, with an undefined id written as `null` |
| Entities.Step | common/bullet.js:37 | the position moves by exactly `velocity * delta` in the plane; z unchanged |
| Entities.StepAdditive | common/player.js:77 | two moves at one velocity equal one move of the summed time |
| Entities.StepReversible | common/asteroid.js:55 | a move by `-delta` undoes a move by `delta` |
| Entities.Entity.Player | common/player.js:13-49 | every Player default (radius 15, shield 100, quality 0.8, regen 1.0035, velocity (0.15, 0.15), ...) applies when the parameter is falsy; `remove` and `bot` copy a truthy parameter |
| Entities.Entity.Bullet | common/bullet.js:10-26 | type "bullet", radius 2, strength 5, `id` and `owner` the parameters' values as given, `remove` false unless given |
| Entities.Entity.Asteroid | common/asteroid.js:12-33 | type "object", subtype "asteroid", spin from `angularVelocity` or pi/8, radius 18 by default, health ten times the radius |
| Entities.Entity.Shield | common/powerup.js:42-52 | power 30 and radius 5; type "powerup" and `remove` false are inherited |
| Entities.Entity.ShieldUp | common/powerup.js:79-89 | increase 30 and radius 7; type and `remove` inherited |
| Entities.Entity.ToJSON | common/entity.js:47-59 | the record has exactly the object's own properties, each with its value |
| Entities.Entity.SetProp | common/entity.js:33-35 | a whitelisted property is written exactly when the value has its type (any value for `id`); nothing else changes |
| Entities.Entity.Merge | common/entity.js:20-45 | a source of another class changes nothing; otherwise exactly the whitelisted defined fields are copied, every other property is kept, and the callbacks fire in the order of `Calls` |
| Entities.Entity.RegisterChange | common/engine.js:120-136 | the change is registered under "entities" and the key of the entity's id |
| Entities.Entity.RegisterEvent | common/engine.js:141-147 | the event carries the entity's id after its name |
| Entities.Entity.Destroy | common/engine.js:347 | `destroy()` sets `remove`, registers it, and appends a `destroy` event |
| Players.ApplyCommand | common/player.js:106-119 | a present `space` sets `shooting` to its truthiness; a present `left`/`right` sets the rudder to -0.35 / 0.35 / 0 with left winning; a present `up` sets thrust 0.02 or 0; absent keys change nothing |
| Players.ApplyIdempotent | common/player.js:106-119 | handling the same command twice is handling it once |
| Players.ApplyEmpty | common/player.js:106-119 | an empty sample steers nothing |
| Players.FullCommandForgets | common/player.js:106-119 | a command naming every control makes the result independent of the earlier controls |
| Players.ApplyAllLastFullWins | common/engine.js:173-175 | after a run of commands ending in a full one, only that command matters |
| Players.Move | common/player.js:121-123 | `thrust` becomes the amount |
| Players.Rotate | common/player.js:125-127 | `rotateBy` becomes the value |
| Players.Shoot | common/player.js:129-131 | `shooting` becomes `!!bool` |
| Players.HandleCmd | common/player.js:106-119 | the player's controls become `ApplyCommand` of the old ones |
| Players.Regen | common/player.js:73-74 | the regenerated shield is never above 100, and is the product below that |
| Players.RegenMonotone | common/player.js:73-74 | regeneration with a factor of at least 1 never lowers a shield within [0, 100] |
| Players.NoThrustOnlyDecays | common/player.js:65-70 | without thrust the velocity only decays by the acceleration factors |
| Players.ComputeState | common/player.js:51-78 | `lastPos` is the old position, the angle turns by pi/8 times `rotateBy`, the shield regenerates to at most 100, and the position moves by the new velocity |
| Players.SetShield | common/powerup.js:102-104 | the shield becomes the value and is registered |
| Players.AdjustShield | common/powerup.js:66 | the shield rises by the amount and is registered |
| Players.HandleHit | common/engine.js:216-219 | the call the engine makes when a bullet meets a player: only the shield and the two removal flags may change, both entities stay valid, and no removal flag is cleared |
| Bullets.ComputeState | common/bullet.js:28-38 | `lastPos` is the old position and the position moves by `velocity * delta` |
| Asteroids.Clamp | common/asteroid.js:112 | the result lies in [0, 100], equals the input inside that range and saturates outside it |
| Asteroids.ClampIdempotent | common/asteroid.js:112 | clamping twice is clamping once |
| Asteroids.ExcessHealthHidesDamage | common/asteroid.js:31-32 | with the constructor's health above 100, any adjustment leaving the sum at or above 100 lands on exactly 100 |
| Asteroids.Floor | common/asteroid.js:104 | `Math.floor` is the greatest integer not above its argument |
| Asteroids.ComputeState | common/asteroid.js:43-57 | `lastPos` is the old position, the angle grows by `angularVel`, the position moves, and angle then position are registered |
| Asteroids.SetHealth | common/asteroid.js:101-106 | a different value is stored and registered rounded down; the same value registers nothing |
| Asteroids.AdjustHealth | common/asteroid.js:108-113 | the health becomes the clamped sum, always within [0, 100] |
| Asteroids.HitDamage | common/asteroid.js:117 | a positive strength on a positive radius does positive damage |
| Asteroids.TakeHit | common/asteroid.js:119-123 | a hit taking the health to zero or below destroys the asteroid and leaves its health; otherwise the health drops by the damage, clamped |
| Asteroids.HandleHit | common/asteroid.js:115-130 | the damage is `strength / radius`; the bullet is always destroyed and a `hit` event names it |
| Asteroids.Direction | common/asteroid.js:67-72 | the collision direction is never zero: the centre difference, or (1, 1, 0) for coincident centres |
| Asteroids.CollisionCostRange | common/asteroid.js:80-87 | for an impulse within [-1, 1] the cost is within [-15, 0], and -15 for a zero impulse |
| Asteroids.CollisionDamage | common/asteroid.js:78-87 | a player's shield or another asteroid's health takes the cost of its impulse, then this asteroid's health |
| Asteroids.HandleCollision | common/asteroid.js:60-99 | the velocities become `(bci - aci) n` and `(aci - bci) n` along the unit direction; the asteroid's health takes its cost; a Player's shield or an Asteroid's health takes the other cost, and any other entity keeps both; a `collision` event names the other entity |
| Asteroids.CollisionVelocitiesOpposite | common/asteroid.js:90-91 | the two new velocities sum to zero |
| Powerups.ComputeState | common/powerup.js:26-28 | the whole serialised power-up is registered every tick |
| Powerups.ShieldTopUp | common/powerup.js:65-67 | the shield rises by `power` only when that stays within 100, otherwise it is unchanged |
| Powerups.TopUpBounded | common/powerup.js:65-67 | a pickup never lifts a shield over 100 and never lowers it |
| Powerups.ApplyShield | common/powerup.js:63-68 | the player's shield becomes `ShieldTopUp` of the old one |
| Powerups.ApplyShieldUp | common/powerup.js:100-104 | `shieldMax` becomes 100 + increase and the shield is set to it |
| Powerups.Consume | common/powerup.js:31-34 | a `powerup` event with the subtype and the player's id, then destruction |
| Powerups.Activate | common/powerup.js:63-71 | Shield tops up and keeps `shieldMax`; ShieldUp raises both; either then registers its event and is destroyed |
| Elastic.Tangent | common/engine.js:260 | the tangent is perpendicular to the normal |
| Elastic.NormalMomentum | common/engine.js:267 | momentum along the normal is conserved |
| Elastic.NormalEnergy | common/engine.js:267 | kinetic energy along the normal is conserved |
| Elastic.EqualMassesSwap | common/engine.js:267 | equal masses exchange their normal speeds |
| Elastic.CollideProjections | common/engine.js:263-274 | the results' normal speeds are the new ones and their tangential speeds the old ones |
| Elastic.MomentumConserved | common/engine.js:256-274 | the total momentum vector is conserved for planar motion |
| Elastic.CoincidentCentresStop | common/engine.js:256-257 | there is no fallback for coincident centres: a zero normal stops both entities |
| Elastic.CollideAsWritten | common/engine.js:248 | with an undefined mass there is no result (NaN); with defined masses it is the elastic rule |
| Elastic.UnitMassesExchange | common/engine.js:256-274 | with unit masses the normal speeds are exchanged and the tangential ones kept |
| Scheduling.Countdown | common/engine.js:180-184 | a task is kept iff its countdown stays positive, or it repeats, its callback did not return `false` and its `_ms` is non-zero; a kept task that fired restarts from `_ms` |
| Scheduling.OneShotGoesAfterFiring | common/engine.js:182 | a task that does not repeat is dropped once it fires |
| Scheduling.SurvivorsReversed | common/engine.js:179-185 | the surviving tasks are stored in the reverse of their old order |
| Scheduling.QuietTickKeepsAll | common/engine.js:179-185 | when no task fires every task is kept, counted down, in reverse order |
| Scheduling.FiredExactly | common/engine.js:181 | a callback is called exactly when one of its tasks fires |
| Scheduling.RunSchedule | common/engine.js:179-185 | the backward loop yields exactly `Survivors` and the fired callbacks |
| World.WrapAxis | common/engine.js:200-201 | a side of -1 adds the world size, +1 subtracts it, 0 keeps the coordinate |
| World.WrapRule | common/engine.js:199-202 | an entity within the world stays put, one past a low edge moves up by the size, one past a high edge down |
| World.WrapStraddlingLowEdge | common/engine.js:199-202 | the wrap is not a round trip: an entity just past the low edge lands past the high edge and would wrap straight back |
| World.DispatchByTypes | common/engine.js:214-227 | the switch on the concatenated types is the rule "a bullet hits a player or asteroid, a player activates a power-up, anything else bounces" |
| World.DispatchMirrors | common/engine.js:214-227 | swapping the pair swaps which side handles it |
| World.IndexMapPush | common/engine.js:232 | `newMap[id] = push(e) - 1` keeps the map pointing at the last index with each id |
| World.FilterLength | common/engine.js:232 | the compacted array has one entity per kept flag |
| World.FilterAll | common/engine.js:232 | when every entity is kept the array is unchanged |
| World.FilterIds | common/engine.js:232 | the ids of the kept entities are the kept ids |
| World.HandleCollision | common/engine.js:247-294 | with unit masses the velocities become the elastic-collision result along the unit normal; a `collision` event names the second entity |
| World.Hit | common/engine.js:216-219 | a hit on an asteroid destroys the bullet and ends with the `hit` event naming it; for either target both entities stay valid and no removal flag is cleared |
| World.Interact | common/engine.js:214-227 | each verdict of the switch has its handler's effect: a hit on an asteroid destroys the bullet with a `hit` event, an activation destroys the power-up after its `powerup` event, a bounce of two movers sets the elastic velocities; no removal flag is cleared |
| World.StepEntity | common/engine.js:196-202 | the entity's position, previous position, velocity, angle and flag become `Stepped` of its old ones: a mover records `lastPos`, turns, moves and wraps; a power-up only wraps; no event is registered |
| World.PairsStep | common/engine.js:205-229 | one more pair test keeps `PairsSoFar`: the partners are exactly the later unflagged entities that met the gate, every other entity is as it was, and each handled pair left its mark on the flags |
| World.CheckPairs | common/engine.js:205-229 | after the inner loop, `PairsSoFar` holds over the whole array: the partners of `i`, in increasing order, are exactly the later entities unflagged when the tests began that pass the gate with `i`; non-partners are untouched; nothing moves and no flag is cleared |
| World.CheckPair | common/engine.js:206-228 | the pair is handled exactly when `j` is unflagged and the gate holds: neither entity's `owner` is `===` the other's `id` (an undefined owner matches an undefined id), they are not two bullets, and they intersect; only the two entities change, as `PairEffect` says |
| World.UndefinedIdsNeverMeet | common/engine.js:210 | an entity without an owner never meets one without an id, since `undefined !== undefined` is false |
| World.OwnerNeverMet | common/engine.js:210 | a bullet never meets the entity its owner names |
| World.HandlePair | common/engine.js:213-228 | handling a pair changes no other entity and has the `PairEffect` of its types |
| World.Switch | common/engine.js:214-227 | neither entity moves, no flag is cleared, a hit flags the bullet, an activation flags the power-up, and a bounce of two movers sets their elastic velocities |
| World.Visit | common/engine.js:193-229 | one turn steps entity `i` as `Stepped` says and then runs its pair tests from the stepped snapshots, as `PairsSoFar` states |
| World.TraceStep | common/engine.js:188-233 | one more turn extends the trace of the loop |
| World.PairsExtend | common/engine.js:205 | appending the partners of the next turn keeps the pairs in increasing order |
| World.AllPairsOrdered | common/engine.js:188-233 | over a whole pass each unordered pair is handled at most once, in increasing order |
| World.TurnEffect | common/engine.js:189-229 | a turn leaves the other entities where they were, with their flags; a flagged entity's turn changes nothing; an unflagged one ends at its stepped place |
| World.Settled | common/engine.js:188-233 | between two turns an entity whose turn is not among them keeps its place and its flag |
| World.FlagsPersist | common/engine.js:188-233 | a removal flag, once set, stays set for the rest of the pass |
| World.PassPlaces | common/engine.js:188-233 | after the pass, a kept entity is at `Stepped` of the snapshot its turn found, a dropped one is where it began and flagged, and one flagged when the pass began is never kept |
| World.AllPairsMember | common/engine.js:205 | a pair is handled exactly when its second index is among the partners of its first's turn |
| World.PassPairs | common/engine.js:188-233 | `(k, j)` is handled exactly when `k < j`, `k` was kept, `j` was unflagged when `k`'s turn began and the gate held at `k`'s stepped position; each handled pair's hit or activation shows in the final flags |
| World.PassStep | common/engine.js:189-233 | a flagged entity is skipped with no partners; any other is visited, pushed and mapped; either way the books, the trace and the handled pairs extend by one turn |
| World.PassLoop | common/engine.js:188-233 | after the loop, the trace covers every turn from the starting snapshots, the kept entities are those marked visited, and the handled pairs are `AllPairs` of the partners |
| World.PhysicsPass | common/engine.js:188-237 | the pass is `Swept`: its trace starts from the entities' snapshots and ends at their final ones, the new array keeps exactly the entities unflagged at their turn, in order, the map gives each kept id its last index, and the pairs are those the turns handled |
| Snapshots.ClassOf | common/engine.js:59-81 | a class is found only for its own type name |
| Snapshots.ClassOfListed | common/engine.js:59-74 | every class is found under its type and listed subtype |
| Snapshots.SaveRecord | common/engine.js:365 | the corrected record loads as the entity's class with its id and otherwise equals `toJSON` |
| Snapshots.ToJSONNotLoadable | common/engine.js:365 | `toJSON` of a Player, a Bullet or an unmerged power-up has no class, so `load` skips it |
| Snapshots.SavedRecords | common/engine.js:364-367 | the k-th corrected record is the `SaveRecord` of the k-th entity from the end |
| Snapshots.JSONRecords | common/engine.js:364-367 | the k-th record `save` writes is `toJSON()` of the k-th entity from the end |
| Snapshots.JSONRecordsUnloadable | common/engine.js:365 | the record `save` writes for a Player or a Bullet has no class, so `load` skips it |
| Snapshots.LoadableHaveClass | common/engine.js:390-394 | every loaded record has a class and is one of the entries |
| Snapshots.LoadStopsAtFalsy | common/engine.js:390 | nothing after the first falsy entry is loaded |
| Snapshots.AllLoadable | common/engine.js:390-397 | entries that are all loadable are all loaded, in order |
| Snapshots.SaveLoadRoundTrip | common/engine.js:354-402 | loading the corrected save gives back every entity's class and id, in reverse order |
| Snapshots.PlayerLostOnReload | common/engine.js:365 | as written, saving a one-player game and loading it gives no entities |
| Snapshots.FireOf | common/engine.js:453 | `event.shift()` splits an event into its name and the rest |
| Snapshots.FiringsReversed | common/engine.js:451-454 | the k-th `fire` call fires the k-th event from the end |
| Snapshots.Shifted | common/engine.js:453 | the buffered message keeps its entries, and its events lose their names |
| Snapshots.Window | common/engine.js:418-419 | a push onto a bounded buffer drops the oldest message only when it overflows |
| Snapshots.WindowKeepsNewest | common/engine.js:418-419 | the buffer stays within 3 messages and its last is the newest |
| Engine.Round | common/engine.js:26 | `Math.round` is within half a unit |
| Engine.TickConstants | common/engine.js:26-29 | a tick is 33 ms and the state buffer holds 99 / 33 = 3 messages |
| Engine.RandomRange | common/engine.js:9-11 | a draw lies in [min, max + 1) |
| Engine.AfterDrain | common/engine.js:168-176 | after the drain each entity's controls are as `Commanded` says for its position |
| Engine.ApplyAllConcat | common/engine.js:108-115 | queued commands run first in, first out: later ones run after earlier ones |
| Engine.RunCommands | common/engine.js:173-175 | a player's controls become the old ones with each queued command applied in order |
| Engine.ApplyQueue | common/engine.js:170-175 | only the entity at `i` changes, and only if it is a player |
| Engine.DrainAt | common/engine.js:169-175 | one turn of the drain extends the drained buffer and the controls by one index |
| Engine.DrainLoop | common/engine.js:168-176 | the drain empties the queue of every id with an entity, keeps the rest, and applies each queue to the last player holding its id |
| Engine.Tick | common/engine.js:162-233 | the tick gives the drained buffer, the surviving tasks and fired callbacks, and the physics pass's `Swept` record from the entities' snapshots, with a map to each kept id's last index |
| Engine.ResetAndDrain | common/engine.js:162-176 | the delta state is empty and the command buffer drained |
| Engine.Physics | common/engine.js:188-237 | the physics pass is `Swept` from the entities' snapshots to their final ones, and the kept entities are valid, distinct and indexed by the map |
| Engine.PushKeepsSound | common/engine.js:303 | pushing a new entity and mapping its id to its index keeps the state sound |
| Engine.DestroyAt | common/engine.js:347 | only the destroyed entity's removal flag changes, with a `destroy` event |
| Engine.SpawnBagRanges | common/engine.js:310-317 | `join`'s default position lies within one unit beyond the world on each axis |
| Engine.BotBagRanges | common/engine.js:320-335 | the bot's draws lie in their ranges, and its data carries no `bot` flag |
| Engine.Instantiate | common/engine.js:76-81 | an object is made exactly when the record's type and subtype name a class, with that class and id |
| Engine.LoadStep | common/engine.js:390-400 | one turn of `load` instantiates and maps a loadable record and skips the rest |
| Engine.LoadLoop | common/engine.js:390-401 | the loaded ids' keys (`String(id)`) and the classes are those of `Loadable`, and the map gives each key its last index |
| Engine.LastMatch | common/engine.js:399 | the index found is the last whose id is `===` the given one, and none is found exactly when no id is |
| Engine.LoadDone | common/engine.js:390 | where the loop stops, the loaded prefix is everything loadable |
| Engine.View | common/engine.js:408-410 | a replica's entities are described by their ids, classes, flags and map |
| Engine.ApplyEntry | common/engine.js:422-448 | an entry removes, merges or creates; it never drops an entity or clears a flag |
| Engine.ApplyEntries | common/engine.js:422-448 | the entries apply in order and never shrink the array |
| Engine.ApplyEntriesKeeps | common/engine.js:422-448 | a delta keeps every entity in place and keeps the map pointing at entities with the mapped id |
| Engine.ApplyEntryKeeps | common/engine.js:422-448 | one entry keeps the map sound |
| Engine.RemoveEntry | common/engine.js:427-431 | removing a mapped entity flags it and unmaps its key, keeping the array |
| Engine.RemovalSticks | common/engine.js:427-431 | a removal flag, once set, stays set for the rest of the delta |
| Engine.IndexZeroRecreated | common/engine.js:438 | an entry for the entity at index 0 under another key creates a second entity with the same id |
| Engine.DeltaStep | common/engine.js:423-447 | one entry on the heap matches `ApplyEntry` on the view |
| Engine.DeltaCreate | common/engine.js:434-443 | an unseen entity with a class is created at the end and mapped |
| Engine.DeltaRemove | common/engine.js:427-431 | a mapped entity is flagged and its key unmapped |
| Engine.DeltaLoop | common/engine.js:422-448 | the loop matches `ApplyEntries` on the view and only appends fresh entities |
| Engine.Game.constructor | common/engine.js:19-57 | empty state, buffers and delta state |
| Engine.Game.Schedule | common/engine.js:103-106 | `_ms` is stored on the callback and the task appended |
| Engine.Game.QueueCommand | common/engine.js:108-115 | the commands go after those already queued for the id |
| Engine.Game.ComputeState | common/engine.js:152-239 | the time stamp advances by `delta`; the command buffer is drained; the schedule keeps `Survivors`; the entity array and handled pairs are `Swept` from the old entities' snapshots to their final ones; the invariant holds and the map gives each kept id its last index |
| Engine.Game.Update | common/engine.js:83-89 | one tick of length `Elapsed(ts, old stamp)`: the state is stamped `ts`, the update count grows by one, the buffers are drained and counted down, and the entities are `Swept` as in `ComputeState` |
| Engine.Elapsed | common/engine.js:84 | the elapsed time added to the old stamp gives the new one |
| Engine.Game.GetEntityById | common/engine.js:457-459 | a found entity is in the state |
| Engine.Game.GetPlayerById | common/engine.js:461-464 | a found player is the entity for that id and has type "player" |
| Engine.Game.AddPlayer | common/engine.js:296-307 | a new Player from the data goes at the end, mapped under `data.id` |
| Engine.Game.Join | common/engine.js:309-318 | the player described by the data, or one with the id at a position within the world plus one unit |
| Engine.Game.AddBot | common/engine.js:320-341 | a player with the id, its draws' position, velocity and angle, registered whole |
| Engine.Game.Leave | common/engine.js:343-348 | an id naming a player gets that entity destroyed: its removal flag set, the `remove: true` change registered and the `destroy` event recorded; any other id changes no flag, change or event |
| Engine.Game.Save | common/engine.js:354-370 | the records are the entities' `toJSON()`, last first (`JSONRecords`); the map gives each id its first index; the time stamp is copied |
| Engine.Game.Load | common/engine.js:376-402 | the entities are exactly the loadable records' classes and ids, mapped to their last index; the time stamp is copied; `me` moves to the last loaded object whose id is `===` to its own (`LastMatch`), and stays otherwise |
| Engine.Game.Delta | common/engine.js:407-455 | the buffer takes the message and keeps at most 3; the entities follow `ApplyEntries`; events are fired last first; no entity is dropped |
| Engine.EntityLookup | common/engine.js:457-467 | `entityExists(id)` iff the id is mapped, and the key of the found entity's id is the one looked up |
| Engine.EntityLookupComplete | common/engine.js:457-466 | after a tick, every id in the state is found, at its last index |
| Engine.PlayerIsEntity | common/engine.js:461-467 | `playerExists` iff the entity exists and its type is "player" |
| Events.Split | client/eventhandler.js:41 | `split('.')` gives at least one piece and no piece holds a dot |
| Events.JoinSplit | client/eventhandler.js:41 | joining the pieces with dots gives back the name |
| Events.EventOf | client/eventhandler.js:42 | the event name is a dot-free prefix of the name |
| Events.NamespaceOf | client/eventhandler.js:43 | there is a namespace exactly when the name has a dot, and it is dot-free |
| Events.PlainName | client/eventhandler.js:41-43 | a dot-free name is all event and no namespace |
| Events.NamespacedName | client/eventhandler.js:41-43 | "event.ns" splits back into its event and namespace |
| Events.WithoutNamespace | client/eventhandler.js:85-90 | the survivors are callbacks of the list whose namespace differs, and every such callback survives |
| Events.WithoutNamespaceSingle | client/eventhandler.js:86-89 | one callback is kept exactly when its namespace is not `ns` |
| Events.WithoutNamespaceConcat | client/eventhandler.js:86-89 | filtering a concatenation is concatenating the filtered parts, so the survivors keep their order and every occurrence of a repeatedly bound callback is kept or dropped on its own |
| Events.RemoveNamespace | client/eventhandler.js:86-89 | the backward `arrRemove` loop leaves exactly `WithoutNamespace` |
| Events.WithoutNamespaceAt | client/eventhandler.js:86-89 | one step of the backward loop: removing `funcs[i]` exactly when its namespace matches leaves the survivors from `i` on |
| Events.EventHandler.constructor | client/eventhandler.js:14-25 | the handler's state is `BoundAll` of the initial pairs: each is bound in order, as `bind` would |
| Events.BoundAllCount | client/eventhandler.js:14-25 | binding the pairs in order uses one callback id per pair |
| Events.BoundAllCallbacks | client/eventhandler.js:14-25 | each event lists exactly the callbacks of its pairs, in order |
| Events.BoundAllHandlers | client/eventhandler.js:14-25 | a handler is compiled for exactly the events some pair names |
| Events.EventHandler.Bind | client/eventhandler.js:34-60 | the callback is appended to its event, gets id `_lastID` and the namespace, the id counter grows by one and the handler covers every line so far |
| Events.EventHandler.Fire | client/eventhandler.js:62-68 | an event with a handler calls its callbacks in bind order; one without calls nothing |
| Events.EventHandler.Unbind | client/eventhandler.js:70-93 | without a namespace the list is emptied and the handler deleted; with one exactly the callbacks of that namespace are removed, in order |
| KeyInput.KeyName | client/input.js:2-11 | the key map: 87/38 up, 83/40 down, 65/37 left, 68/39 right, 32 space, 8 backspace, 13 enter, 27 escape, nothing else |
| KeyInput.MappedCodes | client/input.js:2-11 | only the twelve listed codes name a key |
| KeyInput.OnKeyDown | client/input.js:31-38 | a mapped key not already down is set to 1 in both maps and every other entry is kept; otherwise nothing changes |
| KeyInput.OnKeyUp | client/input.js:39-45 | a mapped key is set to 0 in both maps; an unmapped one changes nothing |
| KeyInput.HandlersStayBinary | client/input.js:31-45 | both handlers keep every value 0 or 1 |
| KeyInput.KeyDownDebounced | client/input.js:33 | a repeated keydown changes nothing |
| KeyInput.KeyUpRearms | client/input.js:33-42 | after a keyup the next keydown records a fresh press |
| KeyInput.PushSample | client/input.js:79-81 | a non-empty key state is pushed once; the buffer never exceeds 100 and drops its oldest on overflow |
| KeyInput.BufferKeepsLatest | client/input.js:79-81 | a full buffer keeps the latest 100 samples |
| KeyInput.Input.constructor | client/input.js:18-28 | empty maps and buffer |
| KeyInput.Input.KeyDown | client/input.js:31-38 | the maps follow `OnKeyDown`; the buffer is untouched |
| KeyInput.Input.KeyUp | client/input.js:39-45 | the maps follow `OnKeyUp`; the buffer is untouched |
| KeyInput.Input.Sample | client/input.js:76-85 | the buffer follows `PushSample`, the key state is reset and `keyDown` kept |
| KeyInput.Input.FlushSamples | client/input.js:87-90 | the old buffer is returned and an empty one left |
| Viewports.New | client/viewport.js:10-20 | `centre` is half the screen size and `pos` starts at the world centre |
| Viewports.InBoxStrict | client/viewport.js:22-25 | no point on a box edge is within it |
| Viewports.ViewBox | client/viewport.js:35-44 | the box is `pos ± (centre + padding)`, the padding 50 when undefined |
| Viewports.ScreenX | client/viewport.js:92-94 | `worldXToScreenX(x) = x - (pos.x - centre.x)` |
| Viewports.ScreenY | client/viewport.js:95-97 | `worldYToScreenY(y) = y - (pos.y - centre.y)` |
| Viewports.WorldToScreen | client/viewport.js:77-83 | the screen point lies on z = 0 |
| Viewports.PosAtCentre | client/viewport.js:77-97 | the viewport's position is drawn at the screen centre |
| Viewports.ScreenTranslation | client/viewport.js:77-97 | moving a world point moves its screen point by the same amount |
| Viewports.ScreenInverse | client/viewport.js:92-97 | the world point is recovered by adding back the offset |
| Viewports.WithinBoundsOnScreen | client/viewport.js:35-44 | a point is within the padded view exactly when its screen point is within `padding` of the screen rectangle |
| Viewports.FreshViewSeesCentre | client/viewport.js:10-58 | a fresh viewport sees the world centre, which is inside the world |
| Sequencing.Next | common/sequence.js:9 | the counter stays within [0, 4001] and resets to 0 exactly after passing 4000 |
| Sequencing.AfterIsModular | common/sequence.js:3-11 | after k calls the counter is k mod 4002 |
| Sequencing.DistinctWithinWindow | common/sequence.js:3-11 | any 4002 consecutive messages carry distinct numbers |
| Sequencing.Reply | common/sequence.js:13-17 | the reply carries the request's number and data unchanged |
| Sequencing.Sequencer.constructor | common/sequence.js:4 | the counter starts at 0 |
| Sequencing.Sequencer.Create | common/sequence.js:7-11 | the counter advances by `Next` and the data is stamped with the new number, unchanged |

## Left out

- `vec3.normalize` and `vec3.dist` need square roots. Intersection is stated on squared distances, with `Entities.IntersectsByDistance` relating the two forms. The unit normal is a parameter `unit`.
- Floating-point rounding, NaN and infinities are not modelled; numbers are exact reals. `Math.sin`/`Math.cos` are the parameter `trig`, so the thrust part of the Player's new velocity is stated only through `Players.Thrusted`.
- `Math.random` is not modelled: draws are parameters in [0, 1).
- The timers are not part of this model: `Game.start`/`stop`, the `Timer` objects, `onTick` and the smooth timer.
- Networking, rendering, `Viewport.drawBounds` and `Viewport.bounds` (which reads an undefined `padding`) are not modelled.
- DOM event wiring is left out: `addEventListener`, `preventDefault`, the mouse handlers and `translateEvent`.
- `console.log` is left out.
- The string building of the code `new Function` compiles, in `merge` and `bind`, is not modelled; only what the compiled code does is.
- Scheduled callbacks and merge callbacks are opaque: a callback's only modelled effect is whether it returns `false` (`returnsFalse`). The calls made are returned in order.
- `mergeDelta` is called by `delta` but defined nowhere in the source; each call is recorded in `Engine.Game.merged` (the entity's index and the entry) without an effect on the entity.
- Several methods are called but not defined in the source: the entity-level `registerChange`/`registerEvent`/`destroy`, and the Player's `setShield`/`adjustShield`/`handleHit`. Each gets a minimal definition: a change under the "entities" scope, an event with the entity's id after its name, and a `remove` flag.
- A one-argument `registerChange('velocity')` or `registerChange('angle')` is modelled as registering that field with the entity's current value.
- The drain on a non-player with queued commands: the source calls `entity.handleCmd(command)` (common/engine.js:173-174), which only players define, so it throws a TypeError; the model instead runs that queue to empty without effect.
- `for (i in deltaEntities)` and `toJSON`'s `for (i in this)` enumerate in the order of the sequence or map the model is given.
- Inherited `Object.prototype` keys are not modelled.
- An undefined or falsy `state.timeStamp` is not modelled: time stamps are numbers.
- Holes in the entity arrays are not modelled: the `!entity` checks of the loops are never true, because the arrays hold only objects.
- Engine.Game.AddBot: states that the new player is not a bot (`!p.bot`), because the Player constructor ignores the `subtype: 'bot'` it is given.
- Engine.Game.Delta: keeps the map sound (every mapped id points at an entity with that id) rather than pointing at each id's last index, because of the index-0 re-creation (`Engine.IndexZeroRecreated`). That the last buffered message is the newest is stated by `Snapshots.WindowKeepsNewest` rather than by `Delta` itself.
- Engine.Game.Load: states the loaded ids, classes and map. The loaded objects' other fields are given by the constructors' contracts but are not restated in it.
- Asteroids.HandleCollision: is modelled but is not reached from the engine, whose dispatch calls `_handleCollision`.
- Bullet `toJSON`, which also copies `_`-prefixed properties, is the Entity `toJSON`. The two agree because no modelled property starts with `_` (`Json.AllPublic`).
- Players.HandleHit: states only what may change (the shield and the two removal flags), that both entities stay valid and that no removal flag is cleared, because no file defines the Player's `handleHit`. Flags only ever go up: outside the constructors every write of `remove` sets it.
- Entities.Entity.ToJSON: leaves an undefined own property out of the record. In the source `prop.toJSON` is read on every own property, so a Bullet built without `owner` or `angle` makes `toJSON` throw.
- World.Interact: leaves a pair alone when the switch sends a power-up to `_handleCollision`. In the source that bounce reads the power-up's undefined velocity (`vec3.dot(normal, undefined)`) and throws.
- Json.KeyOf: spells a number as its exact decimal numeral, with a fraction cut after 20 digits. JavaScript spells a double by its shortest round-trip digits, and uses an exponent from 1e21 up and below 1e-6; those spellings are not modelled.
- Json.StrictEquals: treats two vector ids as never `===`. Arrays are compared by reference, and the model does not track which records share an array.
- Entities.Event: writes an undefined id in an event as `null`, which is how the event reaches clients once the delta is sent as JSON; in memory the array holds `undefined`.
- The `id` arguments of `join`, `addBot`, `leave`, `queueCommand` and the id lookups are strings (`Engine.Game.Join` and the others), as the server and client pass them; ids read from records may be any JSON value.
- Json.NumOr: gives the default for a truthy parameter that is not a number (a string, say), where `||` would return it as it is, because the modelled parameters are numbers.
- Engine.Game.Update: raises the update count before the tick rather than after it. No step of the tick reads the count.
- Entities.Entity.Merge: writes a whitelisted property only when the value has that property's JSON type. A value of another type (a string position, say) is skipped rather than stored.

## Findings

| source | as written | input that shows it | evidently intended | confidence | as-written member | corrected member |
|---|---|---|---|---|---|---|
| common/engine.js:365 | `save` writes `toJSON()` (`Engine.Game.Save`, `Snapshots.JSONRecords`), which has no `subtype` for Player and Bullet and no own `type` for power-ups, so `load`'s class lookup finds no class for them | a game with one player: `load(save())` yields no entities | the saved records load back as the entities' classes | not executed | Snapshots.PlayerLostOnReload | Snapshots.SaveLoadRoundTrip |
| common/engine.js:248 | `_handleCollision` reads `entity.mass`, which no constructor sets, so `ms` and every new velocity component are NaN | any two colliding asteroids | elastic collision with equal (unit) masses, exchanging the normal speeds | not executed | Elastic.CollideAsWritten | Elastic.UnitMassesExchange |

=== FILE: arrays.dfy ===
/**
 * The "Array Remove" helper that both the event handler and the engine carry:
 * `arrRemove(array, from, to)` removes the elements from `from` to `to`
 * (inclusive, negative indexes count from the end) by truncating the array
 * and pushing the saved tail back on.
 */
module Arrays {
  import opened Options

  /** `array.slice(start)`: a negative start counts from the end. */
  function SliceFrom<T>(s: seq<T>, start: int): (r: seq<T>)
    ensures 0 <= start <= |s| ==> r == s[start..]
    ensures start < 0 && -start <= |s| ==> r == s[|s| + start..]
  {
    if start < 0 then (if |s| + start < 0 then s else s[|s| + start..])
    else if start > |s| then [] else s[start..]
  }

  /**
   * The array after `arrRemove(array, from, to)`; `to` is None when it is not
   * passed. JavaScript falsiness is written out: a `to` of 0 counts as
   * missing, and a tail start of 0 becomes the array length.
   * Setting `array.length` beyond the end would add holes, so `from` must
   * truncate to a length the array has.
   */
  function ArrRemove<T>(s: seq<T>, from: int, to: Option<int>): (r: seq<T>)
    requires -|s| <= from <= |s|
  {
    var last := if to.Some? && to.value != 0 then to.value else from;
    var start := if last + 1 != 0 then last + 1 else |s|;
    var keep := if from < 0 then |s| + from else from;
    s[..keep] + SliceFrom(s, start)
  }

  /** Removing a single index deletes exactly that element. */
  lemma ArrRemoveOne<T>(s: seq<T>, i: nat)
    requires i < |s|
    ensures ArrRemove(s, i, None) == s[..i] + s[i + 1..]
    ensures |ArrRemove(s, i, None)| == |s| - 1
  {
  }

  /** A negative index counts from the end: -1 removes the last element. */
  lemma ArrRemoveFromEnd<T>(s: seq<T>, k: int)
    requires 1 <= k <= |s|
    ensures ArrRemove(s, -k, None) == s[..|s| - k] + s[|s| - k + 1..]
  {
  }

  /** Removing an inclusive range `from..to` deletes exactly those elements. */
  lemma ArrRemoveRange<T>(s: seq<T>, from: nat, to: nat)
    requires from <= to < |s| && to != 0
    ensures ArrRemove(s, from, Some(to)) == s[..from] + s[to + 1..]
  {
  }
}

=== FILE: asteroid.dfy ===
/**
 * The Asteroid: the per-tick update, clamped health and the handlers for a
 * bullet hit and for a collision. The constructor is
 * `Entities.Entity.Asteroid`.
 */
module Asteroids {
  import opened Options
  import opened Vectors
  import opened Json
  import opened DeltaTracking
  import opened Entities
  import Players

  /** `Math.max(Math.min(100, x), 0)`. */
  function Clamp(x: real): (r: real)
    ensures 0.0 <= r <= 100.0
    ensures 0.0 <= x <= 100.0 ==> r == x
    ensures x > 100.0 ==> r == 100.0
    ensures x < 0.0 ==> r == 0.0
  {
    var capped := if 100.0 < x then 100.0 else x;
    if capped > 0.0 then capped else 0.0
  }

  /** Clamping twice is clamping once. */
  lemma ClampIdempotent(x: real)
    ensures Clamp(Clamp(x)) == Clamp(x)
  {
  }

  /**
   * Health above 100 (the constructor gives ten times the radius, 180 by
   * default) hides damage: any adjustment that leaves the sum at or above
   * 100 lands on exactly 100.
   */
  lemma ExcessHealthHidesDamage(health: real, amount: real)
    requires health + amount >= 100.0
    ensures Clamp(health + amount) == 100.0
  {
  }

  /** `Math.floor(x)`. */
  function Floor(x: real): (r: real)
    ensures r <= x < r + 1.0
  {
    x.Floor as real
  }

  /**
   * `computeState(delta)`: remember the position, spin by `angularVel`,
   * move along the velocity, and record the new angle and position.
   */
  method ComputeState(a: Entity, delta: real, tr: DeltaTracker)
    requires a.kind == AsteroidKind && a.Valid()
    modifies a`lastPos, a`angle, a`pos, tr
    ensures a.Valid()
    ensures a.lastPos == old(a.pos)
    ensures a.angle == Some(old(a.angle.value) + a.angularVel)
    ensures a.pos == Step(old(a.pos), a.velocity, delta)
    ensures tr.changes == Register(Register(old(tr.changes), Scope, KeyOf(a.id), Field(Angle, Num(a.angle.value))),
                                   Scope, KeyOf(a.id), Field(Pos, Vec(a.pos)))
    ensures tr.events == old(tr.events)
  {
    a.lastPos := a.pos;
    a.angle := Some(a.angle.value + a.angularVel);
    a.RegisterChange(tr, Field(Angle, Num(a.angle.value)));
    a.pos := Step(a.pos, a.velocity, delta);
    a.RegisterChange(tr, Field(Pos, Vec(a.pos)));
  }

  /** `setHealth(val)`: a new value is stored and recorded rounded down; the same value does nothing. */
  method SetHealth(a: Entity, val: real, tr: DeltaTracker)
    requires a.kind == AsteroidKind
    modifies a`health, tr
    ensures a.health == val
    ensures val != old(a.health) ==>
      tr.changes == Register(old(tr.changes), Scope, KeyOf(a.id), Field(Health, Num(Floor(val))))
    ensures val == old(a.health) ==> tr.changes == old(tr.changes)
    ensures tr.events == old(tr.events)
  {
    if val != a.health {
      a.health := val;
      a.RegisterChange(tr, Field(Health, Num(Floor(val))));
    }
  }

  /** `adjustHealth(amount)`: the sum, clamped to [0, 100]. */
  method AdjustHealth(a: Entity, amount: real, tr: DeltaTracker)
    requires a.kind == AsteroidKind
    modifies a`health, tr
    ensures a.health == Clamp(old(a.health) + amount)
    ensures 0.0 <= a.health <= 100.0
    ensures a.health != old(a.health) ==>
      tr.changes == Register(old(tr.changes), Scope, KeyOf(a.id), Field(Health, Num(Floor(a.health))))
    ensures a.health == old(a.health) ==> tr.changes == old(tr.changes)
    ensures tr.events == old(tr.events)
  {
    SetHealth(a, Clamp(a.health + amount), tr);
  }

  /** The damage a bullet of `strength` does to an asteroid of `radius`: `strength * (1 / radius)`. */
  function HitDamage(strength: real, radius: real): (d: real)
    requires radius != 0.0
    ensures strength > 0.0 && radius > 0.0 ==> d > 0.0
  {
    strength * (1.0 / radius)
  }

  /** A hit of `amount`: fatal when it takes the health to zero or below, otherwise subtracted. */
  method TakeHit(a: Entity, amount: real, tr: DeltaTracker)
    requires a.kind == AsteroidKind && a.Valid()
    modifies a`health, a`remove, tr
    ensures a.Valid()
    ensures old(a.health) - amount <= 0.0 ==>
      a.Removed() && a.health == old(a.health) &&
      tr.events == old(tr.events) + [Event("destroy", a.id, [])]
    ensures old(a.health) - amount > 0.0 ==>
      a.health == Clamp(old(a.health) - amount) && a.remove == old(a.remove) &&
      tr.events == old(tr.events)
  {
    if a.health - amount <= 0.0 {
      a.Destroy(tr);
    } else {
      AdjustHealth(a, -amount, tr);
    }
  }

  /** `handleHit(bullet)`: take the damage, destroy the bullet and record a `hit` event naming it. */
  method HandleHit(a: Entity, bullet: Entity, tr: DeltaTracker)
    requires a.kind == AsteroidKind && bullet.kind == BulletKind
    requires a.Valid() && bullet.Valid()
    modifies a`health, a`remove, bullet`remove, tr
    ensures a.Valid() && bullet.Valid() && bullet.Removed()
    ensures var amount := HitDamage(bullet.strength, a.radius);
      && (old(a.health) - amount <= 0.0 ==> a.Removed() && a.health == old(a.health))
      && (old(a.health) - amount > 0.0 ==> a.health == Clamp(old(a.health) - amount) && a.remove == old(a.remove))
    ensures tr.events == old(tr.events) +
      (if old(a.health) - HitDamage(bullet.strength, a.radius) <= 0.0 then [Event("destroy", a.id, [])] else []) +
      [Event("destroy", bullet.id, []), Event("hit", a.id, [InArray(bullet.id)])]
  {
    TakeHit(a, HitDamage(bullet.strength, a.radius), tr);
    bullet.Destroy(tr);
    a.RegisterEvent(tr, "hit", [InArray(bullet.id)]);
  }

  /**
   * The collision direction before normalisation: from the other entity to
   * the asteroid, or (1, 1, 0) when the two centres coincide (the vector's
   * length is zero exactly when the vector is).
   */
  function Direction(p1: Vec3, p2: Vec3): (d: Vec3)
    ensures d != Zero
    ensures p1 != p2 ==> d == Sub(p1, p2)
    ensures p1 == p2 ==> d == Vec3(1.0, 1.0, 0.0)
  {
    var diff := Sub(p1, p2);
    if diff == Zero then Vec3(1.0, 1.0, 0.0) else diff
  }

  /** The health or shield a collision costs an entity whose impulse is `ci`: `-((1 - |ci|) * 15)`. */
  function CollisionCost(ci: real): real {
    -((1.0 - (if ci < 0.0 then -ci else ci)) * 15.0)
  }

  /** A head-on impulse of magnitude 1 costs nothing; a grazing one costs 15. */
  lemma CollisionCostRange(ci: real)
    requires -1.0 <= ci <= 1.0
    ensures -15.0 <= CollisionCost(ci) <= 0.0
    ensures ci == 0.0 ==> CollisionCost(ci) == -15.0
  {
  }

  /**
   * The damage part of `handleCollision(entity)`: a player's shield or
   * another asteroid's health drops by the cost of its impulse `bci`, then
   * this asteroid's health by the cost of `aci`.
   */
  method CollisionDamage(a: Entity, other: Entity, aci: real, bci: real, tr: DeltaTracker)
    requires a.kind == AsteroidKind && a != other
    modifies a`health, other`shield, other`health, tr
    ensures a.health == Clamp(old(a.health) + CollisionCost(aci))
    ensures other.kind == PlayerKind ==>
      other.shield == old(other.shield) + CollisionCost(bci) && other.health == old(other.health)
    ensures other.kind == AsteroidKind ==>
      other.health == Clamp(old(other.health) + CollisionCost(bci)) && other.shield == old(other.shield)
    ensures other.kind != PlayerKind && other.kind != AsteroidKind ==>
      other.health == old(other.health) && other.shield == old(other.shield)
    ensures tr.events == old(tr.events)
  {
    if other.kind == PlayerKind {
      Players.AdjustShield(other, CollisionCost(bci), tr);
    } else if other.kind == AsteroidKind {
      AdjustHealth(other, CollisionCost(bci), tr);
    }
    AdjustHealth(a, CollisionCost(aci), tr);
  }

  /**
   * `handleCollision(entity)`: along the unit collision direction `n`
   * (`unit` stands for `vec3.normalize`), each entity's impulse is its
   * velocity's projection; after the damage, the asteroid moves at
   * `(bci - aci) * n` and the other at `(aci - bci) * n`; both velocities
   * are recorded and a `collision` event names the other entity.
   */
  method HandleCollision(a: Entity, other: Entity, unit: Vec3 -> Vec3, tr: DeltaTracker)
    requires a.kind == AsteroidKind && a != other
    modifies a`health, a`velocity, other`shield, other`health, other`velocity, tr
    ensures var n := unit(Direction(old(a.pos), old(other.pos)));
      var aci := Dot(old(a.velocity), n);
      var bci := Dot(old(other.velocity), n);
      && a.velocity == Scale(n, bci - aci)
      && other.velocity == Scale(n, aci - bci)
      && a.health == Clamp(old(a.health) + CollisionCost(aci))
      && (other.kind == PlayerKind ==>
            other.shield == old(other.shield) + CollisionCost(bci) && other.health == old(other.health))
      && (other.kind == AsteroidKind ==>
            other.health == Clamp(old(other.health) + CollisionCost(bci)) && other.shield == old(other.shield))
      && (other.kind != PlayerKind && other.kind != AsteroidKind ==>
            other.health == old(other.health) && other.shield == old(other.shield))
    ensures tr.events == old(tr.events) + [Event("collision", a.id, [InArray(other.id)])]
  {
    var n := unit(Direction(a.pos, other.pos));
    var aci := Dot(a.velocity, n);
    var bci := Dot(other.velocity, n);
    CollisionDamage(a, other, aci, bci, tr);
    a.velocity := Scale(n, bci - aci);
    other.velocity := Scale(n, aci - bci);
    a.RegisterChange(tr, Field(Velocity, Vec(a.velocity)));
    other.RegisterChange(tr, Field(Velocity, Vec(other.velocity)));
    a.RegisterEvent(tr, "collision", [InArray(other.id)]);
  }

  /** The two velocities a collision leaves are opposite: their sum is zero. */
  lemma CollisionVelocitiesOpposite(n: Vec3, aci: real, bci: real)
    ensures Add(Scale(n, bci - aci), Scale(n, aci - bci)) == Zero
  {
  }
}

=== FILE: bullet.dfy ===
/**
 * The Bullet. Its constructor is `Entities.Entity.Bullet`; its geometry is
 * the Entity code (`Entities.OutsideWorldAt`, `Entities.IntersectsAt`). Its
 * own `toJSON` keeps properties whose name starts with `_` as well, which
 * makes no difference here: no property of the model has such a name
 * (`Json.AllPublic`), so `Entities.Entity.ToJSON` serves for bullets too.
 */
module Bullets {
  import opened Entities

  /** `computeState(delta)`: remember the position, then move along the velocity. */
  method ComputeState(b: Entity, delta: real)
    requires b.kind == BulletKind
    modifies b`lastPos, b`pos
    ensures b.lastPos == old(b.pos)
    ensures b.pos == Step(old(b.pos), b.velocity, delta)
  {
    b.lastPos := b.pos;
    b.pos := Step(b.pos, b.velocity, delta);
  }
}

=== FILE: collision.dfy ===
/**
 * The elastic-collision rule of `Game._handleCollision`: both velocities are
 * resolved along the unit normal between the centres and the tangent to it;
 * the normal parts follow the one-dimensional elastic equations and the
 * tangential parts are kept.
 */
module Elastic {
  import opened Options
  import opened Vectors

  /** The unit tangent `[-n[1], n[0], 0]`. */
  function Tangent(n: Vec3): (t: Vec3)
    ensures Dot(t, n) == 0.0
  {
    Vec3(-n.y, n.x, 0.0)
  }

  /** A planar vector of length 1: what `vec3.normalize` makes of a planar non-zero difference. */
  predicate PlanarUnit(n: Vec3) {
    n.z == 0.0 && n.x * n.x + n.y * n.y == 1.0
  }

  /** The normal speeds after the collision, for masses `m1`, `m2` with a non-zero sum. */
  function NormalSpeeds(v1n: real, v2n: real, m1: real, m2: real): (r: (real, real))
    requires m1 + m2 != 0.0
  {
    var ms := m1 + m2;
    ((v1n * (m1 - m2) + 2.0 * (m2 * v2n)) / ms, (v2n * (m2 - m1) + 2.0 * (m1 * v1n)) / ms)
  }

  /** Momentum along the normal is conserved. */
  lemma NormalMomentum(v1n: real, v2n: real, m1: real, m2: real)
    requires m1 + m2 != 0.0
    ensures var (d1, d2) := NormalSpeeds(v1n, v2n, m1, m2);
      m1 * d1 + m2 * d2 == m1 * v1n + m2 * v2n
  {
    var ms := m1 + m2;
    var (d1, d2) := NormalSpeeds(v1n, v2n, m1, m2);
    var a := v1n * (m1 - m2) + 2.0 * (m2 * v2n);
    var b := v2n * (m2 - m1) + 2.0 * (m1 * v1n);
    assert d1 * ms == a && d2 * ms == b;
    assert m1 * a + m2 * b == (m1 * v1n + m2 * v2n) * ms;
    assert (m1 * d1 + m2 * d2) * ms == m1 * (d1 * ms) + m2 * (d2 * ms);
    CancelFactor(m1 * d1 + m2 * d2, m1 * v1n + m2 * v2n, ms);
  }

  /** Kinetic energy along the normal is conserved. */
  lemma NormalEnergy(v1n: real, v2n: real, m1: real, m2: real)
    requires m1 + m2 != 0.0
    ensures var (d1, d2) := NormalSpeeds(v1n, v2n, m1, m2);
      m1 * d1 * d1 + m2 * d2 * d2 == m1 * v1n * v1n + m2 * v2n * v2n
  {
    var ms := m1 + m2;
    var (d1, d2) := NormalSpeeds(v1n, v2n, m1, m2);
    NormalMomentum(v1n, v2n, m1, m2);
    // The relative speed changes sign: d1 - d2 == v2n - v1n.
    assert (d1 - d2) * ms == (v2n - v1n) * ms by {
      assert d1 * ms == v1n * (m1 - m2) + 2.0 * (m2 * v2n);
      assert d2 * ms == v2n * (m2 - m1) + 2.0 * (m1 * v1n);
    }
    CancelFactor(d1 - d2, v2n - v1n, ms);
    // With equal momentum, d1 + v1n == d2 + v2n, so each energy difference cancels.
    assert m1 * (d1 - v1n) == m2 * (v2n - d2);
    assert d1 + v1n == d2 + v2n;
    calc {
      m1 * d1 * d1 - m1 * v1n * v1n;
      m1 * (d1 - v1n) * (d1 + v1n);
      m2 * (v2n - d2) * (d2 + v2n);
      m2 * v2n * v2n - m2 * d2 * d2;
    }
  }

  lemma CancelFactor(x: real, y: real, k: real)
    requires k != 0.0 && x * k == y * k
    ensures x == y
  {
    assert (x - y) * k == 0.0;
  }

  /** Equal masses exchange their normal speeds. */
  lemma EqualMassesSwap(v1n: real, v2n: real, m: real)
    requires m + m != 0.0
    ensures NormalSpeeds(v1n, v2n, m, m) == (v2n, v1n)
  {
    var ms := m + m;
    var (d1, d2) := NormalSpeeds(v1n, v2n, m, m);
    assert d1 * ms == v1n * (m - m) + 2.0 * (m * v2n) == v2n * ms;
    assert d2 * ms == v2n * (m - m) + 2.0 * (m * v1n) == v1n * ms;
    CancelFactor(d1, v2n, ms);
    CancelFactor(d2, v1n, ms);
  }

  /**
   * The velocities after the collision: the new normal speed along `n`
   * plus the old tangential speed along the tangent.
   */
  function Collide(n: Vec3, v1: Vec3, v2: Vec3, m1: real, m2: real): (r: (Vec3, Vec3))
    requires m1 + m2 != 0.0
  {
    var t := Tangent(n);
    var (d1, d2) := NormalSpeeds(Dot(n, v1), Dot(n, v2), m1, m2);
    (Add(Scale(n, d1), Scale(t, Dot(t, v1))), Add(Scale(n, d2), Scale(t, Dot(t, v2))))
  }

  /** A planar vector is the sum of its projections on a planar unit normal and its tangent. */
  lemma Decompose(n: Vec3, v: Vec3)
    requires PlanarUnit(n) && v.z == 0.0
    ensures Add(Scale(n, Dot(n, v)), Scale(Tangent(n), Dot(Tangent(n), v))) == v
  {
    var t := Tangent(n);
    var a, b := Dot(n, v), Dot(t, v);
    assert a == n.x * v.x + n.y * v.y;
    assert b == -n.y * v.x + n.x * v.y;
    assert a * n.x + b * -n.y == v.x * (n.x * n.x + n.y * n.y);
    assert a * n.y + b * n.x == v.y * (n.x * n.x + n.y * n.y);
  }

  /** Projections of the result: the normal speeds are the new ones and the tangential speeds the old. */
  lemma CollideProjections(n: Vec3, v1: Vec3, v2: Vec3, m1: real, m2: real)
    requires m1 + m2 != 0.0 && PlanarUnit(n)
    ensures var (w1, w2) := Collide(n, v1, v2, m1, m2);
      var (d1, d2) := NormalSpeeds(Dot(n, v1), Dot(n, v2), m1, m2);
      && Dot(n, w1) == d1 && Dot(n, w2) == d2
      && Dot(Tangent(n), w1) == Dot(Tangent(n), v1) && Dot(Tangent(n), w2) == Dot(Tangent(n), v2)
  {
    var t := Tangent(n);
    var (d1, d2) := NormalSpeeds(Dot(n, v1), Dot(n, v2), m1, m2);
    ProjectCombination(n, d1, Dot(t, v1));
    ProjectCombination(n, d2, Dot(t, v2));
  }

  /** Projecting `a * n + b * t` back on `n` and on `t` gives `a` and `b`. */
  lemma ProjectCombination(n: Vec3, a: real, b: real)
    requires PlanarUnit(n)
    ensures var w := Add(Scale(n, a), Scale(Tangent(n), b));
      Dot(n, w) == a && Dot(Tangent(n), w) == b
  {
    var t := Tangent(n);
    var w := Add(Scale(n, a), Scale(t, b));
    assert Dot(n, w) == a * (n.x * n.x + n.y * n.y) + b * (n.x * -n.y + n.y * n.x);
    assert Dot(t, w) == a * (-n.y * n.x + n.x * n.y) + b * (n.y * n.y + n.x * n.x);
  }

  /** Mass-weighted sums of two combinations of `n` and `t` combine coefficient by coefficient. */
  lemma WeightedSum(n: Vec3, t: Vec3, a1: real, b1: real, a2: real, b2: real, m1: real, m2: real)
    ensures Add(Scale(Add(Scale(n, a1), Scale(t, b1)), m1), Scale(Add(Scale(n, a2), Scale(t, b2)), m2))
         == Add(Scale(n, m1 * a1 + m2 * a2), Scale(t, m1 * b1 + m2 * b2))
  {
    assert (n.x * a1 + t.x * b1) * m1 + (n.x * a2 + t.x * b2) * m2 == n.x * (m1 * a1 + m2 * a2) + t.x * (m1 * b1 + m2 * b2);
    assert (n.y * a1 + t.y * b1) * m1 + (n.y * a2 + t.y * b2) * m2 == n.y * (m1 * a1 + m2 * a2) + t.y * (m1 * b1 + m2 * b2);
    assert (n.z * a1 + t.z * b1) * m1 + (n.z * a2 + t.z * b2) * m2 == n.z * (m1 * a1 + m2 * a2) + t.z * (m1 * b1 + m2 * b2);
  }

  /** For planar motion, the collision conserves the total momentum vector. */
  lemma MomentumConserved(n: Vec3, v1: Vec3, v2: Vec3, m1: real, m2: real)
    requires m1 + m2 != 0.0 && PlanarUnit(n) && v1.z == 0.0 && v2.z == 0.0
    ensures var (w1, w2) := Collide(n, v1, v2, m1, m2);
      Add(Scale(w1, m1), Scale(w2, m2)) == Add(Scale(v1, m1), Scale(v2, m2))
  {
    var t := Tangent(n);
    var a1, b1 := Dot(n, v1), Dot(t, v1);
    var a2, b2 := Dot(n, v2), Dot(t, v2);
    var (d1, d2) := NormalSpeeds(a1, a2, m1, m2);
    NormalMomentum(a1, a2, m1, m2);
    assert m1 * d1 + m2 * d2 == m1 * a1 + m2 * a2;
    var w1 := Add(Scale(n, d1), Scale(t, b1));
    var w2 := Add(Scale(n, d2), Scale(t, b2));
    assert Collide(n, v1, v2, m1, m2) == (w1, w2);
    Decompose(n, v1);
    Decompose(n, v2);
    WeightedSum(n, t, d1, b1, d2, b2, m1, m2);
    WeightedSum(n, t, a1, b1, a2, b2, m1, m2);
  }

  /**
   * Coincident centres: `vec3.normalize` of the zero vector is the zero
   * vector, so there is no fallback direction and both velocities vanish.
   */
  lemma CoincidentCentresStop(v1: Vec3, v2: Vec3, m1: real, m2: real)
    requires m1 + m2 != 0.0
    ensures Collide(Zero, v1, v2, m1, m2) == (Zero, Zero)
  {
    var (d1, d2) := NormalSpeeds(Dot(Zero, v1), Dot(Zero, v2), m1, m2);
    ZeroCombination(d1, Dot(Tangent(Zero), v1));
    ZeroCombination(d2, Dot(Tangent(Zero), v2));
  }

  lemma ZeroCombination(a: real, b: real)
    ensures Add(Scale(Zero, a), Scale(Tangent(Zero), b)) == Zero
  {
    ScaleZero(a);
    assert Tangent(Zero) == Zero;
    ScaleZero(b);
  }

  lemma ScaleZero(k: real)
    ensures Scale(Zero, k) == Zero
  {
  }

  /**
   * The formula as written: the masses are read from `entity.mass`, which
   * no constructor sets, and an undefined mass makes every component NaN
   * (None here).
   */
  function CollideAsWritten(n: Vec3, v1: Vec3, v2: Vec3, m1: Option<real>, m2: Option<real>): (r: Option<(Vec3, Vec3)>)
    ensures m1.None? || m2.None? ==> r.None?
    ensures m1.Some? && m2.Some? && m1.value + m2.value != 0.0 ==>
      r == Some(Collide(n, v1, v2, m1.value, m2.value))
  {
    if m1.None? || m2.None? || m1.value + m2.value == 0.0 then None
    else Some(Collide(n, v1, v2, m1.value, m2.value))
  }

  /** The mass every entity is given in the corrected model. */
  const UnitMass := 1.0

  /** With unit masses the collision exchanges the normal speeds and keeps the tangential ones. */
  lemma UnitMassesExchange(n: Vec3, v1: Vec3, v2: Vec3)
    requires PlanarUnit(n)
    ensures var (w1, w2) := Collide(n, v1, v2, UnitMass, UnitMass);
      && Dot(n, w1) == Dot(n, v2) && Dot(n, w2) == Dot(n, v1)
      && Dot(Tangent(n), w1) == Dot(Tangent(n), v1) && Dot(Tangent(n), w2) == Dot(Tangent(n), v2)
  {
    EqualMassesSwap(Dot(n, v1), Dot(n, v2), UnitMass);
    CollideProjections(n, v1, v2, UnitMass, UnitMass);
  }
}

=== FILE: delta.dfy ===
/**
 * The delta tracker (`Game.deltaState`): every tick it collects the changes
 * entities register, keyed by scope and entity id, and the events they raise,
 * so that the server can send replicas only what changed.
 */
module DeltaTracking {
  import opened Json

  /** One `registerChange(type, id, prop, val)` call: a defined `val` sets one field, none replaces the record. */
  datatype Change = Field(prop: Prop, value: Value) | Whole(record: Bag)

  /** The scope → id → record map of registered changes. */
  type Changes = map<string, map<string, Bag>>

  /** The record registered for `id` in `scope`, or the empty record the sanity checks create. */
  function RecordOf(changes: Changes, scope: string, id: string): Bag {
    if scope in changes && id in changes[scope] then changes[scope][id] else map[]
  }

  /** The changes after one `registerChange` call. */
  function Register(changes: Changes, scope: string, id: string, c: Change): (r: Changes)
    ensures scope in r && id in r[scope]
  {
    var inScope := if scope in changes then changes[scope] else map[];
    var rec := match c
      case Field(p, v) => RecordOf(changes, scope, id)[p := v]
      case Whole(b) => b;
    changes[scope := inScope[id := rec]]
  }

  /**
   * Setting a field records that value and keeps every other field of the
   * record; replacing the record stores it as given; every other record is
   * left as it was.
   */
  lemma RegisterEffect(changes: Changes, scope: string, id: string, c: Change, scope': string, id': string)
    ensures var r := Register(changes, scope, id, c);
      if scope' == scope && id' == id then
        (c.Field? ==> RecordOf(r, scope, id) == RecordOf(changes, scope, id)[c.prop := c.value]) &&
        (c.Whole? ==> RecordOf(r, scope, id) == c.record)
      else
        RecordOf(r, scope', id') == RecordOf(changes, scope', id') &&
        (scope' in r && id' in r[scope'] <==> scope' in changes && id' in changes[scope'])
  {
  }

  /** The scope's records, or the empty map the sanity check creates. */
  function InScope(changes: Changes, scope: string): map<string, Bag> {
    if scope in changes then changes[scope] else map[]
  }

  /** Two field changes to one record leave it with both fields set, the second on top. */
  lemma {:induction false} FieldChangesStack(changes: Changes, scope: string, id: string,
                                              p: Prop, v: Value, q: Prop, w: Value)
    ensures Register(Register(changes, scope, id, Field(p, v)), scope, id, Field(q, w))
         == changes[scope := InScope(changes, scope)[id := RecordOf(changes, scope, id)[p := v][q := w]]]
  {
    var inScope := InScope(changes, scope);
    var first := RecordOf(changes, scope, id)[p := v];
    var c1 := Register(changes, scope, id, Field(p, v));
    assert c1 == changes[scope := inScope[id := first]];
    assert RecordOf(c1, scope, id) == first;
    assert InScope(c1, scope) == inScope[id := first];
    assert inScope[id := first][id := first[q := w]] == inScope[id := first[q := w]];
  }

  /** Two field changes to different properties of a record commute. */
  lemma {:induction false} FieldChangesCommute(changes: Changes, scope: string, id: string,
                                                p: Prop, v: Value, q: Prop, w: Value)
    requires p != q
    ensures Register(Register(changes, scope, id, Field(p, v)), scope, id, Field(q, w))
         == Register(Register(changes, scope, id, Field(q, w)), scope, id, Field(p, v))
  {
    var rec := RecordOf(changes, scope, id);
    FieldChangesStack(changes, scope, id, p, v, q, w);
    FieldChangesStack(changes, scope, id, q, w, p, v);
    UpdatesCommute(rec, p, v, q, w);
  }

  lemma UpdatesCommute<K, V>(m: map<K, V>, a: K, x: V, b: K, y: V)
    requires a != b
    ensures m[a := x][b := y] == m[b := y][a := x]
  {
  }

  /** A record replacement discards the fields set before it in the same tick. */
  lemma WholeOverridesField(changes: Changes, scope: string, id: string, p: Prop, v: Value, b: Bag)
    ensures Register(Register(changes, scope, id, Field(p, v)), scope, id, Whole(b))
         == Register(changes, scope, id, Whole(b))
  {
    var inScope := if scope in changes then changes[scope] else map[];
    var rec := RecordOf(changes, scope, id);
    assert inScope[id := rec[p := v]][id := b] == inScope[id := b];
  }

  class DeltaTracker {
    var changes: Changes
    /** `deltaState.events`: each event is `[name, entityId, ...args]`. */
    var events: seq<seq<Value>>

    constructor ()
      ensures changes == map[] && events == []
    {
      changes := map[];
      events := [];
    }

    /** `this.deltaState = {}` at the start of a tick. */
    method Reset()
      modifies this
      ensures changes == map[] && events == []
    {
      changes := map[];
      events := [];
    }

    /** `Game.registerChange(type, id, prop, val)`. */
    method RegisterChange(scope: string, id: string, c: Change)
      modifies this
      ensures changes == Register(old(changes), scope, id, c)
      ensures events == old(events)
    {
      // the sanity checks: missing scope and record objects start out empty
      var inScope := if scope in changes then changes[scope] else map[];
      var rec := if id in inScope then inScope[id] else map[];
      match c
      case Field(p, v) =>
        assert rec == RecordOf(changes, scope, id);
        rec := rec[p := v];
        changes := changes[scope := inScope[id := rec]];
        assert changes == Register(old(changes), scope, id, c);
      case Whole(b) =>
        rec := b;
        changes := changes[scope := inScope[id := rec]];
    }

    /** `Game.registerEvent(event)`: appends the event. */
    method RegisterEvent(event: seq<Value>)
      modifies this
      ensures events == old(events) + [event]
      ensures changes == old(changes)
    {
      events := events + [event];
    }
  }
}

=== FILE: engine.dfy ===
/**
 * The game engine, `Game`: the entity array and its id map, the command
 * and schedule buffers, the tick (`computeState`), the lobby operations,
 * save/load and the replica-side `delta`.
 *
 * Oracles stand for what the engine does not compute itself: `trig` for
 * `Math.sin`/`Math.cos`, `unit` for `vec3.normalize`, `returnsFalse` for
 * what a scheduled callback returns, and uniform draws `u` in [0, 1) for
 * `Math.random()`.
 */
module Engine {
  import opened Options
  import opened Vectors
  import opened Json
  import opened DeltaTracking
  import opened Entities
  import opened Scheduling
  import opened World
  import opened Snapshots
  import Players

  /** `Math.round(x)`: the nearest integer, halves rounded up. */
  function Round(x: real): (n: int)
    ensures n as real - 0.5 <= x < n as real + 0.5
  {
    (x + 0.5).Floor
  }

  /** `TICK_RATE = Math.round(1000 / 30)`: milliseconds per tick. */
  const TickRate: int := Round(1000.0 / 30.0)

  /** `STATE_BUFFER_TIME = TICK_RATE * 3`. */
  const StateBufferTime: int := TickRate * 3

  /** A tick is 33 ms, and the state buffer holds `99 / 33 = 3` messages. */
  lemma TickConstants()
    ensures TickRate == 33
    ensures StateBufferTime as real / TickRate as real == BufferLimit as real
  {
    assert Round(1000.0 / 30.0) == 33;
  }

  /** `timeStamp - this.state.timeStamp`: the time since the state's stamp. */
  function Elapsed(now: real, stamp: real): (d: real)
    ensures stamp + d == now
  {
    now - stamp
  }

  /** The draw `u` scaled to a width `w`. */
  function Scale(u: real, w: real): real {
    u * w
  }

  /** `random(min, max)` for the draw `u`: `u * (max - min + 1) + min`. */
  function Random(min: real, max: real, u: real): real {
    Scale(u, max - min + 1.0) + min
  }

  lemma ScaleBounds(u: real, w: real)
    requires 0.0 <= u < 1.0 && 0.0 < w
    ensures 0.0 <= Scale(u, w) < w
  {
    assert w - u * w == (1.0 - u) * w;
    assert 0.0 < (1.0 - u) * w;
  }

  /** A draw lands in [min, max + 1): spawn positions can lie up to one unit beyond the world. */
  lemma RandomRange(min: real, max: real, u: real)
    requires 0.0 <= u < 1.0 && min <= max
    ensures min <= Random(min, max, u) < max + 1.0
  {
    ScaleBounds(u, max - min + 1.0);
  }

  /** `Math.PI / 2` as a double. */
  const HalfPi: real := 1.5707963267948966

  /** The command buffer after a drain: every id that has an entity is left with an empty queue. */
  function Drained(buffer: map<string, seq<Players.Command>>, ids: seq<string>): map<string, seq<Players.Command>> {
    map id | id in buffer :: if id in ids then [] else buffer[id]
  }

  /**
   * The controls the drain leaves on the entity at `k`: only a player gets
   * commands, and only the last entity with an id finds its queue full.
   */
  function Commanded(c: Controls, kind: Kind, ids: seq<string>, k: int, buffer: map<string, seq<Players.Command>>): Controls
    requires 0 <= k < |ids|
  {
    if kind == PlayerKind && LastWithId(ids, k) && ids[k] in buffer then Players.ApplyAll(c, buffer[ids[k]]) else c
  }

  /** Visiting index `i` after the later ones: its queue is still there only if it was there to begin with. */
  lemma DrainedHas(buffer: map<string, seq<Players.Command>>, ids: seq<string>, i: int)
    requires 0 <= i < |ids|
    ensures ids[i] in Drained(buffer, ids[i + 1..]) <==> ids[i] in buffer
  {
  }

  /** The queue visiting index `i` finds is full only if no later entity has its id. */
  lemma DrainedFinds(buffer: map<string, seq<Players.Command>>, ids: seq<string>, i: int)
    requires 0 <= i < |ids| && ids[i] in buffer
    ensures Drained(buffer, ids[i + 1..])[ids[i]] == if LastWithId(ids, i) then buffer[ids[i]] else []
  {
    if !LastWithId(ids, i) {
      var j :| i < j < |ids| && ids[j] == ids[i];
      assert ids[j] in ids[i + 1..];
    } else {
      assert ids[i] !in ids[i + 1..];
    }
  }

  /** Emptying the queue visited at index `i` gives the buffer drained from `i` on. */
  lemma DrainedStep(buffer: map<string, seq<Players.Command>>, ids: seq<string>, i: int)
    requires 0 <= i < |ids|
    ensures var d := Drained(buffer, ids[i + 1..]);
      Drained(buffer, ids[i..]) == if ids[i] in d then d[ids[i] := []] else d
  {
    assert ids[i..] == [ids[i]] + ids[i + 1..];
  }

  /** The kinds of the entities, in order. */
  function Kinds(es: seq<Entity>): (r: seq<Kind>)
    ensures |r| == |es| && forall k :: 0 <= k < |es| ==> r[k] == es[k].kind
  {
    if es == [] then [] else Kinds(es[..|es| - 1]) + [es[|es| - 1].kind]
  }

  /** The controls of a whole array after the drain, entity by entity as `Commanded` says. */
  function AfterDrain(cs: seq<Controls>, kinds: seq<Kind>, ids: seq<string>, buffer: map<string, seq<Players.Command>>): (r: seq<Controls>)
    requires |cs| == |kinds| == |ids|
    ensures |r| == |cs| && forall k :: 0 <= k < |cs| ==> r[k] == Commanded(cs[k], kinds[k], ids, k, buffer)
  {
    seq(|cs|, k requires 0 <= k < |cs| => Commanded(cs[k], kinds[k], ids, k, buffer))
  }

  /** The controls of each entity, in order. */
  function ControlsSeq(es: seq<Entity>): (r: seq<Controls>)
    reads es
    ensures |r| == |es| && forall k :: 0 <= k < |es| ==> r[k] == Players.ControlsOf(es[k])
  {
    if es == [] then [] else ControlsSeq(es[..|es| - 1]) + [Players.ControlsOf(es[|es| - 1])]
  }

  /** Queued commands run first in, first out: queueing more runs them after the earlier ones. */
  lemma {:induction false} ApplyAllConcat(c: Controls, a: seq<Players.Command>, b: seq<Players.Command>)
    ensures Players.ApplyAll(c, a + b) == Players.ApplyAll(Players.ApplyAll(c, a), b)
    decreases |a|
  {
    if a == [] {
      assert a + b == b;
    } else {
      assert (a + b)[0] == a[0] && (a + b)[1..] == a[1..] + b;
      ApplyAllConcat(Players.ApplyCommand(c, a[0]), a[1..], b);
    }
  }

  type Controls = Players.Controls

  /** `while((command = commands.shift())) entity.handleCmd(command)` for a player. */
  method RunCommands(p: Entity, cmds: seq<Players.Command>)
    requires p.kind == PlayerKind
    modifies p`thrust, p`rotateBy, p`shooting
    ensures Players.ControlsOf(p) == Players.ApplyAll(old(Players.ControlsOf(p)), cmds)
  {
    var j := 0;
    while j < |cmds|
      invariant 0 <= j <= |cmds|
      invariant Players.ApplyAll(Players.ControlsOf(p), cmds[j..]) == Players.ApplyAll(old(Players.ControlsOf(p)), cmds)
    {
      assert cmds[j..][1..] == cmds[j + 1..];
      Players.HandleCmd(p, cmds[j]);
      j := j + 1;
    }
  }

  /**
   * Where the drain stands once indices `i` and up have been visited: those
   * have their commands applied, the rest still have their old controls.
   */
  predicate Drawn(cs: seq<Controls>, kinds: seq<Kind>, before: seq<Controls>, ids: seq<string>,
                  buffer: map<string, seq<Players.Command>>, i: int)
    requires |cs| == |kinds| == |before| == |ids|
  {
    forall k :: 0 <= k < |cs| ==>
      cs[k] == if k < i then before[k] else Commanded(before[k], kinds[k], ids, k, buffer)
  }

  /** The controls after the entity at `i` has run `cmds`: a change only if it is a player. */
  function Queued(cs: seq<Controls>, kinds: seq<Kind>, i: int, cmds: seq<Players.Command>): (r: seq<Controls>)
    requires 0 <= i < |cs| == |kinds|
    ensures |r| == |cs| && forall k :: 0 <= k < |cs| && k != i ==> r[k] == cs[k]
    ensures r[i] == if kinds[i] == PlayerKind then Players.ApplyAll(cs[i], cmds) else cs[i]
  {
    cs[i := if kinds[i] == PlayerKind then Players.ApplyAll(cs[i], cmds) else cs[i]]
  }

  /** Runs `cmds` on the entity at `i` if it is a player; nothing else changes. */
  method ApplyQueue(es: seq<Entity>, i: int, cmds: seq<Players.Command>)
    requires 0 <= i < |es| && Distinct(es) && AllValid(es)
    modifies es`thrust, es`rotateBy, es`shooting
    ensures AllValid(es) && Ids(es) == old(Ids(es)) && RemovedFlags(es) == old(RemovedFlags(es))
    ensures ControlsSeq(es) == Queued(old(ControlsSeq(es)), Kinds(es), i, cmds)
  {
    if es[i].kind == PlayerKind {
      RunCommands(es[i], cmds);
    }
  }

  /**
   * The drain's visit to index `j - 1`, once the indices from `j` on have
   * been visited: a player runs its queue, and any queue for its id is
   * emptied.
   */
  method DrainAt(es: seq<Entity>, j: int, buf: map<string, seq<Players.Command>>,
                 ghost ids: seq<string>, ghost flags: seq<bool>, ghost before: seq<Controls>,
                 ghost buffer: map<string, seq<Players.Command>>)
    returns (buf': map<string, seq<Players.Command>>)
    requires 0 < j <= |es| == |ids| == |before| && Distinct(es) && AllValid(es) && Ids(es) == ids && RemovedFlags(es) == flags
    requires buf == Drained(buffer, ids[j..]) && Drawn(ControlsSeq(es), Kinds(es), before, ids, buffer, j)
    modifies es`thrust, es`rotateBy, es`shooting
    ensures AllValid(es) && Ids(es) == ids && RemovedFlags(es) == flags
    ensures buf' == Drained(buffer, ids[j - 1..]) && Drawn(ControlsSeq(es), Kinds(es), before, ids, buffer, j - 1)
  {
    var i := j - 1;
    ghost var cs := ControlsSeq(es);
    var e := es[i];
    var key := KeyOf(e.id);
    assert key == ids[i];
    buf' := buf;
    if key in buf {
      ApplyQueue(es, i, buf[key]);
      buf' := buf[key := []];
    }
    DrawnStep(cs, ControlsSeq(es), Kinds(es), before, ids, buffer, i, buf, buf');
  }

  /** The drain's step on values: visiting index `i` extends what `Drawn` and `Drained` describe by one. */
  lemma DrawnStep(cs: seq<Controls>, cs': seq<Controls>, kinds: seq<Kind>, before: seq<Controls>, ids: seq<string>,
                  buffer: map<string, seq<Players.Command>>, i: int, buf: map<string, seq<Players.Command>>,
                  buf': map<string, seq<Players.Command>>)
    requires 0 <= i < |cs| == |kinds| == |before| == |ids|
    requires Drawn(cs, kinds, before, ids, buffer, i + 1) && buf == Drained(buffer, ids[i + 1..])
    requires ids[i] in buf ==> cs' == Queued(cs, kinds, i, buf[ids[i]]) && buf' == buf[ids[i] := []]
    requires ids[i] !in buf ==> cs' == cs && buf' == buf
    ensures |cs'| == |cs| && Drawn(cs', kinds, before, ids, buffer, i) && buf' == Drained(buffer, ids[i..])
  {
    DrainedStep(buffer, ids, i);
    DrainedHas(buffer, ids, i);
    if ids[i] in buffer {
      DrainedFinds(buffer, ids, i);
    }
  }

  /** The drain over the entity array, on the buffer `buffer`; it returns the new buffer. */
  method DrainLoop(es: seq<Entity>, buffer: map<string, seq<Players.Command>>) returns (buf: map<string, seq<Players.Command>>)
    requires Distinct(es) && AllValid(es)
    modifies es`thrust, es`rotateBy, es`shooting
    ensures AllValid(es) && Ids(es) == old(Ids(es)) && RemovedFlags(es) == old(RemovedFlags(es))
    ensures buf == Drained(buffer, Ids(es))
    ensures ControlsSeq(es) == AfterDrain(old(ControlsSeq(es)), Kinds(es), Ids(es), buffer)
  {
    ghost var ids := Ids(es);
    ghost var flags := RemovedFlags(es);
    ghost var before := ControlsSeq(es);
    buf := buffer;
    var i := |es|;
    assert ids[i..] == [];
    while i > 0
      invariant 0 <= i <= |es| && AllValid(es) && Ids(es) == ids && RemovedFlags(es) == flags
      invariant buf == Drained(buffer, ids[i..]) && Drawn(ControlsSeq(es), Kinds(es), before, ids, buffer, i)
    {
      buf := DrainAt(es, i, buf, ids, flags, before, buffer);
      i := i - 1;
    }
    assert ids[0..] == ids;
    assert ControlsSeq(es) == AfterDrain(before, Kinds(es), ids, buffer);
  }

  /**
   * The body of `computeState` over the entity array `es`, the command
   * buffer `buffer` and the schedule `tasks`: the delta state `tr` is
   * reset, then come the command drain, the schedule's countdown pass and
   * the physics pass.
   */
  method Tick(es: seq<Entity>, buffer: map<string, seq<Players.Command>>, tasks: seq<Task>, ms: map<Callback, real>,
              delta: real, trig: real -> (real, real), unit: Vec3 -> Vec3, returnsFalse: Callback -> bool, tr: DeltaTracker,
              ghost ids: seq<string>, ghost flags: seq<bool>, ghost h: seq<Snap>)
    returns (buf: map<string, seq<Players.Command>>, ongoing: seq<Task>, called: seq<Callback>,
             kept: seq<Entity>, keptMap: map<string, int>, pairs: seq<(int, int)>, ghost sw: Sweep)
    requires Distinct(es) && AllValid(es) && Ids(es) == ids && RemovedFlags(es) == flags && SnapsAre(es, h)
    modifies es`thrust, es`rotateBy, es`shooting
    modifies es`lastPos, es`angle, es`velocity, es`shield, es`pos, es`shieldMax, es`health, es`remove, tr
    ensures buf == Drained(buffer, ids)
    ensures ongoing == Survivors(tasks, delta, ms, returnsFalse)
    ensures called == FiredCallbacks(tasks, delta)
    ensures Swept(es, sw, kept, pairs, delta, trig)
    ensures ShapesAre(es, sw.shapes) && sw.turns[0] == h && SnapsAre(es, sw.turns[|es|])
    ensures Distinct(kept) && AllValid(kept) && IndexMap(Ids(kept), keptMap)
  {
    buf := ResetAndDrain(es, buffer, tr, ids, flags);
    ongoing, called := RunSchedule(tasks, delta, ms, returnsFalse);
    kept, keptMap, pairs, sw := Physics(es, delta, trig, unit, tr, h);
  }

  /** The start of a tick: the delta state is reset and the commands drained. */
  method ResetAndDrain(es: seq<Entity>, buffer: map<string, seq<Players.Command>>, tr: DeltaTracker,
                       ghost ids: seq<string>, ghost flags: seq<bool>)
    returns (buf: map<string, seq<Players.Command>>)
    requires Distinct(es) && AllValid(es) && Ids(es) == ids && RemovedFlags(es) == flags
    modifies es`thrust, es`rotateBy, es`shooting, tr
    ensures AllValid(es) && Ids(es) == ids && RemovedFlags(es) == flags
    ensures buf == Drained(buffer, ids)
    ensures tr.changes == map[] && tr.events == []
  {
    tr.Reset();
    buf := DrainLoop(es, buffer);
  }

  /**
   * The physics pass from the snapshots `h` of the entities: it is recorded
   * in `sw` as `Swept` describes, from `h` to the snapshots it leaves, and
   * every entity it keeps is valid.
   */
  method Physics(es: seq<Entity>, delta: real, trig: real -> (real, real), unit: Vec3 -> Vec3, tr: DeltaTracker, ghost h: seq<Snap>)
    returns (kept: seq<Entity>, keptMap: map<string, int>, pairs: seq<(int, int)>, ghost sw: Sweep)
    requires Distinct(es) && AllValid(es) && SnapsAre(es, h)
    modifies es`lastPos, es`angle, es`velocity, es`shield, es`pos, es`shieldMax, es`health, es`remove, tr
    ensures Swept(es, sw, kept, pairs, delta, trig)
    ensures ShapesAre(es, sw.shapes) && sw.turns[0] == h && SnapsAre(es, sw.turns[|es|])
    ensures Distinct(kept) && AllValid(kept) && IndexMap(Ids(kept), keptMap)
  {
    kept, keptMap, pairs, sw := PhysicsPass(es, delta, trig, unit, tr, h);
    FilterValid(es, sw.visited);
  }

  /** Pushing a new valid entity and mapping its id to its index keeps the state sound. */
  lemma PushKeepsSound(es: seq<Entity>, m: map<string, int>, p: Entity)
    requires Distinct(es) && AllValid(es) && MapSound(Ids(es), m) && p !in es && p.Valid()
    ensures Ids(es + [p]) == Ids(es) + [KeyOf(p.id)]
    ensures Distinct(es + [p]) && AllValid(es + [p]) && MapSound(Ids(es + [p]), m[KeyOf(p.id) := |es|])
  {
    assert Ids(es + [p]) == Ids(es) + [KeyOf(p.id)];
    PushDistinct(es, p);
    PushAllValid(es, p);
    PushMapSound(Ids(es), m, KeyOf(p.id));
  }

  lemma PushAllValid(es: seq<Entity>, p: Entity)
    requires AllValid(es) && p.Valid()
    ensures AllValid(es + [p])
  {
    var es' := es + [p];
    forall k | 0 <= k < |es'|
      ensures es'[k].Valid()
    {
      if k < |es| {
        assert es'[k] == es[k];
      }
    }
  }

  lemma PushDistinct(es: seq<Entity>, p: Entity)
    requires Distinct(es) && p !in es
    ensures Distinct(es + [p])
  {
    var es' := es + [p];
    forall i, j | 0 <= i < j < |es'|
      ensures es'[i] != es'[j]
    {
      assert es'[i] == es[i];
    }
  }

  lemma PushMapSound(ids: seq<string>, m: map<string, int>, id: string)
    requires MapSound(ids, m)
    ensures MapSound(ids + [id], m[id := |ids|])
  {
    var ids', m' := ids + [id], m[id := |ids|];
    forall x | x in m'
      ensures 0 <= m'[x] < |ids'| && ids'[m'[x]] == x
    {
      if x != id {
        assert ids'[m[x]] == ids[m[x]];
      }
    }
  }

  /** `entity.destroy()` on the entity at `i`: only its removal flag changes. */
  method DestroyAt(es: seq<Entity>, i: int, tr: DeltaTracker)
    requires 0 <= i < |es| && Distinct(es) && AllValid(es)
    modifies es`remove, tr
    ensures AllValid(es) && Ids(es) == old(Ids(es))
    ensures RemovedFlags(es) == old(RemovedFlags(es))[i := true]
    ensures tr.changes == Register(old(tr.changes), Scope, KeyOf(es[i].id), Field(Remove, Bool(true)))
    ensures tr.events == old(tr.events) + [Event("destroy", es[i].id, [])]
  {
    es[i].Destroy(tr);
  }

  /** `join`'s default data: the id and a random position. */
  function SpawnBag(id: string, u1: real, u2: real): Bag {
    map[Id := Str(id), Pos := Vec(Vec3(Random(0.0, Width, u1), Random(0.0, Height, u2), 0.0))]
  }

  /** The default data: the id, and a position within one unit beyond the world on each axis. */
  lemma SpawnBagRanges(id: string, u1: real, u2: real)
    requires 0.0 <= u1 < 1.0 && 0.0 <= u2 < 1.0
    ensures var b := SpawnBag(id, u1, u2);
      && IdOf(b) == Some(Str(id))
      && 0.0 <= VecOf(b, Pos).x < Width + 1.0 && 0.0 <= VecOf(b, Pos).y < Height + 1.0 && VecOf(b, Pos).z == 0.0
  {
    RandomRange(0.0, Width, u1);
    RandomRange(0.0, Height, u2);
  }

  /** `addBot`'s data: the id, subtype "bot", a random position, velocity and angle. */
  function BotBag(id: string, u1: real, u2: real, u3: real, u4: real, u5: real): Bag {
    map[Id := Str(id), Subtype := Str("bot"),
        Pos := Vec(Vec3(Random(0.0, Width, u1), Random(0.0, Height, u2), 0.0)),
        Velocity := Vec(Vec3(Random(-2.0, 2.0, u3) / 10.0, Random(-2.0, 2.0, u4) / 10.0, 0.0)),
        Angle := Num(Random(0.0, HalfPi, u5))]
  }

  /** The bot's data: its id, no `bot` or `remove` flag, and every draw within its range. */
  lemma BotBagRanges(id: string, u1: real, u2: real, u3: real, u4: real, u5: real)
    requires 0.0 <= u1 < 1.0 && 0.0 <= u2 < 1.0 && 0.0 <= u3 < 1.0 && 0.0 <= u4 < 1.0 && 0.0 <= u5 < 1.0
    ensures var b := BotBag(id, u1, u2, u3, u4, u5);
      && IdOf(b) == Some(Str(id)) && !Has(b, Bot) && !Has(b, Remove)
      && 0.0 <= VecOf(b, Pos).x < Width + 1.0 && 0.0 <= VecOf(b, Pos).y < Height + 1.0
      && -0.2 <= VecOr(b, Velocity, Vec3(0.15, 0.15, 0.0)).x < 0.3
      && -0.2 <= VecOr(b, Velocity, Vec3(0.15, 0.15, 0.0)).y < 0.3
      && 0.0 <= NumOr(b, Angle, 0.0) < HalfPi + 1.0
  {
    RandomRange(0.0, Width, u1);
    RandomRange(0.0, Height, u2);
    RandomRange(-2.0, 2.0, u3);
    RandomRange(-2.0, 2.0, u4);
    RandomRange(0.0, HalfPi, u5);
  }

  /** Whether a new object starts flagged for removal: Player and Bullet copy a truthy `remove`. */
  predicate InitialRemoved(k: Kind, r: Bag) {
    (k == PlayerKind || k == BulletKind) && Has(r, Remove)
  }

  /**
   * `_instantiate(record)`: a new object of the class listed for the
   * record's type and subtype, built from the record; None (`false`) when
   * no class is listed.
   */
  method Instantiate(r: Bag) returns (e: Option<Entity>)
    ensures e.Some? <==> ClassOf(r).Some?
    ensures e.Some? ==> fresh(e.value) && e.value.Valid()
    ensures e.Some? ==> e.value.kind == ClassOf(r).value && e.value.id == IdOf(r)
    ensures e.Some? ==> e.value.Removed() == InitialRemoved(e.value.kind, r)
  {
    var k := ClassOf(r);
    if k == None {
      return None;
    }
    var x: Entity;
    if k.value == PlayerKind {
      x := new Entity.Player(r);
    } else if k.value == BulletKind {
      x := new Entity.Bullet(r);
    } else if k.value == AsteroidKind {
      x := new Entity.Asteroid(r);
    } else if k.value == ShieldKind {
      x := new Entity.Shield(r);
    } else {
      x := new Entity.ShieldUp(r);
    }
    e := Some(x);
  }

  /** `Loadable` grows by one record at a time while no falsy entry has been met. */
  lemma LoadableSnoc(entries: seq<Option<Bag>>, i: int)
    requires 0 <= i < |entries| && forall k :: 0 <= k <= i ==> entries[k].Some?
    ensures Loadable(entries[..i + 1]) ==
      Loadable(entries[..i]) + (if ClassOf(entries[i].value).Some? then [entries[i].value] else [])
  {
    LoadableSnocRec(entries[..i + 1]);
    assert entries[..i + 1][..i] == entries[..i];
  }

  lemma {:induction false} LoadableSnocRec(entries: seq<Option<Bag>>)
    requires entries != [] && forall k :: 0 <= k < |entries| ==> entries[k].Some?
    ensures var n := |entries| - 1;
      Loadable(entries) == Loadable(entries[..n]) + (if ClassOf(entries[n].value).Some? then [entries[n].value] else [])
    decreases |entries|
  {
    var n := |entries| - 1;
    if n > 0 {
      LoadableSnocRec(entries[1..]);
      assert entries[1..][..n - 1] == entries[..n][1..];
      assert entries[1..][n - 1] == entries[n];
    }
  }

  /** The keys the records' ids index maps by. */
  function RecordIds(rs: seq<Bag>): (r: seq<string>)
    ensures |r| == |rs| && forall k :: 0 <= k < |rs| ==> r[k] == IdKey(rs[k])
  {
    seq(|rs|, k requires 0 <= k < |rs| => IdKey(rs[k]))
  }

  /** The classes the records are listed under. */
  function Classes(rs: seq<Bag>): (r: seq<Option<Kind>>)
    ensures |r| == |rs| && forall k :: 0 <= k < |rs| ==> r[k] == ClassOf(rs[k])
  {
    seq(|rs|, k requires 0 <= k < |rs| => ClassOf(rs[k]))
  }

  /** The classes of the entities. */
  function KindOpts(es: seq<Entity>): (r: seq<Option<Kind>>)
    ensures |r| == |es| && forall k :: 0 <= k < |es| ==> r[k] == Some(es[k].kind)
  {
    seq(|es|, k requires 0 <= k < |es| => Some(es[k].kind))
  }

  /**
   * `es` and `m` are what `load` has built from the first `i` entries: one
   * entity per loadable record, of the record's class and with its id, all
   * distinct and valid, and the map sending each id to its last index.
   */
  ghost predicate Loaded(entries: seq<Option<Bag>>, i: int, es: seq<Entity>, m: map<string, int>)
    reads es`id, es`typeName, es`subtype, es`acceleration, es`angle, es`remove, es`radius
  {
    && 0 <= i <= |entries| && (forall k :: 0 <= k < i ==> entries[k].Some?)
    && Ids(es) == RecordIds(Loadable(entries[..i]))
    && KindOpts(es) == Classes(Loadable(entries[..i]))
    && Distinct(es) && AllValid(es) && IndexMap(Ids(es), m)
  }

  /** Ids and classes of a pushed entity and of an appended record line up. */
  lemma PushRecord(es: seq<Entity>, rs: seq<Bag>, e: Entity, r: Bag)
    requires Ids(es) == RecordIds(rs) && KindOpts(es) == Classes(rs)
    requires e.id == IdOf(r) && Some(e.kind) == ClassOf(r)
    ensures Ids(es + [e]) == RecordIds(rs + [r]) && KindOpts(es + [e]) == Classes(rs + [r])
  {
    assert Ids(es + [e]) == Ids(es) + [KeyOf(e.id)];
    assert RecordIds(rs + [r]) == RecordIds(rs) + [IdKey(r)];
    assert KindOpts(es + [e]) == KindOpts(es) + [Some(e.kind)];
    assert Classes(rs + [r]) == Classes(rs) + [ClassOf(r)];
  }

  /** One turn of `load`'s loop: the entry at `i` is instantiated and pushed if its class is listed. */
  method LoadStep(entries: seq<Option<Bag>>, i: int, es: seq<Entity>, m: map<string, int>)
    returns (es': seq<Entity>, m': map<string, int>)
    requires Loaded(entries, i, es, m) && i < |entries| && entries[i].Some?
    ensures Loaded(entries, i + 1, es', m')
  {
    var e := Instantiate(entries[i].value);
    if e.Some? {
      LoadPushed(entries, i, es, m, e.value);
      es', m' := es + [e.value], m[KeyOf(e.value.id) := |es|];
    } else {
      LoadSkipped(entries, i, es, m);
      es', m' := es, m;
    }
  }

  lemma LoadPushed(entries: seq<Option<Bag>>, i: int, es: seq<Entity>, m: map<string, int>, e: Entity)
    requires Loaded(entries, i, es, m) && i < |entries| && entries[i].Some?
    requires e !in es && e.Valid() && e.id == IdOf(entries[i].value) && Some(e.kind) == ClassOf(entries[i].value)
    ensures Loaded(entries, i + 1, es + [e], m[KeyOf(e.id) := |es|])
  {
    LoadableSnoc(entries, i);
    IndexMapPush(Ids(es), m, KeyOf(e.id));
    PushKeepsSound(es, m, e);
    PushRecord(es, Loadable(entries[..i]), e, entries[i].value);
  }

  lemma LoadSkipped(entries: seq<Option<Bag>>, i: int, es: seq<Entity>, m: map<string, int>)
    requires Loaded(entries, i, es, m) && i < |entries| && entries[i].Some? && ClassOf(entries[i].value).None?
    ensures Loaded(entries, i + 1, es, m)
  {
    LoadableSnoc(entries, i);
  }

  /**
   * The index of the last of `es` whose id is `=== id`. `load` tests
   * `this.me.id === entity.id` at each push and moves `me` to the new
   * object; once moved, `me`'s id is `=== id`, so each later test compares
   * with `id` as the first did, and `me` ends at this index.
   */
  function LastMatch(es: seq<Entity>, id: Option<Value>): (r: Option<nat>)
    reads es`id
    ensures r.Some? ==> r.value < |es| && StrictEquals(id, es[r.value].id)
    ensures r.Some? ==> forall j :: r.value < j < |es| ==> !StrictEquals(id, es[j].id)
    ensures r.None? ==> forall j :: 0 <= j < |es| ==> !StrictEquals(id, es[j].id)
  {
    if es == [] then None
    else if StrictEquals(id, es[|es| - 1].id) then Some(|es| - 1)
    else LastMatch(es[..|es| - 1], id)
  }

  lemma LastMatchSnoc(es: seq<Entity>, e: Entity, id: Option<Value>)
    ensures LastMatch(es + [e], id) == if StrictEquals(id, e.id) then Some(|es|) else LastMatch(es, id)
  {
    assert (es + [e])[..|es|] == es;
  }

  /**
   * The loop of `load`: every entry up to the first falsy one is
   * instantiated when its class is listed, pushed, and its id mapped to
   * its index.
   */
  method LoadLoop(entries: seq<Option<Bag>>) returns (es: seq<Entity>, m: map<string, int>)
    ensures Ids(es) == RecordIds(Loadable(entries)) && KindOpts(es) == Classes(Loadable(entries))
    ensures Distinct(es) && AllValid(es) && IndexMap(Ids(es), m)
  {
    es, m := [], map[];
    var i := 0;
    assert Loadable(entries[..0]) == [];
    while i < |entries| && entries[i].Some?
      invariant Loaded(entries, i, es, m) == true
    {
      es, m := LoadStep(entries, i, es, m);
      i := i + 1;
    }
    LoadDone(entries, i);
  }

  /** Where the loop stops, what was loaded is what `Loadable` gives for the whole array. */
  lemma LoadDone(entries: seq<Option<Bag>>, i: int)
    requires 0 <= i <= |entries| && (i == |entries| || entries[i].None?)
    ensures Loadable(entries[..i]) == Loadable(entries)
  {
    if i < |entries| {
      LoadStopsAtFalsy(entries[..i], entries[i + 1..]);
      assert entries[..i] + [None] + entries[i + 1..] == entries;
    } else {
      assert entries[..i] == entries;
    }
  }

  /**
   * What `delta` works on, as values: the entities' ids, classes and
   * removal flags, the id map, and the `mergeDelta(entry)` calls made (the
   * entity's index and the entry).
   */
  datatype Replica = Replica(ids: seq<string>, kinds: seq<Option<Kind>>, removed: seq<bool>,
                             entityMap: map<string, int>, merged: seq<(int, Bag)>)
  {
    predicate WellFormed() {
      |kinds| == |ids| && |removed| == |ids|
    }
  }

  /** The replica view of an entity array, its map and the merges made. */
  function View(es: seq<Entity>, m: map<string, int>, merged: seq<(int, Bag)>): (v: Replica)
    reads es`id, es`remove
    ensures v.WellFormed()
  {
    Replica(Ids(es), KindOpts(es), RemovedFlags(es), m, merged)
  }

  /**
   * One entry of a delta, under the key `key`. A mapped entity is flagged
   * for removal and unmapped when the entry's `remove` is truthy, and merged
   * otherwise. An unmapped key creates the entity the entry describes,
   * unless the entry's id is mapped to a truthy (non-zero) index or no class
   * is listed for it.
   */
  function ApplyEntry(v: Replica, key: string, entry: Bag): (w: Replica)
    requires v.WellFormed()
    ensures w.WellFormed() && v.ids <= w.ids && v.kinds <= w.kinds && |v.removed| <= |w.removed|
    ensures forall i :: 0 <= i < |v.removed| && v.removed[i] ==> w.removed[i]
  {
    if key in v.entityMap && 0 <= v.entityMap[key] < |v.ids| then
      var i := v.entityMap[key];
      if Has(entry, Remove) then v.(removed := v.removed[i := true], entityMap := v.entityMap - {key})
      else v.(merged := v.merged + [(i, entry)])
    else if (IdKey(entry) in v.entityMap && v.entityMap[IdKey(entry)] != 0) || ClassOf(entry).None? then v
    else
      var k := ClassOf(entry).value;
      v.(ids := v.ids + [IdKey(entry)], kinds := v.kinds + [Some(k)], removed := v.removed + [InitialRemoved(k, entry)],
         entityMap := v.entityMap[IdKey(entry) := |v.ids|])
  }

  /** The entries of a delta, in enumeration order. */
  function ApplyEntries(v: Replica, entries: seq<(string, Bag)>): (w: Replica)
    requires v.WellFormed()
    ensures w.WellFormed() && |v.removed| <= |w.removed|
  {
    if entries == [] then v
    else
      var n := |entries| - 1;
      ApplyEntry(ApplyEntries(v, entries[..n]), entries[n].0, entries[n].1)
  }

  /** A delta keeps every entity it had, in place, and keeps the map sound. */
  lemma {:induction false} ApplyEntriesKeeps(v: Replica, entries: seq<(string, Bag)>)
    requires v.WellFormed() && MapSound(v.ids, v.entityMap)
    ensures var w := ApplyEntries(v, entries);
      v.ids <= w.ids && v.kinds <= w.kinds && MapSound(w.ids, w.entityMap)
    decreases |entries|
  {
    if entries != [] {
      var n := |entries| - 1;
      ApplyEntriesKeeps(v, entries[..n]);
      ApplyEntryKeeps(ApplyEntries(v, entries[..n]), entries[n].0, entries[n].1);
    }
  }

  lemma ApplyEntryKeeps(v: Replica, key: string, entry: Bag)
    requires v.WellFormed() && MapSound(v.ids, v.entityMap)
    ensures MapSound(ApplyEntry(v, key, entry).ids, ApplyEntry(v, key, entry).entityMap)
  {
    if !(key in v.entityMap && 0 <= v.entityMap[key] < |v.ids|)
       && !((IdKey(entry) in v.entityMap && v.entityMap[IdKey(entry)] != 0) || ClassOf(entry).None?) {
      PushMapSound(v.ids, v.entityMap, IdKey(entry));
    }
  }

  /** Removing a mapped entity flags it and unmaps its key; its flag is never cleared later in the delta. */
  lemma RemoveEntry(v: Replica, key: string, entry: Bag)
    requires v.WellFormed() && MapSound(v.ids, v.entityMap) && key in v.entityMap && Has(entry, Remove)
    ensures var w := ApplyEntry(v, key, entry);
      key !in w.entityMap && w.removed[v.entityMap[key]] && w.ids == v.ids
  {
  }

  /** A removal flag, once set, stays set for the rest of the delta. */
  lemma {:induction false} RemovalSticks(v: Replica, entries: seq<(string, Bag)>, i: int)
    requires v.WellFormed() && 0 <= i < |v.removed| && v.removed[i]
    ensures ApplyEntries(v, entries).removed[i]
    decreases |entries|
  {
    if entries != [] {
      var n := |entries| - 1;
      RemovalSticks(v, entries[..n], i);
    }
  }

  /**
   * The guard against re-creating an entity reads the mapped index as a
   * truth value, so an entry for the entity at index 0 that arrives under
   * another key creates a second entity with the same id.
   */
  lemma IndexZeroRecreated(v: Replica, key: string, entry: Bag)
    requires v.WellFormed() && key !in v.entityMap && ClassOf(entry).Some?
    requires IdKey(entry) in v.entityMap && v.entityMap[IdKey(entry)] == 0
    ensures ApplyEntry(v, key, entry).ids == v.ids + [IdKey(entry)]
  {
  }

  /** The entity an entry under `key` may flag: the one `key` is mapped to. */
  function Target(es: seq<Entity>, m: map<string, int>, key: string): (t: set<Entity>)
    ensures forall x :: x in t ==> x in es
  {
    if key in m && 0 <= m[key] < |es| then {es[m[key]]} else {}
  }

  /** One entry of `delta` on the entity array: flag and unmap, merge, or create. */
  method DeltaStep(es: seq<Entity>, m: map<string, int>, mg: seq<(int, Bag)>, key: string, entry: Bag, ghost v: Replica)
    returns (es': seq<Entity>, m': map<string, int>, mg': seq<(int, Bag)>)
    requires Distinct(es) && AllValid(es) && MapSound(Ids(es), m) && View(es, m, mg) == v
    modifies Target(es, m, key)`remove
    ensures Distinct(es') && AllValid(es') && MapSound(Ids(es'), m')
    ensures View(es', m', mg') == ApplyEntry(v, key, entry) && es <= es'
    ensures forall x :: x in es' && x !in es ==> fresh(x)
  {
    es', m', mg' := es, m, mg;
    if key in m && 0 <= m[key] < |es| {
      if Has(entry, Remove) {
        m' := DeltaRemove(es, m, mg, key, entry, v);
      } else {
        var i := m[key];
        mg' := mg + [(i, entry)];
      }
    } else if !(IdKey(entry) in m && m[IdKey(entry)] != 0) {
      es', m' := DeltaCreate(es, m, mg, key, entry, v);
    }
  }

  /** An entry for an unmapped key whose id is not mapped past index 0: its object, if it has a class, is created. */
  method DeltaCreate(es: seq<Entity>, m: map<string, int>, mg: seq<(int, Bag)>, key: string, entry: Bag, ghost v: Replica)
    returns (es': seq<Entity>, m': map<string, int>)
    requires Distinct(es) && AllValid(es) && MapSound(Ids(es), m) && View(es, m, mg) == v
    requires !(key in m && 0 <= m[key] < |es|) && !(IdKey(entry) in m && m[IdKey(entry)] != 0)
    ensures Distinct(es') && AllValid(es') && MapSound(Ids(es'), m')
    ensures View(es', m', mg) == ApplyEntry(v, key, entry) && es <= es'
    ensures forall x :: x in es' && x !in es ==> fresh(x)
  {
    es', m' := es, m;
    var e := Instantiate(entry);
    if e.Some? {
      DeltaPushed(es, m, mg, key, entry, v, e.value);
      es', m' := es + [e.value], m[KeyOf(e.value.id) := |es|];
    }
  }

  /** A removal entry for a mapped entity: the entity is flagged and its key unmapped. */
  method DeltaRemove(es: seq<Entity>, m: map<string, int>, mg: seq<(int, Bag)>, key: string, entry: Bag, ghost v: Replica)
    returns (m': map<string, int>)
    requires Distinct(es) && AllValid(es) && MapSound(Ids(es), m) && View(es, m, mg) == v
    requires key in m && 0 <= m[key] < |es| && Has(entry, Remove)
    modifies {es[m[key]]}`remove
    ensures Distinct(es) && AllValid(es) && MapSound(Ids(es), m')
    ensures View(es, m', mg) == ApplyEntry(v, key, entry)
  {
    ghost var ids, flags := Ids(es), RemovedFlags(es);
    FlagAt(es, m[key]);
    m' := m - {key};
    MapSoundRemove(ids, m, key);
    assert View(es, m', mg) == Replica(ids, KindOpts(es), flags[m[key] := true], m', mg);
  }

  /** Unmapping a key keeps a sound map sound. */
  lemma MapSoundRemove(ids: seq<string>, m: map<string, int>, key: string)
    requires MapSound(ids, m)
    ensures MapSound(ids, m - {key})
  {
  }

  /** `entity.remove = true` on the entity at `i`. */
  method FlagAt(es: seq<Entity>, i: int)
    requires 0 <= i < |es| && Distinct(es) && AllValid(es)
    modifies {es[i]}`remove
    ensures AllValid(es) && Ids(es) == old(Ids(es))
    ensures RemovedFlags(es) == old(RemovedFlags(es))[i := true]
  {
    var e := es[i];
    e.remove := Some(true);
  }

  /** A created entity goes at the end of the array, mapped under its own id. */
  lemma DeltaPushed(es: seq<Entity>, m: map<string, int>, mg: seq<(int, Bag)>, key: string, entry: Bag, v: Replica, e: Entity)
    requires Distinct(es) && AllValid(es) && MapSound(Ids(es), m) && View(es, m, mg) == v
    requires !(key in m && 0 <= m[key] < |es|) && !(IdKey(entry) in m && m[IdKey(entry)] != 0)
    requires e !in es && e.Valid() && Some(e.kind) == ClassOf(entry) && e.id == IdOf(entry)
    requires e.Removed() == InitialRemoved(e.kind, entry)
    ensures Distinct(es + [e]) && AllValid(es + [e]) && MapSound(Ids(es + [e]), m[KeyOf(e.id) := |es|])
    ensures View(es + [e], m[KeyOf(e.id) := |es|], mg) == ApplyEntry(v, key, entry)
  {
    PushKeepsSound(es, m, e);
    PushView(es, m, mg, e);
  }

  lemma PushView(es: seq<Entity>, m: map<string, int>, mg: seq<(int, Bag)>, e: Entity)
    ensures View(es + [e], m[KeyOf(e.id) := |es|], mg) ==
      View(es, m, mg).(ids := Ids(es) + [KeyOf(e.id)], kinds := KindOpts(es) + [Some(e.kind)],
                       removed := RemovedFlags(es) + [e.Removed()], entityMap := m[KeyOf(e.id) := |es|])
  {
    IdsSnoc(es, e);
    KindsSnoc(es, e);
    FlagsSnoc(es, e);
  }

  lemma IdsSnoc(es: seq<Entity>, e: Entity)
    ensures Ids(es + [e]) == Ids(es) + [KeyOf(e.id)]
  {
    assert (es + [e])[..|es|] == es;
  }

  lemma KindsSnoc(es: seq<Entity>, e: Entity)
    ensures KindOpts(es + [e]) == KindOpts(es) + [Some(e.kind)]
  {
  }

  lemma FlagsSnoc(es: seq<Entity>, e: Entity)
    ensures RemovedFlags(es + [e]) == RemovedFlags(es) + [e.Removed()]
  {
    assert (es + [e])[..|es|] == es;
  }

  /** The entries of `delta`, in enumeration order. */
  method DeltaLoop(es: seq<Entity>, m: map<string, int>, mg: seq<(int, Bag)>, entries: seq<(string, Bag)>, ghost v: Replica)
    returns (es': seq<Entity>, m': map<string, int>, mg': seq<(int, Bag)>)
    requires Distinct(es) && AllValid(es) && MapSound(Ids(es), m) && View(es, m, mg) == v
    modifies es`remove
    ensures Distinct(es') && AllValid(es') && MapSound(Ids(es'), m')
    ensures View(es', m', mg') == ApplyEntries(v, entries) && es <= es'
    ensures forall x :: x in es' && x !in es ==> fresh(x)
  {
    es', m', mg' := es, m, mg;
    var j := 0;
    while j < |entries|
      invariant 0 <= j <= |entries| && es <= es'
      invariant forall x :: x in es' && x !in es ==> fresh(x)
      invariant (Distinct(es') && AllValid(es') && MapSound(Ids(es'), m')) == true
      invariant View(es', m', mg') == ApplyEntries(v, entries[..j])
    {
      assert entries[..j + 1][..j] == entries[..j];
      es', m', mg' := DeltaStep(es', m', mg', entries[j].0, entries[j].1, ApplyEntries(v, entries[..j]));
      j := j + 1;
    }
    assert entries[..j] == entries;
  }

  /**
   * `m` maps exactly the ids at index `lo` and above, each to the first
   * index at or above `lo` that holds it.
   */
  predicate FirstIndexFrom(ids: seq<string>, lo: int, m: map<string, int>)
    requires 0 <= lo <= |ids|
  {
    && (forall id :: id in m ==> lo <= m[id] < |ids| && ids[m[id]] == id)
    && (forall id :: id in m ==> forall j :: lo <= j < m[id] ==> ids[j] != id)
    && (forall k :: lo <= k < |ids| ==> ids[k] in m)
  }

  lemma FirstIndexStep(ids: seq<string>, i: int, m: map<string, int>)
    requires 0 <= i < |ids| && FirstIndexFrom(ids, i + 1, m)
    ensures FirstIndexFrom(ids, i, m[ids[i] := i])
  {
  }

  /** The map `save` writes: every id to the first index holding it, in the array's own order. */
  predicate FirstIndexMap(ids: seq<string>, m: map<string, int>) {
    FirstIndexFrom(ids, 0, m)
  }

  class Game {
    /** `deltaState`: the changes and events of the current tick. */
    const tracker: DeltaTracker
    /** `state.entities` and `state.entityMap`. */
    var entities: seq<Entity>
    var entityMap: map<string, int>
    /** `state.timeStamp`. */
    var timeStamp: real
    var stateBuffer: seq<DeltaMsg>
    var updateCount: nat
    var commandBuffer: map<string, seq<Players.Command>>
    var scheduleBuffer: seq<Task>
    /** The `_ms` property `schedule` stores on each callback. */
    var callbackMs: map<Callback, real>
    var me: Option<Entity>
    /** The `eventHandler.fire(name, args)` calls made so far. */
    var fired: seq<(Value, seq<Value>)>
    /** The `mergeDelta(entry)` calls made so far: the entity's index and the entry. */
    var merged: seq<(int, Bag)>

    /**
     * The state invariant: entities are distinct valid objects, every
     * mapped id names an entity with that id, and the state buffer is
     * within its bound.
     */
    ghost predicate Valid()
      reads this`entities, this`entityMap, this`stateBuffer, entities`id
      reads entities`typeName, entities`subtype, entities`acceleration, entities`angle, entities`remove, entities`radius
    {
      && Distinct(entities)
      && AllValid(entities)
      && MapSound(Ids(entities), entityMap)
      && |stateBuffer| <= BufferLimit
    }

    /** `new Game(handler)`: an empty state and empty buffers. */
    constructor ()
      ensures Valid() && fresh(tracker)
      ensures entities == [] && entityMap == map[] && timeStamp == 0.0
      ensures stateBuffer == [] && updateCount == 0 && commandBuffer == map[]
      ensures scheduleBuffer == [] && callbackMs == map[] && me == None
      ensures fired == [] && merged == []
      ensures tracker.changes == map[] && tracker.events == []
    {
      tracker := new DeltaTracker();
      entities, entityMap, timeStamp := [], map[], 0.0;
      stateBuffer, updateCount, commandBuffer := [], 0, map[];
      scheduleBuffer, callbackMs, me := [], map[], None;
      fired, merged := [], [];
    }

    /** `schedule(callback, ms, repeat)`: the interval goes on the callback, the task on the buffer. */
    method Schedule(cb: Callback, ms: real, repeat: bool)
      modifies this`callbackMs, this`scheduleBuffer
      ensures callbackMs == old(callbackMs)[cb := ms]
      ensures scheduleBuffer == old(scheduleBuffer) + [Task(cb, ms, repeat)]
    {
      callbackMs := callbackMs[cb := ms];
      scheduleBuffer := scheduleBuffer + [Task(cb, ms, repeat)];
    }

    /** The queue for `id`: an id never queued for has an empty one. */
    function Queued(id: string): seq<Players.Command>
      reads this
    {
      if id in commandBuffer then commandBuffer[id] else []
    }

    /** `queueCommand(id, data)`: the commands go after those already queued for `id`. */
    method QueueCommand(id: string, data: seq<Players.Command>)
      modifies this`commandBuffer
      ensures commandBuffer == old(commandBuffer)[id := old(Queued(id)) + data]
    {
      commandBuffer := commandBuffer[id := Queued(id) + data];
    }

    /**
     * `computeState(delta)`: one tick. The delta state is reset and the
     * time stamp advanced, then `Tick` drains the commands, counts the
     * schedule down and runs the physics pass, whose survivors become the
     * new entity array and map.
     */
    method ComputeState(delta: real, trig: real -> (real, real), unit: Vec3 -> Vec3, returnsFalse: Callback -> bool)
      returns (called: seq<Callback>, pairs: seq<(int, int)>, ghost sw: Sweep)
      requires Valid()
      modifies this`timeStamp, this`commandBuffer, this`scheduleBuffer, this`entities, this`entityMap, tracker
      modifies entities`thrust, entities`rotateBy, entities`shooting
      modifies entities`lastPos, entities`angle, entities`velocity, entities`shield, entities`pos
      modifies entities`shieldMax, entities`health, entities`remove
      ensures Valid()
      ensures timeStamp == old(timeStamp) + delta
      ensures commandBuffer == Drained(old(commandBuffer), old(Ids(entities)))
      ensures scheduleBuffer == Survivors(old(scheduleBuffer), delta, old(callbackMs), returnsFalse)
      ensures called == FiredCallbacks(old(scheduleBuffer), delta)
      ensures Swept(old(entities), sw, entities, pairs, delta, trig)
      ensures ShapesAre(old(entities), sw.shapes) && SnapsAre(old(entities), sw.turns[|old(entities)|])
      ensures old(SnapsAre(entities, sw.turns[0]))
      ensures IndexMap(Ids(entities), entityMap)
    {
      var buf, ongoing, kept, keptMap;
      ghost var h := SnapsNow(entities);
      buf, ongoing, called, kept, keptMap, pairs, sw :=
        Tick(entities, commandBuffer, scheduleBuffer, callbackMs, delta, trig, unit, returnsFalse, tracker,
             Ids(entities), RemovedFlags(entities), h);
      ghost var ids := Ids(kept);
      SetState(timeStamp + delta, kept, keptMap, buf, ongoing, ids, old(entities), sw.shapes, sw.turns[|old(entities)|]);
    }

    /** Installs the state a tick computed: the time stamp, the entity array and map, and both buffers. */
    method SetState(ts: real, es: seq<Entity>, m: map<string, int>, buf: map<string, seq<Players.Command>>, tasks: seq<Task>,
                    ghost ids: seq<string>, ghost before: seq<Entity>, ghost S: seq<Shape>, ghost h: seq<Snap>)
      requires Distinct(es) && AllValid(es) && Ids(es) == ids && MapSound(ids, m) && |stateBuffer| <= BufferLimit
      requires ShapesAre(before, S) && SnapsAre(before, h)
      modifies this`timeStamp, this`entities, this`entityMap, this`commandBuffer, this`scheduleBuffer
      ensures Valid() && Ids(entities) == ids && ShapesAre(before, S) && SnapsAre(before, h)
      ensures timeStamp == ts && entities == es && entityMap == m && commandBuffer == buf && scheduleBuffer == tasks
    {
      timeStamp, entities, entityMap, commandBuffer, scheduleBuffer := ts, es, m, buf, tasks;
      assert Ids(entities) == ids;
    }

    /** `update(timeStamp)`: one tick of the time elapsed since the state's stamp. */
    method Update(ts: real, trig: real -> (real, real), unit: Vec3 -> Vec3, returnsFalse: Callback -> bool)
      returns (ghost pairs: seq<(int, int)>, ghost sw: Sweep)
      requires Valid()
      modifies this`timeStamp, this`commandBuffer, this`scheduleBuffer, this`entities, this`entityMap, this`updateCount, tracker
      modifies entities`thrust, entities`rotateBy, entities`shooting
      modifies entities`lastPos, entities`angle, entities`velocity, entities`shield, entities`pos
      modifies entities`shieldMax, entities`health, entities`remove
      ensures Valid()
      ensures timeStamp == ts && updateCount == old(updateCount) + 1
      ensures commandBuffer == Drained(old(commandBuffer), old(Ids(entities)))
      ensures scheduleBuffer == Survivors(old(scheduleBuffer), Elapsed(ts, old(timeStamp)), old(callbackMs), returnsFalse)
      ensures Swept(old(entities), sw, entities, pairs, Elapsed(ts, old(timeStamp)), trig)
      ensures ShapesAre(old(entities), sw.shapes) && SnapsAre(old(entities), sw.turns[|old(entities)|])
      ensures old(SnapsAre(entities, sw.turns[0]))
      ensures IndexMap(Ids(entities), entityMap)
    {
      var delta := Elapsed(ts, timeStamp);
      // the count goes up first here: no step of the tick reads it
      ghost var es, ids, h := entities, Ids(entities), SnapsNow(entities);
      updateCount := updateCount + 1;
      assert entities == es && Ids(entities) == ids && SnapsAre(es, h);
      var _, ps, s := ComputeState(delta, trig, unit, returnsFalse);
      pairs, sw := ps, s;
      assert es == old(entities) && ids == old(Ids(entities));
    }

    /** Installs a new entity array, with ids `ids`, and a map that keep the invariant. */
    method Install(es: seq<Entity>, m: map<string, int>, ghost ids: seq<string>)
      requires Distinct(es) && AllValid(es) && Ids(es) == ids && MapSound(ids, m) && |stateBuffer| <= BufferLimit
      modifies this`entities, this`entityMap
      ensures Valid() && entities == es && entityMap == m && Ids(entities) == ids
    {
      entities, entityMap := es, m;
      assert Ids(entities) == ids;
    }

    /** `getEntityById(id)`: the entity the map names for `id`, or None (`false`). */
    function GetEntityById(id: string): (r: Option<Entity>)
      reads this`entities, this`entityMap
      ensures r.Some? ==> r.value in entities
    {
      if id in entityMap && 0 <= entityMap[id] < |entities| then Some(entities[entityMap[id]]) else None
    }

    /** `getPlayerById(id)`: the entity for `id` if its `type` is "player". */
    function GetPlayerById(id: string): (r: Option<Entity>)
      reads this`entities, this`entityMap, entities`typeName
      ensures r.Some? ==> r.value in entities && r.value.Type() == "player"
      ensures r.Some? ==> r == GetEntityById(id)
    {
      var e := GetEntityById(id);
      if e.Some? && e.value.Type() == "player" then e else None
    }

    /** `entityExists(id)`. */
    predicate EntityExists(id: string)
      reads this`entities, this`entityMap
    {
      GetEntityById(id).Some?
    }

    /** `playerExists(id)`. */
    predicate PlayerExists(id: string)
      reads this`entities, this`entityMap, entities`typeName
    {
      GetPlayerById(id).Some?
    }

    /**
     * `_addPlayer(data)`: a new Player built from `data` goes at the end of
     * the array and is mapped under `data.id`.
     */
    method AddPlayer(data: Bag) returns (p: Entity)
      requires Valid()
      modifies this`entities, this`entityMap
      ensures Valid() && fresh(p) && p.Valid() && p.kind == PlayerKind && p.id == IdOf(data)
      ensures entities == old(entities) + [p] && entityMap == old(entityMap)[IdKey(data) := |old(entities)|]
      ensures p.pos == VecOf(data, Pos) && p.velocity == VecOr(data, Velocity, Vec3(0.15, 0.15, 0.0))
      ensures p.angle == Some(NumOr(data, Angle, 0.0)) && p.subtype == None && p.bot == Has(data, Bot)
      ensures p.Removed() == Has(data, Remove)
    {
      p := new Entity.Player(data);
      Push(p);
    }

    /** `entityMap[e.id] = entities.push(e) - 1` for a new valid entity. */
    method Push(e: Entity)
      requires Valid() && e !in entities && e.Valid()
      modifies this`entities, this`entityMap
      ensures Valid() && entities == old(entities) + [e] && entityMap == old(entityMap)[KeyOf(e.id) := |old(entities)|]
    {
      PushKeepsSound(entities, entityMap, e);
      Install(entities + [e], entityMap[KeyOf(e.id) := |entities|], Ids(entities + [e]));
    }

    /**
     * `join(id, data)`: the player described by `data`, or, without data, a
     * player with the id at a random position. A draw lands in [0, size + 1)
     * on each axis.
     */
    method Join(id: string, data: Option<Bag>, u1: real, u2: real) returns (p: Entity)
      requires Valid() && 0.0 <= u1 < 1.0 && 0.0 <= u2 < 1.0
      modifies this`entities, this`entityMap
      ensures Valid() && fresh(p) && p.kind == PlayerKind && entities == old(entities) + [p]
      ensures data.Some? ==> p.id == IdOf(data.value) && p.pos == VecOf(data.value, Pos)
      ensures data.None? ==> p.id == Some(Str(id)) && 0.0 <= p.pos.x < Width + 1.0 && 0.0 <= p.pos.y < Height + 1.0 && p.pos.z == 0.0
      ensures entityMap == old(entityMap)[KeyOf(p.id) := |old(entities)|]
    {
      var bag := if data.Some? then data.value else SpawnBag(id, u1, u2);
      SpawnBagRanges(id, u1, u2);
      p := AddPlayer(bag);
    }

    /**
     * `addBot(id)`: a player with a random position, velocity and angle,
     * registered whole in the delta state. The constructor ignores the
     * `subtype: 'bot'` it is given, so nothing marks the new player as a bot.
     */
    method AddBot(id: string, u1: real, u2: real, u3: real, u4: real, u5: real) returns (p: Entity)
      requires Valid() && 0.0 <= u1 < 1.0 && 0.0 <= u2 < 1.0 && 0.0 <= u3 < 1.0 && 0.0 <= u4 < 1.0 && 0.0 <= u5 < 1.0
      modifies this`entities, this`entityMap, tracker
      ensures Valid() && fresh(p) && p.kind == PlayerKind && p.id == Some(Str(id)) && entities == old(entities) + [p]
      ensures entityMap == old(entityMap)[id := |old(entities)|]
      ensures !p.bot && p.subtype == None
      ensures var bag := BotBag(id, u1, u2, u3, u4, u5);
        p.pos == VecOf(bag, Pos) && p.velocity == VecOr(bag, Velocity, Vec3(0.15, 0.15, 0.0)) &&
        p.angle == Some(NumOr(bag, Angle, 0.0))
      ensures tracker.changes == Register(old(tracker.changes), Scope, id, Whole(p.ToJSON()))
      ensures tracker.events == old(tracker.events)
    {
      BotBagRanges(id, u1, u2, u3, u4, u5);
      p := AddPlayer(BotBag(id, u1, u2, u3, u4, u5));
      RegisterWhole(p);
    }

    /** `e.registerChange(e.toJSON())`: the entity's whole record goes into the delta state. */
    method RegisterWhole(e: Entity)
      requires Valid()
      modifies tracker
      ensures Valid()
      ensures tracker.changes == Register(old(tracker.changes), Scope, KeyOf(e.id), Whole(e.ToJSON()))
      ensures tracker.events == old(tracker.events)
    {
      e.RegisterChange(tracker, Whole(e.ToJSON()));
    }

    /** `leave(id)`: destroys the player with that id, if there is one. */
    method Leave(id: string)
      requires Valid()
      modifies entities`remove, tracker
      ensures Valid()
      ensures old(GetPlayerById(id)).None? ==>
        RemovedFlags(entities) == old(RemovedFlags(entities)) &&
        tracker.changes == old(tracker.changes) && tracker.events == old(tracker.events)
      ensures old(GetPlayerById(id)).Some? ==>
        RemovedFlags(entities) == old(RemovedFlags(entities))[old(entityMap[id]) := true] &&
        tracker.changes == Register(old(tracker.changes), Scope, KeyOf(entities[entityMap[id]].id), Field(Remove, Bool(true))) &&
        tracker.events == old(tracker.events) + [Event("destroy", entities[entityMap[id]].id, [])]
    {
      var e := GetPlayerById(id);
      if e.Some? {
        DestroyEntity(entityMap[id]);
      }
    }

    /** `entities[i].destroy()`. */
    method DestroyEntity(i: int)
      requires Valid() && 0 <= i < |entities|
      modifies entities`remove, tracker
      ensures Valid()
      ensures RemovedFlags(entities) == old(RemovedFlags(entities))[i := true]
      ensures tracker.changes == Register(old(tracker.changes), Scope, KeyOf(entities[i].id), Field(Remove, Bool(true)))
      ensures tracker.events == old(tracker.events) + [Event("destroy", entities[i].id, [])]
    {
      DestroyAt(entities, i, tracker);
    }

    /**
     * `save()`: a record per entity, the last entity first, a map from each
     * id to the first index holding it, and the time stamp. Each record is
     * the entity's `toJSON()`, which `load` cannot instantiate for a Player
     * or a Bullet (`Snapshots.JSONRecordsUnloadable`).
     */
    method Save() returns (s: Snapshot)
      ensures s.timeStamp == timeStamp
      ensures s.entities == JSONRecords(entities)
      ensures FirstIndexMap(Ids(entities), s.entityMap)
    {
      ghost var ids := Ids(entities);
      var recs: seq<Option<Bag>> := [];
      var m: map<string, int> := map[];
      var i := |entities|;
      while i > 0
        invariant 0 <= i <= |entities| && recs == JSONRecords(entities[i..])
        invariant FirstIndexFrom(ids, i, m)
      {
        i := i - 1;
        var e := entities[i];
        assert entities[i..][1..] == entities[i + 1..] && KeyOf(e.id) == ids[i];
        recs := recs + [Some(e.ToJSON())];
        FirstIndexStep(ids, i, m);
        m := m[KeyOf(e.id) := i];
      }
      assert entities[0..] == entities;
      s := Snapshot(recs, m, timeStamp);
    }

    /**
     * `load(state)`: a fresh array of the loadable records' objects, each
     * mapped under its id, and the saved time stamp. `me` becomes the last
     * loaded entity with its id, if any.
     */
    method Load(snap: Snapshot)
      requires Valid()
      modifies this`entities, this`entityMap, this`timeStamp, this`me
      ensures Valid() && IndexMap(Ids(entities), entityMap)
      ensures Ids(entities) == RecordIds(Loadable(snap.entities))
      ensures KindOpts(entities) == Classes(Loadable(snap.entities))
      ensures timeStamp == snap.timeStamp
      ensures old(me).Some? && LastMatch(entities, old(me.value.id)).Some? ==>
        me == Some(entities[LastMatch(entities, old(me.value.id)).value])
      ensures old(me).None? || LastMatch(entities, old(me.value.id)).None? ==> me == old(me)
    {
      var meId := if me.Some? then me.value.id else None;
      var es, m := LoadLoop(snap.entities);
      var meAt := LastMatch(es, meId);
      ghost var ids := Ids(es);
      var newMe := me;
      if me.Some? && meAt.Some? {
        newMe := Some(es[meAt.value]);
      }
      assert old(me).Some? ==> old(me.value.id) == meId;
      SetLoaded(es, m, ids, snap.timeStamp, newMe);
      assert LastMatch(entities, meId) == meAt;
    }

    /** Installs the state `load` built, with its time stamp and `me`. */
    method SetLoaded(es: seq<Entity>, m: map<string, int>, ghost ids: seq<string>, ts: real, newMe: Option<Entity>)
      requires Distinct(es) && AllValid(es) && Ids(es) == ids && MapSound(ids, m) && |stateBuffer| <= BufferLimit
      modifies this`entities, this`entityMap, this`timeStamp, this`me
      ensures Valid() && entities == es && entityMap == m && Ids(entities) == ids && timeStamp == ts && me == newMe
    {
      entities, entityMap, timeStamp, me := es, m, ts, newMe;
      assert Ids(entities) == ids;
    }

    /**
     * `delta(d)`: the message goes on the state buffer, the entries are
     * applied in order and the events are fired, the last one first.
     */
    method Delta(d: DeltaMsg)
      requires Valid()
      modifies this`stateBuffer, this`entities, this`entityMap, this`merged, this`fired, entities`remove
      ensures Valid() && old(entities) <= entities
      ensures stateBuffer == Window(old(stateBuffer) + [Shifted(d)])
      ensures View(entities, entityMap, merged) == ApplyEntries(old(View(entities, entityMap, merged)), d.entities)
      ensures fired == old(fired) + Firings(d.events)
    {
      ghost var v := View(entities, entityMap, merged);
      var es, m, mg := DeltaLoop(entities, entityMap, merged, d.entities, v);
      ghost var w := ApplyEntries(v, d.entities);
      WindowKeepsNewest(stateBuffer, Shifted(d));
      SetReplica(Window(stateBuffer + [Shifted(d)]), es, m, mg, fired + Firings(d.events), w.ids, w.removed);
    }

    /** Installs the replica state `delta` computed, whose ids are `ids` and removal flags `flags`. */
    method SetReplica(buf: seq<DeltaMsg>, es: seq<Entity>, m: map<string, int>, mg: seq<(int, Bag)>, f: seq<(Value, seq<Value>)>,
                      ghost ids: seq<string>, ghost flags: seq<bool>)
      requires Distinct(es) && AllValid(es) && Ids(es) == ids && RemovedFlags(es) == flags && MapSound(ids, m)
      requires |buf| <= BufferLimit
      modifies this`stateBuffer, this`entities, this`entityMap, this`merged, this`fired
      ensures Valid() && Ids(entities) == ids && RemovedFlags(entities) == flags
      ensures stateBuffer == buf && entities == es && entityMap == m && merged == mg && fired == f
    {
      stateBuffer, entities, entityMap, merged, fired := buf, es, m, mg, f;
      assert RemovedFlags(entities) == flags;
      assert Ids(entities) == ids;
    }
  }

  /** With the invariant, an id has an entity exactly when it is mapped, and the entity has that id. */
  lemma EntityLookup(g: Game, id: string)
    requires g.Valid()
    ensures g.EntityExists(id) <==> id in g.entityMap
    ensures g.EntityExists(id) ==> KeyOf(g.GetEntityById(id).value.id) == id
  {
  }

  /** After a tick, every entity can be looked up by its id, and the lookup finds the last one with it. */
  lemma EntityLookupComplete(g: Game, id: string)
    requires g.Valid() && IndexMap(Ids(g.entities), g.entityMap)
    ensures g.EntityExists(id) <==> id in Ids(g.entities)
    ensures g.EntityExists(id) ==> LastWithId(Ids(g.entities), g.entityMap[id])
  {
    if id in Ids(g.entities) {
      var k :| 0 <= k < |Ids(g.entities)| && Ids(g.entities)[k] == id;
      assert id in g.entityMap;
    }
  }

  /** A player is an entity: `playerExists` implies `entityExists`, and finds a player. */
  lemma PlayerIsEntity(g: Game, id: string)
    requires g.Valid()
    ensures g.PlayerExists(id) ==> g.EntityExists(id) && g.GetEntityById(id).value.Type() == "player"
    ensures g.EntityExists(id) && g.GetEntityById(id).value.Type() == "player" ==> g.PlayerExists(id)
  {
  }
}

=== FILE: entity.dfy ===
/**
 * Game entities. Every entity is one object whose class fixes its kind:
 * Player, Bullet, Asteroid, Shield or ShieldUp. Asteroids and the two
 * power-ups inherit `merge`, `toJSON`, `intersects`, `overlap` and
 * `outsideWorld` from Entity; Player and Bullet carry their own copies of
 * the geometry and `toJSON` and have no `merge`.
 *
 * `Get(q)` is the JavaScript view of an entity: the value of its own
 * property `q`, or None when the object has no such own property.
 */
module Entities {
  import opened Vectors
  import opened Json
  import opened Options
  import opened DeltaTracking

  datatype Kind = PlayerKind | BulletKind | AsteroidKind | ShieldKind | ShieldUpKind

  /** The `type` each class gives its instances (power-ups inherit theirs from Powerup's prototype). */
  function KindType(k: Kind): string {
    match k
    case PlayerKind => "player"
    case BulletKind => "bullet"
    case AsteroidKind => "object"
    case ShieldKind => "powerup"
    case ShieldUpKind => "powerup"
  }

  /** Whether instances of the class have `lastPos` and `velocity` (power-ups have neither). */
  predicate Moves(k: Kind) {
    k == PlayerKind || k == BulletKind || k == AsteroidKind
  }

  predicate IsPowerup(k: Kind) {
    k == ShieldKind || k == ShieldUpKind
  }

  /** The scope every entity registers its changes under. */
  const Scope := "entities"

  /** `Entity._mergeProps`. */
  const EntityMergeProps := [Id, Type, Pos, LastPos, Velocity, Acceleration, Remove]
  /** `Asteroid._mergeProps`: Entity's list plus angle, angularVelocity and health. */
  const AsteroidMergeProps := EntityMergeProps + [Angle, AngularVelocity, Health]
  /** `Powerup._mergeProps`. */
  const PowerupMergeProps := [Id, Pos, Type, Subtype, Powerup, Radius, Remove]
  /** `Shield._mergeProps` and `ShieldUp._mergeProps`. */
  const ShieldMergeProps := PowerupMergeProps + [Power]
  const ShieldUpMergeProps := PowerupMergeProps + [Increase]

  /**
   * The whitelist `merge` walks for an instance of the class: the
   * constructor's own `_mergeProps`, Entity's for a class without one.
   */
  function MergeList(k: Kind): (props: seq<Prop>)
    ensures forall i, j :: 0 <= i < j < |props| ==> props[i] != props[j]
  {
    match k
    case AsteroidKind => AsteroidMergeProps
    case ShieldKind => ShieldMergeProps
    case ShieldUpKind => ShieldUpMergeProps
    case _ => EntityMergeProps
  }

  /**
   * Whether a JSON value can be stored in the property: vectors in vector
   * properties, strings in string properties, and so on.
   */
  predicate Fits(q: Prop, v: Value) {
    match q
    case Id => true
    case Type => v.Str?
    case Subtype => v.Str?
    case Pos => v.Vec?
    case LastPos => v.Vec?
    case Velocity => v.Vec?
    case Acceleration => v.Vec?
    case Remove => v.Bool?
    case Angle => v.Num?
    case AngularVelocity => v.Num?
    case Health => v.Num?
    case Radius => v.Num?
    case Power => v.Num?
    case Increase => v.Num?
    case Powerup => true
    case _ => false
  }

  /** The properties `merge` copies: listed, defined on the source, and of the property's type. */
  function Copied(props: seq<Prop>, src: Bag): set<Prop> {
    set q | q in props && q in src && Fits(q, src[q])
  }

  /**
   * The per-field callback calls of `merge`, in the order it makes them:
   * the whitelist is walked from its last entry to its first.
   */
  function Calls(props: seq<Prop>, src: Bag, callbacks: set<Prop>): seq<(Prop, Value)> {
    if props == [] then []
    else
      Calls(props[1..], src, callbacks) +
      (if props[0] in src && props[0] in callbacks then [(props[0], src[props[0]])] else [])
  }

  /** A callback fires exactly for the listed fields the source defines, with the source's value. */
  lemma {:induction false} CallsExactly(props: seq<Prop>, src: Bag, callbacks: set<Prop>, q: Prop, v: Value)
    ensures (q, v) in Calls(props, src, callbacks) <==>
      q in props && q in src && q in callbacks && v == src[q]
    ensures |Calls(props, src, callbacks)| <= |props|
  {
    if props != [] {
      CallsExactly(props[1..], src, callbacks, q, v);
      assert props == [props[0]] + props[1..];
    }
  }

  /** No field appears twice in a callback trace. */
  predicate OncePerField(c: seq<(Prop, Value)>) {
    forall i, j :: 0 <= i < j < |c| ==> c[i].0 != c[j].0
  }

  /** Over a whitelist without repeats, each field's callback fires at most once. */
  lemma {:induction false} CallsOnce(props: seq<Prop>, src: Bag, callbacks: set<Prop>)
    requires forall i, j :: 0 <= i < j < |props| ==> props[i] != props[j]
    ensures OncePerField(Calls(props, src, callbacks))
  {
    if props != [] {
      CallsOnce(props[1..], src, callbacks);
      var rest := Calls(props[1..], src, callbacks);
      forall k | 0 <= k < |rest|
        ensures rest[k].0 != props[0]
      {
        assert rest[k] in rest;
        CallsExactly(props[1..], src, callbacks, rest[k].0, rest[k].1);
        assert rest[k].0 in props[1..];
        forall m | 0 <= m < |props| - 1
          ensures props[1..][m] != props[0]
        {
          assert props[1..][m] == props[m + 1];
        }
      }
      var c := Calls(props, src, callbacks);
      var extra := if props[0] in src && props[0] in callbacks then [(props[0], src[props[0]])] else [];
      assert c == rest + extra;
      assert |extra| <= 1;
      forall i, j | 0 <= i < j < |c|
        ensures c[i].0 != c[j].0
      {
        if j < |rest| {
          assert c[i] == rest[i] && c[j] == rest[j];
          assert rest[i].0 != rest[j].0;
        } else {
          assert j == |rest| && |extra| == 1 && c[j] == extra[0];
          assert c[i] == rest[i] && rest[i].0 != props[0];
          assert extra[0].0 == props[0];
        }
      }
    }
  }

  /** Which side of the world an entity has crossed on each axis: -1 low, 1 high, 0 neither. */
  datatype Side = Side(x: int, y: int)

  /**
   * `outsideWorld(width, height)` for a circle of radius `r` at `p`: None
   * (the source's `false`) while the circle is within the world, otherwise
   * the side it crossed on each axis, the low edge taking precedence.
   */
  function OutsideWorldAt(p: Vec3, r: real, width: real, height: real): (o: Option<Side>)
    ensures o.None? <==> r <= p.x && p.x + r <= width && r <= p.y && p.y + r <= height
    ensures o.Some? ==>
      (o.value.x == -1 <==> p.x < r) &&
      (o.value.x == 1 <==> !(p.x < r) && p.x + r > width) &&
      (o.value.x == 0 <==> r <= p.x && p.x + r <= width) &&
      (o.value.y == -1 <==> p.y < r) &&
      (o.value.y == 1 <==> !(p.y < r) && p.y + r > height) &&
      (o.value.y == 0 <==> r <= p.y && p.y + r <= height)
  {
    var minX, maxX := p.x < r, p.x + r > width;
    var minY, maxY := p.y < r, p.y + r > height;
    if minX || maxX || minY || maxY then
      Some(Side(if minX then -1 else if maxX then 1 else 0,
                if minY then -1 else if maxY then 1 else 0))
    else None
  }

  /**
   * `intersects`: the centre distance is strictly below the sum of the
   * radii. The distance is a square root, so the test is stated on squares;
   * `IntersectsByDistance` shows it is the same test.
   */
  predicate IntersectsAt(p1: Vec3, r1: real, p2: Vec3, r2: real) {
    r1 + r2 > 0.0 && DistSq(p1, p2) < (r1 + r2) * (r1 + r2)
  }

  lemma IntersectsSymmetric(p1: Vec3, r1: real, p2: Vec3, r2: real)
    ensures IntersectsAt(p1, r1, p2, r2) <==> IntersectsAt(p2, r2, p1, r1)
  {
    DistSqSymmetric(p1, p2);
  }

  /** For `d` the distance (`d >= 0`, `d * d` the squared distance), intersection is `d < r1 + r2`. */
  lemma IntersectsByDistance(p1: Vec3, r1: real, p2: Vec3, r2: real, d: real)
    requires d >= 0.0 && d * d == DistSq(p1, p2)
    ensures IntersectsAt(p1, r1, p2, r2) <==> d < r1 + r2
  {
    var s := r1 + r2;
    if d < s {
      SquareLess(d, s);
    } else if s > 0.0 && s < d {
      SquareLess(s, d);
    }
  }

  lemma SquareLess(a: real, b: real)
    requires 0.0 <= a < b
    ensures a * a < b * b
  {
    MulPositive(b - a, b + a);
    assert (b - a) * (b + a) == b * b - a * a;
  }

  lemma MulPositive(x: real, y: real)
    requires x > 0.0 && y > 0.0
    ensures x * y > 0.0
  {
  }

  /** `overlap`: the sum of the radii minus the centre distance `d`. */
  function OverlapAt(r1: real, r2: real, d: real): real {
    r1 + r2 - d
  }

  /** The overlap is positive exactly when the two circles intersect. */
  lemma OverlapPositive(p1: Vec3, r1: real, p2: Vec3, r2: real, d: real)
    requires d >= 0.0 && d * d == DistSq(p1, p2)
    ensures OverlapAt(r1, r2, d) > 0.0 <==> IntersectsAt(p1, r1, p2, r2)
  {
    IntersectsByDistance(p1, r1, p2, r2, d);
  }

  /** An event as an entity registers it: `[name, id, ...args]`, an undefined id written as JSON writes it. */
  function Event(name: string, id: Option<Value>, args: seq<Value>): (e: seq<Value>)
    ensures |e| == 2 + |args| && e[0] == Str(name) && e[1] == InArray(id) && e[2..] == args
  {
    [Str(name), InArray(id)] + args
  }

  /** `Math.PI / 8` as a double: the player's turn per unit of `rotateBy`, the asteroid's default spin. */
  const PiOver8: real := 0.39269908169872414

  /**
   * The position update every moving entity makes once a tick:
   * `pos += [vel[0] * delta, vel[1] * delta, 0]`. Motion is planar.
   */
  function Step(pos: Vec3, vel: Vec3, delta: real): (r: Vec3)
    ensures r.z == pos.z
    ensures Sub(r, pos) == Vec3(vel.x * delta, vel.y * delta, 0.0)
  {
    Add(pos, Vec3(vel.x * delta, vel.y * delta, 0.0))
  }

  /** Two ticks at one velocity are one tick of the summed length. */
  lemma StepAdditive(pos: Vec3, vel: Vec3, d1: real, d2: real)
    ensures Step(Step(pos, vel, d1), vel, d2) == Step(pos, vel, d1 + d2)
  {
    assert vel.x * d1 + vel.x * d2 == vel.x * (d1 + d2);
    assert vel.y * d1 + vel.y * d2 == vel.y * (d1 + d2);
  }

  /** A tick of length `-delta` undoes a tick of length `delta`. */
  lemma StepReversible(pos: Vec3, vel: Vec3, delta: real)
    ensures Step(Step(pos, vel, delta), vel, -delta) == pos
  {
    StepAdditive(pos, vel, delta, -delta);
  }

  class Entity {
    const kind: Kind
    /** `this.id`: any JSON value, or undefined; `KeyOf(id)` is the name it indexes maps by. */
    var id: Option<Value>
    /** The own `type` property; power-ups inherit theirs until a merge writes one. */
    var typeName: Option<string>
    var subtype: Option<string>
    var owner: Option<Value>
    var bot: bool
    var pos: Vec3
    var lastPos: Vec3
    var velocity: Vec3
    var acceleration: Option<Vec3>
    var thrust: real
    var rotateBy: real
    var angle: Option<real>
    var health: real
    var radius: real
    var shield: real
    var shieldQuality: real
    var shieldRegen: real
    var shieldMax: Option<real>
    var rebound: real
    var shooting: bool
    var shootRate: real
    /** The own `remove` flag; asteroids and power-ups have none until destroyed or merged. */
    var remove: Option<bool>
    var strength: real
    /** The asteroid's spin per tick. */
    var angularVel: real
    /** What a merge of `angularVelocity` writes: a property the asteroid never reads. */
    var angularVelocity: Option<real>
    var power: real
    var increase: real
    var powerup: Option<Value>

    /** `new Player(params)`. Every default applies when the parameter is falsy. */
    constructor Player(params: Bag)
      ensures kind == PlayerKind && Valid()
      ensures id == IdOf(params) && Type() == "player"
      ensures bot == Has(params, Bot) && shooting == Has(params, Shooting)
      ensures remove == Some(Has(params, Remove))
      ensures subtype == None && owner == None && shieldMax == None
      ensures pos == VecOf(params, Pos)
      ensures lastPos == VecOr(params, LastPos, VecOf(params, Pos))
      ensures velocity == VecOr(params, Velocity, Vec3(0.15, 0.15, 0.0))
      ensures acceleration == Some(VecOr(params, Acceleration, Vec3(0.99, 0.99, 0.0)))
      ensures thrust == NumOr(params, Thrust, 0.0)
      ensures rotateBy == NumOr(params, Prop.Rotate, 0.0)
      ensures angle == Some(NumOr(params, Angle, 0.0))
      ensures health == NumOr(params, Health, 100.0)
      ensures radius == NumOr(params, Radius, 15.0)
      ensures shield == NumOr(params, Prop.Shield, 100.0)
      ensures shieldQuality == NumOr(params, ShieldQuality, 0.8)
      ensures shieldRegen == 1.0035 && rebound == 0.96 && shootRate == 150.0
    {
      kind := PlayerKind;
      id := IdOf(params);
      typeName := Some("player");
      subtype := None;
      owner := None;
      bot := Has(params, Bot);
      pos := VecOf(params, Pos);
      lastPos := VecOr(params, LastPos, VecOf(params, Pos));
      velocity := VecOr(params, Velocity, Vec3(0.15, 0.15, 0.0));
      acceleration := Some(VecOr(params, Acceleration, Vec3(0.99, 0.99, 0.0)));
      thrust := NumOr(params, Thrust, 0.0);
      rotateBy := NumOr(params, Prop.Rotate, 0.0);
      angle := Some(NumOr(params, Angle, 0.0));
      health := NumOr(params, Health, 100.0);
      radius := NumOr(params, Radius, 15.0);
      shield := NumOr(params, Prop.Shield, 100.0);
      shieldQuality := NumOr(params, ShieldQuality, 0.8);
      shieldRegen := 1.0035;
      shieldMax := None;
      rebound := 0.96;
      shooting := Has(params, Shooting);
      shootRate := 150.0;
      remove := Some(Has(params, Remove));
      angularVelocity := None;
      powerup := None;
    }

    /** `new Bullet(params)`: radius 2 and strength 5 are fixed. */
    constructor Bullet(params: Bag)
      ensures kind == BulletKind && Valid()
      ensures id == IdOf(params) && Type() == "bullet" && owner == ValueOf(params, Owner)
      ensures subtype == None && acceleration == None && shieldMax == None
      ensures pos == VecOf(params, Pos)
      ensures lastPos == VecOr(params, LastPos, VecOf(params, Pos))
      ensures velocity == VecOf(params, Velocity)
      ensures radius == 2.0 && angle == NumOf(params, Angle) && strength == 5.0
      ensures remove == Some(Has(params, Remove))
    {
      kind := BulletKind;
      id := IdOf(params);
      typeName := Some("bullet");
      subtype := None;
      owner := ValueOf(params, Owner);
      pos := VecOf(params, Pos);
      lastPos := VecOr(params, LastPos, VecOf(params, Pos));
      velocity := VecOf(params, Velocity);
      acceleration := None;
      radius := 2.0;
      angle := NumOf(params, Angle);
      strength := 5.0;
      shieldMax := None;
      remove := Some(Has(params, Remove));
      angularVelocity := None;
      powerup := None;
    }

    /**
     * `new Asteroid(params)`: the spin is taken from `angularVelocity`, and
     * the health starts at ten times the radius.
     */
    constructor Asteroid(params: Bag)
      ensures kind == AsteroidKind && Valid()
      ensures id == IdOf(params) && Type() == "object" && subtype == Some("asteroid")
      ensures owner == None && acceleration == None && remove == None && shieldMax == None
      ensures pos == VecOf(params, Pos)
      ensures lastPos == VecOr(params, LastPos, VecOf(params, Pos))
      ensures velocity == VecOf(params, Velocity)
      ensures angularVel == NumOr(params, AngularVelocity, PiOver8)
      ensures angle == Some(NumOr(params, Angle, 0.0))
      ensures radius == NumOr(params, Radius, 18.0) && health == radius * 10.0
    {
      kind := AsteroidKind;
      id := IdOf(params);
      typeName := Some("object");
      subtype := Some("asteroid");
      owner := None;
      pos := VecOf(params, Pos);
      lastPos := VecOr(params, LastPos, VecOf(params, Pos));
      velocity := VecOf(params, Velocity);
      acceleration := None;
      angularVel := NumOr(params, AngularVelocity, PiOver8);
      angle := Some(NumOr(params, Angle, 0.0));
      radius := NumOr(params, Radius, 18.0);
      health := NumOr(params, Radius, 18.0) * 10.0;
      shieldMax := None;
      remove := None;
      angularVelocity := None;
      powerup := None;
    }

    /**
     * `new Shield(params)`: power 30, radius 5. `type` and `remove` are the
     * prototype's ("powerup", false), not own properties.
     */
    constructor Shield(params: Bag)
      ensures kind == ShieldKind && Valid()
      ensures id == IdOf(params) && Type() == "powerup" && subtype == Some("shield")
      ensures typeName == None && owner == None && remove == None && !Removed()
      ensures pos == VecOf(params, Pos) && power == 30.0 && radius == 5.0
    {
      kind := ShieldKind;
      id := IdOf(params);
      typeName := None;
      subtype := Some("shield");
      owner := None;
      pos := VecOf(params, Pos);
      acceleration := None;
      angle := None;
      power := 30.0;
      radius := 5.0;
      shieldMax := None;
      remove := None;
      angularVelocity := None;
      powerup := None;
    }

    /** `new ShieldUp(params)`: increase 30, radius 7; `type` and `remove` as for Shield. */
    constructor ShieldUp(params: Bag)
      ensures kind == ShieldUpKind && Valid()
      ensures id == IdOf(params) && Type() == "powerup" && subtype == Some("shieldup")
      ensures typeName == None && owner == None && remove == None && !Removed()
      ensures pos == VecOf(params, Pos) && increase == 30.0 && radius == 7.0
    {
      kind := ShieldUpKind;
      id := IdOf(params);
      typeName := None;
      subtype := Some("shieldup");
      owner := None;
      pos := VecOf(params, Pos);
      acceleration := None;
      angle := None;
      increase := 30.0;
      radius := 7.0;
      shieldMax := None;
      remove := None;
      angularVelocity := None;
      powerup := None;
    }

    /** Shape every instance keeps: what each class's constructor defines and no later code removes. */
    ghost predicate Valid()
      reads this`typeName, this`subtype, this`acceleration, this`angle, this`remove, this`radius
    {
      && (kind == PlayerKind ==> typeName == Some("player") && acceleration.Some? && angle.Some? && remove.Some?)
      && (kind == BulletKind ==> typeName == Some("bullet") && remove.Some?)
      && (kind == PlayerKind || kind == BulletKind ==> subtype.None?)
      && (kind == AsteroidKind ==> radius != 0.0 && angle.Some?)
      && (IsPowerup(kind) ==> subtype.Some?)
    }

    /** The effective `type`: the own property, else the prototype's. */
    function Type(): string
      reads this`typeName
    {
      typeName.GetOr(KindType(kind))
    }

    /** Whether `entity.remove` is truthy. */
    predicate Removed()
      reads this`remove
    {
      remove == Some(true)
    }

    /** The own property `q`, if the object has one. */
    function Get(q: Prop): Option<Value>
      reads this
    {
      var player := kind == PlayerKind;
      match q
      case Id => id
      case Type => if typeName.Some? then Some(Str(typeName.value)) else None
      case Subtype => if subtype.Some? then Some(Str(subtype.value)) else None
      case Owner => owner
      case Bot => if player then Some(Bool(bot)) else None
      case Pos => Some(Vec(pos))
      case LastPos => if Moves(kind) then Some(Vec(lastPos)) else None
      case Velocity => if Moves(kind) then Some(Vec(velocity)) else None
      case Acceleration => if acceleration.Some? then Some(Vec(acceleration.value)) else None
      case Thrust => if player then Some(Num(thrust)) else None
      case Rotate => None
      case RotateBy => if player then Some(Num(rotateBy)) else None
      case Angle => if angle.Some? then Some(Num(angle.value)) else None
      case Health => if player || kind == AsteroidKind then Some(Num(health)) else None
      case Radius => Some(Num(radius))
      case Shield => if player then Some(Num(shield)) else None
      case ShieldQuality => if player then Some(Num(shieldQuality)) else None
      case ShieldRegen => if player then Some(Num(shieldRegen)) else None
      case ShieldMax => if shieldMax.Some? then Some(Num(shieldMax.value)) else None
      case Rebound => if player then Some(Num(rebound)) else None
      case Shooting => if player then Some(Bool(shooting)) else None
      case ShootRate => if player then Some(Num(shootRate)) else None
      case Remove => if remove.Some? then Some(Bool(remove.value)) else None
      case Mass => None
      case Strength => if kind == BulletKind then Some(Num(strength)) else None
      case AngularVel => if kind == AsteroidKind then Some(Num(angularVel)) else None
      case AngularVelocity => if angularVelocity.Some? then Some(Num(angularVelocity.value)) else None
      case Power => if kind == ShieldKind then Some(Num(power)) else None
      case Increase => if kind == ShieldUpKind then Some(Num(increase)) else None
      case Powerup => powerup
    }

    /**
     * `toJSON()`: every own property whose name does not start with `_`,
     * vectors as arrays. No property the model tracks is internal
     * (`Json.AllPublic`), so this is every own property.
     */
    function ToJSON(): (r: Bag)
      reads this
      ensures forall q :: q in r <==> Get(q).Some?
      ensures forall q :: q in r ==> Get(q) == Some(r[q])
    {
      AllPropsComplete();
      map q | q in AllProps && Get(q).Some? :: Get(q).value
    }

    /** `outsideWorld(width, height)`. */
    function OutsideWorld(width: real, height: real): Option<Side>
      reads this
    {
      OutsideWorldAt(pos, radius, width, height)
    }

    /** `intersects(entity)`. */
    predicate Intersects(other: Entity)
      reads this, other
    {
      IntersectsAt(pos, radius, other.pos, other.radius)
    }

    /** Writes one whitelisted property of a merge; a value of another JSON type is not stored. */
    method SetProp(q: Prop, v: Value) returns (written: bool)
      requires Inherits(kind) && q in MergeList(kind)
      modifies this
      ensures written <==> Fits(q, v)
      ensures forall r :: Get(r) == if written && r == q then Some(v) else old(Get(r))
      ensures old(Valid()) ==> Valid()
    {
      written := Fits(q, v);
      if !written {
        return;
      }
      match q
      case Id => SetId(v);
      case Type => SetType(v);
      case Subtype => SetSubtype(v);
      case Pos => SetPos(v);
      case LastPos => SetLastPos(v);
      case Velocity => SetVelocity(v);
      case Acceleration => SetAcceleration(v);
      case Remove => SetRemove(v);
      case Angle => SetAngle(v);
      case AngularVelocity => SetAngularVelocity(v);
      case Health => SetHealth(v);
      case Radius => SetRadius(v);
      case Power => SetPower(v);
      case Increase => SetIncrease(v);
      case Powerup => SetPowerup(v);
    }

    method SetId(v: Value)
      modifies this
      ensures forall r :: Get(r) == if r == Prop.Id then Some(v) else old(Get(r))
      ensures old(Valid()) ==> Valid()
    {
      id := Some(v);
    }

    method SetType(v: Value)
      requires v.Str? && Inherits(kind)
      modifies this
      ensures forall r :: Get(r) == if r == Prop.Type then Some(v) else old(Get(r))
      ensures old(Valid()) ==> Valid()
    {
      typeName := Some(v.s);
    }

    method SetSubtype(v: Value)
      requires v.Str? && Inherits(kind)
      modifies this
      ensures forall r :: Get(r) == if r == Prop.Subtype then Some(v) else old(Get(r))
      ensures old(Valid()) ==> Valid()
    {
      subtype := Some(v.s);
    }

    method SetPos(v: Value)
      requires v.Vec?
      modifies this
      ensures forall r :: Get(r) == if r == Prop.Pos then Some(v) else old(Get(r))
      ensures old(Valid()) ==> Valid()
    {
      pos := v.v;
    }

    method SetLastPos(v: Value)
      requires v.Vec?
      requires Moves(kind)
      modifies this
      ensures forall r :: Get(r) == if r == Prop.LastPos then Some(v) else old(Get(r))
      ensures old(Valid()) ==> Valid()
    {
      lastPos := v.v;
    }

    method SetVelocity(v: Value)
      requires v.Vec?
      requires Moves(kind)
      modifies this
      ensures forall r :: Get(r) == if r == Prop.Velocity then Some(v) else old(Get(r))
      ensures old(Valid()) ==> Valid()
    {
      velocity := v.v;
    }

    method SetAcceleration(v: Value)
      requires v.Vec?
      modifies this
      ensures forall r :: Get(r) == if r == Prop.Acceleration then Some(v) else old(Get(r))
      ensures old(Valid()) ==> Valid()
    {
      acceleration := Some(v.v);
    }

    method SetRemove(v: Value)
      requires v.Bool?
      modifies this
      ensures forall r :: Get(r) == if r == Prop.Remove then Some(v) else old(Get(r))
      ensures old(Valid()) ==> Valid()
    {
      remove := Some(v.b);
    }

    method SetAngle(v: Value)
      requires v.Num?
      modifies this
      ensures forall r :: Get(r) == if r == Prop.Angle then Some(v) else old(Get(r))
      ensures old(Valid()) ==> Valid()
    {
      angle := Some(v.n);
    }

    method SetAngularVelocity(v: Value)
      requires v.Num?
      modifies this
      ensures forall r :: Get(r) == if r == Prop.AngularVelocity then Some(v) else old(Get(r))
      ensures old(Valid()) ==> Valid()
    {
      angularVelocity := Some(v.n);
    }

    method SetHealth(v: Value)
      requires v.Num?
      requires kind == PlayerKind || kind == AsteroidKind
      modifies this
      ensures forall r :: Get(r) == if r == Prop.Health then Some(v) else old(Get(r))
      ensures old(Valid()) ==> Valid()
    {
      health := v.n;
    }

    method SetRadius(v: Value)
      requires v.Num?
      requires IsPowerup(kind)
      modifies this
      ensures forall r :: Get(r) == if r == Prop.Radius then Some(v) else old(Get(r))
      ensures old(Valid()) ==> Valid()
    {
      radius := v.n;
    }

    method SetPower(v: Value)
      requires v.Num?
      requires kind == ShieldKind
      modifies this
      ensures forall r :: Get(r) == if r == Prop.Power then Some(v) else old(Get(r))
      ensures old(Valid()) ==> Valid()
    {
      power := v.n;
    }

    method SetIncrease(v: Value)
      requires v.Num?
      requires kind == ShieldUpKind
      modifies this
      ensures forall r :: Get(r) == if r == Prop.Increase then Some(v) else old(Get(r))
      ensures old(Valid()) ==> Valid()
    {
      increase := v.n;
    }

    method SetPowerup(v: Value)
      modifies this
      ensures forall r :: Get(r) == if r == Prop.Powerup then Some(v) else old(Get(r))
      ensures old(Valid()) ==> Valid()
    {
      powerup := Some(v);
    }

    /**
     * `merge(entity, callbacks)`: unless this object is not an instance of
     * the source's class (`srcKind`; None for a plain object, of which every
     * entity is an instance), copies each whitelisted property the source
     * defines, walking the whitelist from the back and calling the
     * property's callback, if there is one, with the copied value.
     */
    method Merge(src: Bag, srcKind: Option<Kind>, callbacks: set<Prop>) returns (calls: seq<(Prop, Value)>)
      requires Valid()
      requires Inherits(kind)
      modifies this
      ensures Valid()
      ensures srcKind.Some? && srcKind.value != kind ==> calls == [] && unchanged(this)
      ensures srcKind.None? || srcKind.value == kind ==>
        && calls == Calls(MergeList(kind), src, callbacks)
        && forall q :: Get(q) == if q in Copied(MergeList(kind), src) then Some(src[q]) else old(Get(q))
    {
      calls := [];
      if srcKind.Some? && srcKind.value != kind {
        return;
      }
      var props := MergeList(kind);
      var i := |props|;
      while i > 0
        invariant 0 <= i <= |props|
        invariant Valid()
        invariant calls == Calls(props[i..], src, callbacks)
        invariant forall q :: Get(q) == if q in Copied(props[i..], src) then Some(src[q]) else old(Get(q))
      {
        i := i - 1;
        var p := props[i];
        assert props[i..] == [p] + props[i + 1..];
        if p in src {
          var _ := SetProp(p, src[p]);
          if p in callbacks {
            calls := calls + [(p, src[p])];
          }
        }
      }
    }

    /** The entity-level `registerChange` with an explicit value or a whole record. */
    method RegisterChange(tr: DeltaTracker, c: Change)
      modifies tr
      ensures tr.changes == Register(old(tr.changes), Scope, KeyOf(id), c)
      ensures tr.events == old(tr.events)
    {
      tr.RegisterChange(Scope, KeyOf(id), c);
    }

    /** The entity-level `registerEvent(name, args...)`: the entity's id goes second. */
    method RegisterEvent(tr: DeltaTracker, name: string, args: seq<Value>)
      modifies tr
      ensures tr.events == old(tr.events) + [Event(name, id, args)]
      ensures tr.changes == old(tr.changes)
    {
      tr.RegisterEvent(Event(name, id, args));
    }

    /** `destroy()`: flags the entity for removal and records the flag and a `destroy` event. */
    method Destroy(tr: DeltaTracker)
      requires Valid()
      modifies this`remove, tr
      ensures Valid() && Removed()
      ensures tr.changes == Register(old(tr.changes), Scope, KeyOf(id), Field(Remove, Bool(true)))
      ensures tr.events == old(tr.events) + [Event("destroy", id, [])]
    {
      remove := Some(true);
      RegisterChange(tr, Field(Remove, Bool(true)));
      RegisterEvent(tr, "destroy", []);
    }
  }

  /**
   * Whether instances of the class inherit `Entity.prototype` (and with it
   * `merge`, `toJSON` and the geometry): Asteroid and the power-ups do,
   * Player and Bullet define their own copies and have no `merge`.
   */
  predicate Inherits(k: Kind) {
    k == AsteroidKind || IsPowerup(k)
  }

  /** A merge leaves every property outside the whitelist as it was. */
  lemma MergeKeepsUnlisted(k: Kind, src: Bag, q: Prop)
    requires q !in MergeList(k)
    ensures q !in Copied(MergeList(k), src)
  {
  }
}

=== FILE: eventhandler.dfy ===
/**
 * The client's event handler: callbacks are bound per event name, optionally
 * under a namespace ("name.ns"); every bind appends one line to a template
 * shared by all events and recompiles the event's handler from it, and the
 * compiled handler calls `callbacks[i]` for each template line `i` whose
 * entry is a function.
 */
module Events {
  import opened Options
  import Arrays

  /** A callback function object, by identity. */
  type Fn = nat

  /** `s.split('.')`. */
  function Split(s: string): (parts: seq<string>)
    ensures |parts| >= 1
    ensures forall k :: 0 <= k < |parts| ==> '.' !in parts[k]
  {
    if s == [] then [""]
    else
      var rest := Split(s[1..]);
      if s[0] == '.' then [""] + rest else [[s[0]] + rest[0]] + rest[1..]
  }

  /** `parts.join('.')`, the inverse of `Split`. */
  function Join(parts: seq<string>): string
    requires |parts| >= 1
  {
    if |parts| == 1 then parts[0] else parts[0] + "." + Join(parts[1..])
  }

  lemma {:induction false} JoinSplit(s: string)
    ensures Join(Split(s)) == s
  {
    if s != [] {
      JoinSplit(s[1..]);
      var rest := Split(s[1..]);
      if s[0] != '.' {
        if |rest| == 1 {
          assert Join(Split(s)) == [s[0]] + rest[0];
        } else {
          assert Split(s)[1..] == rest[1..];
          assert Join(Split(s)) == [s[0]] + rest[0] + "." + Join(rest[1..]);
        }
      }
    }
  }

  /** The event part of a "name.ns" string. */
  function EventOf(name: string): (e: string)
    ensures '.' !in e
    ensures e <= name
  {
    var parts := Split(name);
    SplitFirstIsPrefix(name);
    parts[0]
  }

  /** The namespace part of a "name.ns" string: the second dot-separated piece. */
  function NamespaceOf(name: string): (ns: Option<string>)
    ensures ns.Some? ==> '.' !in ns.value
    ensures ns.Some? <==> '.' in name
  {
    var parts := Split(name);
    SplitSingle(name);
    if |parts| > 1 then Some(parts[1]) else None
  }

  lemma {:induction false} SplitFirstIsPrefix(s: string)
    ensures Split(s)[0] <= s
  {
    if s != [] {
      SplitFirstIsPrefix(s[1..]);
    }
  }

  lemma {:induction false} SplitSingle(s: string)
    ensures |Split(s)| == 1 <==> '.' !in s
  {
    if s != [] {
      SplitSingle(s[1..]);
      assert '.' in s <==> s[0] == '.' || '.' in s[1..];
    }
  }

  /** A name without a dot is all event and no namespace. */
  lemma PlainName(name: string)
    requires '.' !in name
    ensures EventOf(name) == name && NamespaceOf(name) == None
  {
    SplitSingle(name);
    JoinSplit(name);
  }

  /** "event.ns" splits back into its event and its namespace. */
  lemma {:induction false} NamespacedName(e: string, ns: string)
    requires '.' !in e && '.' !in ns
    ensures EventOf(e + "." + ns) == e && NamespaceOf(e + "." + ns) == Some(ns)
  {
    var t := "." + ns;
    assert e + "." + ns == e + t;
    SplitConcat(e, t);
    SplitSingle(ns);
    JoinSplit(ns);
    assert t[0] == '.' && t[1..] == ns;
    assert Split(t) == [""] + Split(ns);
    assert Split(ns) == [ns];
    assert e + "" == e;
    assert Split(e + t) == [e, ns];
  }

  /** Splitting `e + t` for a dot-free `e` glues `e` onto the first piece of `t`. */
  lemma {:induction false} SplitConcat(e: string, t: string)
    requires '.' !in e
    ensures Split(e + t) == [e + Split(t)[0]] + Split(t)[1..]
  {
    if e != [] {
      assert e[0] in e;
      assert (e + t)[1..] == e[1..] + t;
      assert (e + t)[0] == e[0];
      SplitConcat(e[1..], t);
      assert [e[0]] + (e[1..] + Split(t)[0]) == e + Split(t)[0];
    } else {
      assert e + t == t;
      assert e + Split(t)[0] == Split(t)[0];
      assert Split(t) == [Split(t)[0]] + Split(t)[1..];
    }
  }

  /** The callbacks of `fs` that survive `unbind("event.ns")`. */
  function WithoutNamespace(fs: seq<Fn>, ns: string, fnNs: map<Fn, Option<string>>): (r: seq<Fn>)
    ensures |r| <= |fs|
    ensures forall f :: f in r ==> f in fs && (f in fnNs ==> fnNs[f] != Some(ns))
    ensures forall f :: f in fs && f in fnNs && fnNs[f] != Some(ns) ==> f in r
  {
    if fs == [] then []
    else
      var rest := WithoutNamespace(fs[1..], ns, fnNs);
      if fs[0] in fnNs && fnNs[fs[0]] == Some(ns) then rest else [fs[0]] + rest
  }

  /** A callback is dropped by `unbind("event.ns")` when its namespace is `ns`. */
  predicate Dropped(f: Fn, ns: string, fnNs: map<Fn, Option<string>>) {
    f in fnNs && fnNs[f] == Some(ns)
  }

  /** On a single callback the filter keeps it exactly when it is not dropped. */
  lemma WithoutNamespaceSingle(f: Fn, ns: string, fnNs: map<Fn, Option<string>>)
    ensures Dropped(f, ns, fnNs) ==> WithoutNamespace([f], ns, fnNs) == []
    ensures !Dropped(f, ns, fnNs) ==> WithoutNamespace([f], ns, fnNs) == [f]
  {
    assert [f][1..] == [];
  }

  /**
   * The filter distributes over concatenation; with `WithoutNamespaceSingle`
   * this makes it the order-preserving filter that keeps every occurrence of
   * a surviving callback, repeated bindings included.
   */
  lemma {:induction false} WithoutNamespaceConcat(a: seq<Fn>, b: seq<Fn>, ns: string, fnNs: map<Fn, Option<string>>)
    ensures WithoutNamespace(a + b, ns, fnNs) == WithoutNamespace(a, ns, fnNs) + WithoutNamespace(b, ns, fnNs)
  {
    if a == [] {
      assert a + b == b;
    } else {
      assert (a + b)[0] == a[0] && (a + b)[1..] == a[1..] + b;
      WithoutNamespaceConcat(a[1..], b, ns, fnNs);
    }
  }

  /**
   * The backwards walk of `unbind("event.ns")` over an event's callbacks,
   * removing each one whose `_ns` is `ns` with `arrRemove(funcs, i)`.
   */
  method RemoveNamespace(fs: seq<Fn>, ns: string, fnNs: map<Fn, Option<string>>) returns (funcs: seq<Fn>)
    ensures funcs == WithoutNamespace(fs, ns, fnNs)
  {
    funcs := fs;
    var i := |funcs|;
    while i > 0
      invariant 0 <= i <= |fs|
      invariant funcs == fs[..i] + WithoutNamespace(fs[i..], ns, fnNs)
    {
      i := i - 1;
      WithoutNamespaceAt(fs, ns, fnNs, i, funcs);
      if funcs[i] in fnNs && fnNs[funcs[i]] == Some(ns) {
        funcs := Arrays.ArrRemove(funcs, i, None);
      }
    }
    assert fs[..0] == [] && fs[0..] == fs;
  }

  /**
   * One step of the backwards walk: with the survivors from `i + 1` on
   * already in place, removing `funcs[i]` exactly when its namespace is
   * `ns` leaves the survivors from `i` on.
   */
  lemma WithoutNamespaceAt(fs: seq<Fn>, ns: string, fnNs: map<Fn, Option<string>>, i: nat, funcs: seq<Fn>)
    requires i < |fs| && funcs == fs[..i + 1] + WithoutNamespace(fs[i + 1..], ns, fnNs)
    ensures i < |funcs| && funcs[i] == fs[i]
    ensures fs[i] in fnNs && fnNs[fs[i]] == Some(ns) ==>
              Arrays.ArrRemove(funcs, i, None) == fs[..i] + WithoutNamespace(fs[i..], ns, fnNs)
    ensures !(fs[i] in fnNs && fnNs[fs[i]] == Some(ns)) ==> funcs == fs[..i] + WithoutNamespace(fs[i..], ns, fnNs)
  {
    var tail := WithoutNamespace(fs[i + 1..], ns, fnNs);
    assert fs[i..][1..] == fs[i + 1..];
    assert fs[..i + 1] == fs[..i] + [fs[i]];
    if fs[i] in fnNs && fnNs[fs[i]] == Some(ns) {
      Arrays.ArrRemoveOne(funcs, i);
      assert funcs[..i] == fs[..i] && funcs[i + 1..] == tail;
    } else {
      assert funcs == fs[..i] + ([fs[i]] + tail);
    }
  }

  /** The state of an event handler as a value: the fields `bind` changes. */
  datatype Binding = Binding(callbacks: map<string, seq<Fn>>, handlers: map<string, nat>, lastID: nat,
                             fnCid: map<Fn, nat>, fnNs: map<Fn, Option<string>>)

  /** The state of a handler nothing was bound to. */
  const Unbound := Binding(map[], map[], 0, map[], map[])

  /** The callbacks bound to event `e`: none when it has no list. */
  function CallbacksOf(b: Binding, e: string): seq<Fn> {
    if e in b.callbacks then b.callbacks[e] else []
  }

  /** What `bind(name, callback)` does to the state `b`. */
  function Bound(b: Binding, name: string, callback: Fn): Binding {
    var e := EventOf(name);
    Binding(b.callbacks[e := CallbacksOf(b, e) + [callback]], b.handlers[e := b.lastID + 1], b.lastID + 1,
            b.fnCid[callback := b.lastID], b.fnNs[callback := NamespaceOf(name)])
  }

  /** The state after binding every (name, callback) pair of `events` in order, from nothing. */
  function BoundAll(events: seq<(string, Fn)>): Binding {
    if events == [] then Unbound
    else Bound(BoundAll(events[..|events| - 1]), events[|events| - 1].0, events[|events| - 1].1)
  }

  /** The callbacks of the pairs of `events` whose event is `e`, in order. */
  function CallbacksFor(events: seq<(string, Fn)>, e: string): (fs: seq<Fn>)
    ensures |fs| <= |events|
  {
    if events == [] then []
    else
      var last := events[|events| - 1];
      CallbacksFor(events[..|events| - 1], e) + if EventOf(last.0) == e then [last.1] else []
  }

  /** Binding the pairs of `events` in order uses one callback id per pair. */
  lemma {:induction false} BoundAllCount(events: seq<(string, Fn)>)
    ensures BoundAll(events).lastID == |events|
  {
    if events != [] {
      BoundAllCount(events[..|events| - 1]);
    }
  }

  /** Binding the pairs of `events` in order lists for `e` exactly the callbacks of its pairs, in order. */
  lemma {:induction false} BoundAllCallbacks(events: seq<(string, Fn)>, e: string)
    ensures CallbacksOf(BoundAll(events), e) == CallbacksFor(events, e)
  {
    if events != [] {
      BoundAllCallbacks(events[..|events| - 1], e);
    }
  }

  /** Binding the pairs of `events` in order compiles a handler for exactly the events some pair names. */
  lemma {:induction false} BoundAllHandlers(events: seq<(string, Fn)>, e: string)
    ensures e in BoundAll(events).handlers <==> exists k :: 0 <= k < |events| && EventOf(events[k].0) == e
  {
    if events != [] {
      var n := |events| - 1;
      BoundAllHandlers(events[..n], e);
      if e in BoundAll(events[..n]).handlers {
        var k :| 0 <= k < n && EventOf(events[..n][k].0) == e;
        assert events[k] == events[..n][k];
      }
      if exists k :: 0 <= k < |events| && EventOf(events[k].0) == e {
        var k :| 0 <= k < |events| && EventOf(events[k].0) == e;
        if k < n {
          assert events[..n][k] == events[k];
        }
      }
    }
  }

  class EventHandler {
    /** `_callbacks`: the bound callbacks of each event, in bind order. */
    var callbacks: map<string, seq<Fn>>
    /** `_handlers`: for each event with a compiled handler, the number of template lines compiled into it. */
    var handlers: map<string, nat>
    /** `_lastID`: the next callback id, which is also the number of template lines. */
    var lastID: nat
    /** The `_cid` property each bound function object carries (the last bind wins). */
    var fnCid: map<Fn, nat>
    /** The `_ns` property each bound function object carries (the last bind wins). */
    var fnNs: map<Fn, Option<string>>

    ghost predicate Valid()
      reads this
    {
      && (forall e :: e in callbacks ==> |callbacks[e]| <= lastID)
      && (forall e :: e in handlers ==> e in callbacks && |callbacks[e]| <= handlers[e] <= lastID)
      && (forall e, f :: e in callbacks && f in callbacks[e] ==> f in fnNs && f in fnCid)
    }

    /** The handler's state as a value. */
    function State(): Binding
      reads this
    {
      Binding(callbacks, handlers, lastID, fnCid, fnNs)
    }

    /** `new EventHandler(events)`: binds each initial (name, callback) pair in order. */
    constructor (events: seq<(string, Fn)>)
      ensures Valid()
      ensures State() == BoundAll(events)
    {
      callbacks := map[];
      handlers := map[];
      lastID := 0;
      fnCid := map[];
      fnNs := map[];
      new;
      var k := 0;
      while k < |events|
        invariant 0 <= k <= |events|
        invariant Valid() && State() == BoundAll(events[..k])
      {
        assert events[..k + 1][..k] == events[..k];
        Bind(events[k].0, events[k].1);
        k := k + 1;
      }
      assert events[..k] == events;
    }

    /**
     * `bind(name, callback)`: appends the callback to its event, stamps it
     * with the next id and the namespace, and recompiles the event's handler
     * over every template line so far.
     */
    method Bind(name: string, callback: Fn)
      requires Valid()
      modifies this
      ensures Valid()
      ensures var e := EventOf(name);
        && callbacks == old(callbacks)[e := (if e in old(callbacks) then old(callbacks)[e] else []) + [callback]]
        && handlers == old(handlers)[e := old(lastID) + 1]
        && lastID == old(lastID) + 1
        && fnCid == old(fnCid)[callback := old(lastID)]
        && fnNs == old(fnNs)[callback := NamespaceOf(name)]
    {
      var e := EventOf(name);
      var ns := NamespaceOf(name);
      var list := if e in callbacks then callbacks[e] else [];
      callbacks := callbacks[e := list + [callback]];
      var i := lastID;
      lastID := lastID + 1;
      fnCid := fnCid[callback := i];
      fnNs := fnNs[callback := ns];
      handlers := handlers[e := lastID];
    }

    /**
     * `fire(event)`: runs the compiled handler, if the event has one; the
     * result is the sequence of callbacks it invokes, in order.
     */
    method Fire(event: string) returns (called: seq<Fn>)
      requires Valid()
      ensures event in handlers ==> called == callbacks[event]
      ensures event !in handlers ==> called == []
    {
      called := [];
      if event in handlers {
        var fs := callbacks[event];
        var lines := handlers[event];
        var i := 0;
        while i < lines
          invariant 0 <= i <= lines
          invariant called == fs[..if i < |fs| then i else |fs|]
        {
          // `typeof callbacks[i] === "function"`: indexes past the end are undefined
          if i < |fs| {
            called := called + [fs[i]];
          }
          i := i + 1;
        }
        assert fs[..|fs|] == fs;
      }
    }

    /**
     * `unbind(name)`: without a namespace the event's callbacks and handler
     * are dropped; with one, every callback whose `_ns` is that namespace is
     * removed from the event's list, walking it from the back. Reading the
     * list of an event that was never bound throws; `ok` is false then and
     * nothing has changed.
     */
    method Unbind(name: string) returns (ok: bool)
      requires Valid()
      modifies this
      ensures Valid()
      ensures lastID == old(lastID) && fnCid == old(fnCid) && fnNs == old(fnNs)
      ensures var e := EventOf(name); var ns := NamespaceOf(name);
        if ns.None? || ns.value == "" then
          ok && callbacks == old(callbacks)[e := []] && handlers == old(handlers) - {e}
        else if e !in old(callbacks) then
          !ok && callbacks == old(callbacks) && handlers == old(handlers)
        else
          ok && handlers == old(handlers)
          && callbacks == old(callbacks)[e := WithoutNamespace(old(callbacks)[e], ns.value, fnNs)]
    {
      var e := EventOf(name);
      var ns := NamespaceOf(name);
      if ns.None? || ns.value == "" {
        callbacks := callbacks[e := []];
        handlers := handlers - {e};
        return true;
      }
      if e !in callbacks {
        return false;
      }
      var funcs := RemoveNamespace(callbacks[e], ns.value, fnNs);
      callbacks := callbacks[e := funcs];
      return true;
    }
  }
}

=== FILE: input.dfy ===
/**
 * Client keyboard input: key codes are mapped to command names, key presses
 * are debounced into a key-state map, and once per tick the key state is
 * sampled into a bounded buffer that the network code flushes.
 */
module KeyInput {
  import opened Options

  /** `KEYMAP`: browser key codes to command names. */
  function KeyName(code: int): (key: Option<string>)
    ensures code == 87 || code == 38 <==> key == Some("up")
    ensures code == 83 || code == 40 <==> key == Some("down")
    ensures code == 65 || code == 37 <==> key == Some("left")
    ensures code == 68 || code == 39 <==> key == Some("right")
    ensures code == 32 <==> key == Some("space")
    ensures code == 8 <==> key == Some("backspace")
    ensures code == 13 <==> key == Some("enter")
    ensures code == 27 <==> key == Some("escape")
    ensures key.Some? ==> key.value != ""
  {
    match code
    case 8 => Some("backspace")
    case 13 => Some("enter")
    case 27 => Some("escape")
    case 32 => Some("space")
    case 87 => Some("up")
    case 38 => Some("up")
    case 83 => Some("down")
    case 40 => Some("down")
    case 65 => Some("left")
    case 37 => Some("left")
    case 68 => Some("right")
    case 39 => Some("right")
    case _ => None
  }

  /** Only the twelve codes of the key map name a key. */
  lemma MappedCodes(code: int)
    requires KeyName(code).Some?
    ensures code in {8, 13, 27, 32, 37, 38, 39, 40, 65, 68, 83, 87}
  {
  }

  /** A sampled key state: command name to 1 (pressed) or 0 (released). */
  type KeyState = map<string, int>

  /** The two maps the key handlers write. */
  datatype Keys = Keys(state: KeyState, down: KeyState)

  /** `!keyDown[key]`: an absent key or a 0 is not down. */
  predicate IsDown(down: KeyState, key: string) {
    key in down && down[key] != 0
  }

  /** The keydown handler: a mapped key that is not already down is set to 1 in both maps. */
  function OnKeyDown(k: Keys, code: int): (r: Keys)
    ensures KeyName(code).None? ==> r == k
    ensures KeyName(code).Some? && IsDown(k.down, KeyName(code).value) ==> r == k
    ensures KeyName(code).Some? && !IsDown(k.down, KeyName(code).value) ==>
      r == Keys(k.state[KeyName(code).value := 1], k.down[KeyName(code).value := 1])
    ensures KeyName(code).Some? ==> IsDown(r.down, KeyName(code).value)
  {
    var key := KeyName(code);
    if key.Some? && !IsDown(k.down, key.value) then
      Keys(k.state[key.value := 1], k.down[key.value := 1])
    else k
  }

  /** The keyup handler: a mapped key is set to 0 in both maps. */
  function OnKeyUp(k: Keys, code: int): (r: Keys)
    ensures KeyName(code).None? ==> r == k
    ensures KeyName(code).Some? ==> var key := KeyName(code).value;
      r.state == k.state[key := 0] && r.down == k.down[key := 0] && !IsDown(r.down, key)
  {
    var key := KeyName(code);
    if key.Some? then Keys(k.state[key.value := 0], k.down[key.value := 0]) else k
  }

  /** Every recorded value is a 0 or a 1. */
  predicate Binary(k: Keys) {
    (forall key :: key in k.state ==> k.state[key] in {0, 1}) &&
    (forall key :: key in k.down ==> k.down[key] in {0, 1})
  }

  /** Both handlers keep the maps binary. */
  lemma HandlersStayBinary(k: Keys, code: int)
    requires Binary(k)
    ensures Binary(OnKeyDown(k, code)) && Binary(OnKeyUp(k, code))
  {
  }

  /** Auto-repeated keydown events are debounced: a second keydown changes nothing. */
  lemma KeyDownDebounced(k: Keys, code: int)
    ensures OnKeyDown(OnKeyDown(k, code), code) == OnKeyDown(k, code)
  {
  }

  /** Releasing a key re-arms it: the next keydown records a fresh press. */
  lemma KeyUpRearms(k: Keys, code: int)
    requires KeyName(code).Some?
    ensures var r := OnKeyDown(OnKeyUp(k, code), code); var key := KeyName(code).value;
      key in r.state && r.state[key] == 1
  {
  }

  /** The most samples the buffer holds. */
  const BufferLimit := 100

  /** `sample`'s buffer update: push a non-empty key state, then drop the oldest if over the limit. */
  function PushSample(buffer: seq<KeyState>, state: KeyState): (r: seq<KeyState>)
    ensures |buffer| <= BufferLimit ==> |r| <= BufferLimit
    ensures state == map[] && |buffer| <= BufferLimit ==> r == buffer
    ensures state != map[] ==> |r| >= 1 && r[|r| - 1] == state
    ensures state != map[] && |buffer| < BufferLimit ==> r == buffer + [state]
    ensures state != map[] && |buffer| >= BufferLimit ==> r == (buffer + [state])[1..]
  {
    var pushed := if state != map[] then buffer + [state] else buffer;
    if |pushed| > BufferLimit then pushed[1..] else pushed
  }

  /** A full buffer keeps the most recent hundred samples. */
  lemma {:induction false} BufferKeepsLatest(buffer: seq<KeyState>, state: KeyState)
    requires |buffer| == BufferLimit && state != map[]
    ensures PushSample(buffer, state) == buffer[1..] + [state]
    ensures |PushSample(buffer, state)| == BufferLimit
  {
    assert (buffer + [state])[1..] == buffer[1..] + [state];
  }

  class Input {
    var keyState: KeyState
    var keyDown: KeyState
    var sampleBuffer: seq<KeyState>

    ghost predicate Valid()
      reads this
    {
      |sampleBuffer| <= BufferLimit && Binary(Keys(keyState, keyDown))
    }

    /** `new Input(params)`: empty maps and buffer; the game and renderer references are not modelled. */
    constructor ()
      ensures Valid()
      ensures keyState == map[] && keyDown == map[] && sampleBuffer == []
    {
      keyState := map[];
      keyDown := map[];
      sampleBuffer := [];
    }

    /** The window's keydown listener. */
    method KeyDown(code: int)
      requires Valid()
      modifies this
      ensures Valid()
      ensures Keys(keyState, keyDown) == OnKeyDown(old(Keys(keyState, keyDown)), code)
      ensures sampleBuffer == old(sampleBuffer)
    {
      HandlersStayBinary(Keys(keyState, keyDown), code);
      var key := KeyName(code);
      if key.Some? && !IsDown(keyDown, key.value) {
        keyDown := keyDown[key.value := 1];
        keyState := keyState[key.value := 1];
      }
    }

    /** The window's keyup listener. */
    method KeyUp(code: int)
      requires Valid()
      modifies this
      ensures Valid()
      ensures Keys(keyState, keyDown) == OnKeyUp(old(Keys(keyState, keyDown)), code)
      ensures sampleBuffer == old(sampleBuffer)
    {
      HandlersStayBinary(Keys(keyState, keyDown), code);
      var key := KeyName(code);
      if key.Some? {
        keyDown := keyDown[key.value := 0];
        keyState := keyState[key.value := 0];
      }
    }

    /** `sample()`: records the key state gathered since the last sample and starts a new one. */
    method Sample()
      requires Valid()
      modifies this
      ensures Valid()
      ensures sampleBuffer == PushSample(old(sampleBuffer), old(keyState))
      ensures keyState == map[] && keyDown == old(keyDown)
    {
      sampleBuffer := PushSample(sampleBuffer, keyState);
      keyState := map[];
    }

    /** `flushSamples()`: hands over the buffer and leaves an empty one. */
    method FlushSamples() returns (samples: seq<KeyState>)
      requires Valid()
      modifies this
      ensures Valid()
      ensures samples == old(sampleBuffer) && sampleBuffer == []
      ensures keyState == old(keyState) && keyDown == old(keyDown)
    {
      samples := sampleBuffer;
      sampleBuffer := [];
    }
  }
}

=== FILE: json.dfy ===
/**
 * JSON-like property bags. Constructor parameters, `toJSON` snapshots, saved
 * states and delta entries are all plain JavaScript objects; a `Bag` holds the
 * properties that are defined on such an object (an absent key is an
 * undefined property). Property names are the ones the game uses.
 */
module Json {
  import opened Vectors
  import opened Options

  /** A property name; `Name` gives its JavaScript spelling. */
  datatype Prop =
    | Id | Type | Subtype | Owner | Bot
    | Pos | LastPos | Velocity | Acceleration
    | Thrust | Rotate | RotateBy | Angle
    | Health | Radius | Shield | ShieldQuality | ShieldRegen | ShieldMax
    | Rebound | Shooting | ShootRate | Remove | Mass | Strength
    | AngularVel | AngularVelocity | Power | Increase | Powerup

  function Name(q: Prop): string {
    match q
    case Id => "id" case Type => "type" case Subtype => "subtype" case Owner => "owner"
    case Bot => "bot" case Pos => "pos" case LastPos => "lastPos" case Velocity => "velocity"
    case Acceleration => "acceleration" case Thrust => "thrust" case Rotate => "rotate"
    case RotateBy => "rotateBy" case Angle => "angle" case Health => "health"
    case Radius => "radius" case Shield => "shield" case ShieldQuality => "shieldQuality"
    case ShieldRegen => "shieldRegen" case ShieldMax => "shieldMax" case Rebound => "rebound"
    case Shooting => "shooting" case ShootRate => "shootRate" case Remove => "remove"
    case Mass => "mass" case Strength => "strength" case AngularVel => "angularVel"
    case AngularVelocity => "angularVelocity" case Power => "power" case Increase => "increase"
    case Powerup => "powerup"
  }

  /** Every property name the game uses. */
  const AllProps: set<Prop> := {
    Id, Type, Subtype, Owner, Bot, Pos, LastPos, Velocity, Acceleration, Thrust, Rotate, RotateBy,
    Angle, Health, Radius, Shield, ShieldQuality, ShieldRegen, ShieldMax, Rebound, Shooting,
    ShootRate, Remove, Mass, Strength, AngularVel, AngularVelocity, Power, Increase, Powerup}

  lemma AllPropsComplete()
    ensures forall q :: q in AllProps
  {
    forall q ensures q in AllProps {
      PropListed(q);
    }
  }

  lemma PropListed(q: Prop)
    ensures q in AllProps
  {
  }

  /** `i[0] !== '_'`: whether `toJSON` copies a property of this name. */
  predicate Public(q: Prop) {
    |Name(q)| > 0 && Name(q)[0] != '_'
  }

  /** No property the game uses is an internal (`_`-prefixed) one. */
  lemma AllPublic(q: Prop)
    ensures Public(q)
  {
  }

  /** A JSON value; a vector is the three-element array `toJSON` turns it into. */
  datatype Value = Null | Bool(b: bool) | Num(n: real) | Str(s: string) | Vec(v: Vec3)

  type Bag = map<Prop, Value>

  /** JavaScript truthiness. Vectors are arrays, hence objects, hence truthy. */
  predicate Truthy(v: Value) {
    match v
    case Null => false
    case Bool(b) => b
    case Num(n) => n != 0.0
    case Str(s) => s != ""
    case Vec(_) => true
  }

  /** Whether `bag.key` is truthy (an undefined property is falsy). */
  predicate Has(bag: Bag, key: Prop) {
    key in bag && Truthy(bag[key])
  }

  /**
   * `bag.key || d` for a numeric property: a truthy number is kept, and an
   * undefined or falsy property (absent, `null`, `false`, `0`, `""`) gives
   * the default. The result is always the default or the stored number.
   */
  function NumOr(bag: Bag, key: Prop, d: real): (r: real)
    ensures Has(bag, key) && bag[key].Num? ==> r == bag[key].n
    ensures !Has(bag, key) ==> r == d
    ensures r == d || (key in bag && bag[key] == Num(r))
  {
    if key in bag && bag[key].Num? && bag[key].n != 0.0 then bag[key].n else d
  }

  /** `bag.key` as an optional number. */
  function NumOf(bag: Bag, key: Prop): Option<real> {
    if key in bag && bag[key].Num? then Some(bag[key].n) else None
  }

  /** `vec3.create(bag.key || d)`: a copy of the vector, or of `d` when it is undefined. */
  function VecOr(bag: Bag, key: Prop, d: Vec3): Vec3 {
    if key in bag && bag[key].Vec? then bag[key].v else d
  }

  /** `vec3.create(bag.key)`: a copy of the vector, or the zero vector when undefined. */
  function VecOf(bag: Bag, key: Prop): Vec3 {
    VecOr(bag, key, Zero)
  }

  /** `bag.key` as an optional string. */
  function StrOf(bag: Bag, key: Prop): Option<string> {
    if key in bag && bag[key].Str? then Some(bag[key].s) else None
  }

  /** `bag.key` as JavaScript reads it: the stored value, or `None` for undefined. */
  function ValueOf(bag: Bag, key: Prop): (r: Option<Value>)
    ensures r.Some? <==> key in bag
    ensures r.Some? ==> r.value == bag[key]
  {
    if key in bag then Some(bag[key]) else None
  }

  /** `bag.id`: an id can be any JSON value, or undefined. */
  function IdOf(bag: Bag): Option<Value> {
    ValueOf(bag, Id)
  }

  /** `obj[bag.id]`: the property name the id of `bag` becomes. */
  function IdKey(bag: Bag): string {
    KeyOf(IdOf(bag))
  }

  /**
   * `a === b` on two property values (`None` is undefined). A vector is an
   * array, an object, compared by reference: two arrays read from different
   * records are different objects.
   */
  predicate StrictEquals(a: Option<Value>, b: Option<Value>) {
    a == b && !(a.Some? && a.value.Vec?)
  }

  /** An undefined value where JSON writes it inside an array: `null`. */
  function InArray(v: Option<Value>): (r: Value)
    ensures v.Some? ==> r == v.value
    ensures v.None? ==> r == Null
  {
    v.GetOr(Null)
  }

  /**
   * `String(v)`: the property name a value becomes when it indexes an
   * object. Undefined becomes "undefined", a string is itself, a number
   * its numeral and an array its elements joined by commas.
   */
  function KeyOf(v: Option<Value>): (k: string)
    ensures v.None? ==> k == "undefined"
    ensures v.Some? && v.value.Str? ==> k == v.value.s
    ensures v.Some? && v.value.Num? ==> IsNumeral(k)
  {
    match v
    case None => "undefined"
    case Some(Null) => "null"
    case Some(Bool(b)) => if b then "true" else "false"
    case Some(Num(n)) => NumberKey(n)
    case Some(Str(s)) => s
    case Some(Vec(p)) => NumberKey(p.x) + "," + NumberKey(p.y) + "," + NumberKey(p.z)
  }

  predicate IsDigit(c: char) {
    '0' <= c <= '9'
  }

  /** A number's spelling: an optional sign, then digits and decimal points; `NumberKey` writes at most one point. */
  predicate IsNumeral(k: string) {
    && |k| > 0
    && (forall i :: 0 <= i < |k| ==> IsDigit(k[i]) || k[i] == '.' || (k[i] == '-' && i == 0))
    && (k[0] == '-' ==> |k| > 1 && IsDigit(k[1]))
  }

  function DigitChar(d: nat): (c: char)
    requires d < 10
    ensures IsDigit(c) && c as int - '0' as int == d
  {
    ('0' as int + d) as char
  }

  /** The decimal numeral of `n`, without leading zeros. */
  function Digits(n: nat): (s: string)
    ensures |s| > 0 && forall i :: 0 <= i < |s| ==> IsDigit(s[i])
  {
    if n < 10 then [DigitChar(n)] else Digits(n / 10) + [DigitChar(n % 10)]
  }

  /** The number a string of digits spells. */
  function DigitsValue(s: string): nat
    requires forall i :: 0 <= i < |s| ==> IsDigit(s[i])
  {
    if s == [] then 0
    else
      assert IsDigit(s[|s| - 1]);
      DigitsValue(s[..|s| - 1]) * 10 + (s[|s| - 1] as int - '0' as int)
  }

  /** Reading a numeral back gives its number: distinct numbers have distinct numerals. */
  lemma {:induction false} DigitsRoundTrip(n: nat)
    ensures DigitsValue(Digits(n)) == n
  {
    if n >= 10 {
      DigitsRoundTrip(n / 10);
      var s := Digits(n);
      assert s[..|s| - 1] == Digits(n / 10);
    }
  }

  /** Up to `fuel` decimal digits of a fraction in [0, 1), stopping where it ends. */
  function FractionDigits(f: real, fuel: nat): (s: string)
    requires 0.0 <= f < 1.0
    ensures forall i :: 0 <= i < |s| ==> IsDigit(s[i])
    decreases fuel
  {
    if fuel == 0 || f == 0.0 then ""
    else
      var d := (f * 10.0).Floor;
      [DigitChar(d)] + FractionDigits(f * 10.0 - d as real, fuel - 1)
  }

  /**
   * `String(n)` for a number: a minus sign when negative, the numeral of the
   * integer part and, for a fraction, a point and its decimal digits.
   */
  function NumberKey(n: real): (k: string)
    ensures IsNumeral(k)
  {
    var a := if n < 0.0 then -n else n;
    var whole := Digits(a.Floor);
    var frac := if a == a.Floor as real then "" else "." + FractionDigits(a - a.Floor as real, 20);
    (if n < 0.0 then "-" else "") + whole + frac
  }

  /** An integer's key is its sign and the numeral of its magnitude. */
  lemma IntegerKey(m: int)
    ensures KeyOf(Some(Num(m as real))) == (if m < 0 then "-" else "") + Digits(if m < 0 then -m else m)
  {
    var a := if m < 0 then -(m as real) else m as real;
    assert a.Floor == (if m < 0 then -m else m);
  }

  /** Distinct integer ids index distinct properties. */
  lemma IntegerKeysDistinct(m: int, n: int)
    requires m != n
    ensures KeyOf(Some(Num(m as real))) != KeyOf(Some(Num(n as real)))
  {
    IntegerKey(m);
    IntegerKey(n);
    var am: nat, an: nat := if m < 0 then -m else m, if n < 0 then -n else n;
    var km, kn := (if m < 0 then "-" else "") + Digits(am), (if n < 0 then "-" else "") + Digits(an);
    if (m < 0) == (n < 0) {
      DigitsRoundTrip(am);
      DigitsRoundTrip(an);
      assert Digits(am) != Digits(an);
      if m < 0 {
        assert km[1..] == Digits(am) && kn[1..] == Digits(an);
      } else {
        assert km == Digits(am) && kn == Digits(an);
      }
    } else if m < 0 {
      assert km[0] == '-' && kn[0] == Digits(an)[0];
    } else {
      assert kn[0] == '-' && km[0] == Digits(am)[0];
    }
  }

  /** A number and its numeral index the same property, as `obj[1]` and `obj["1"]` do. */
  lemma NumberSharesNumeralKey(n: nat)
    ensures KeyOf(Some(Num(n as real))) == KeyOf(Some(Str(Digits(n))))
  {
    IntegerKey(n);
    assert "" + Digits(n) == Digits(n);
  }
}

=== FILE: options.dfy ===
/** The optional value used wherever the JavaScript source leaves a property undefined. */
module Options {
  datatype Option<+T> = None | Some(value: T) {
    function GetOr(default: T): T {
      match this
      case Some(v) => v
      case None => default
    }
  }
}

=== FILE: player.dfy ===
/**
 * The Player: constructor defaults, command handling and the per-tick
 * update. Geometry (`outsideWorld`, `intersects`, `overlap`) and `toJSON`
 * are the Entity ones (`Entities.OutsideWorldAt`, `Entities.IntersectsAt`,
 * `Entities.Entity.ToJSON`); the player's copies are the same code.
 */
module Players {
  import opened Options
  import opened Vectors
  import opened Json
  import opened DeltaTracking
  import opened Entities

  /**
   * A user command: the sampled key state, key name to 1 (down) or 0 (up).
   * A key that is not in the map is `undefined`, which `isNaN` reports as
   * absent.
   */
  type Command = map<string, int>

  /** The part of a player a command steers. */
  datatype Controls = Controls(thrust: real, rotateBy: real, shooting: bool)

  function ControlsOf(p: Entity): Controls
    reads p
  {
    Controls(p.thrust, p.rotateBy, p.shooting)
  }

  /** Whether `cmd.key` is truthy. */
  predicate Pressed(cmd: Command, key: string) {
    key in cmd && cmd[key] != 0
  }

  /** The rudder values a command can set. */
  predicate IsTurn(r: real) {
    r == -0.35 || r == 0.0 || r == 0.35
  }

  /** The thrust values a command can set. */
  predicate IsThrust(t: real) {
    t == 0.0 || t == 0.02
  }

  /**
   * `handleCmd(cmd)`: `space` sets shooting; `left` or `right` sets the
   * rudder, left winning; `up` sets the thrust. A control whose keys are
   * absent keeps its value.
   */
  function ApplyCommand(c: Controls, cmd: Command): (r: Controls)
    ensures "space" in cmd ==> (r.shooting <==> Pressed(cmd, "space"))
    ensures "space" !in cmd ==> r.shooting == c.shooting
    ensures "left" in cmd || "right" in cmd ==>
      IsTurn(r.rotateBy) &&
      (r.rotateBy < 0.0 <==> Pressed(cmd, "left")) &&
      (r.rotateBy > 0.0 <==> !Pressed(cmd, "left") && Pressed(cmd, "right"))
    ensures "left" !in cmd && "right" !in cmd ==> r.rotateBy == c.rotateBy
    ensures "up" in cmd ==> IsThrust(r.thrust) && (r.thrust > 0.0 <==> Pressed(cmd, "up"))
    ensures "up" !in cmd ==> r.thrust == c.thrust
  {
    var shooting := if "space" in cmd then Pressed(cmd, "space") else c.shooting;
    var rotateBy :=
      if "left" in cmd || "right" in cmd then
        (if Pressed(cmd, "left") then -0.35 else if Pressed(cmd, "right") then 0.35 else 0.0)
      else c.rotateBy;
    var thrust := if "up" in cmd then (if Pressed(cmd, "up") then 0.02 else 0.0) else c.thrust;
    Controls(thrust, rotateBy, shooting)
  }

  /** Applying the same command twice is applying it once. */
  lemma ApplyIdempotent(c: Controls, cmd: Command)
    ensures ApplyCommand(ApplyCommand(c, cmd), cmd) == ApplyCommand(c, cmd)
  {
  }

  /** An empty sample steers nothing. */
  lemma ApplyEmpty(c: Controls)
    ensures ApplyCommand(c, map[]) == c
  {
  }

  /** A command that names every control decides them all: what came before is forgotten. */
  lemma FullCommandForgets(c1: Controls, c2: Controls, cmd: Command)
    requires "space" in cmd && "up" in cmd && ("left" in cmd || "right" in cmd)
    ensures ApplyCommand(c1, cmd) == ApplyCommand(c2, cmd)
  {
  }

  /**
   * A run of commands: each is applied in turn, so the latest command
   * that names a control decides it.
   */
  function ApplyAll(c: Controls, cmds: seq<Command>): Controls
    decreases |cmds|
  {
    if cmds == [] then c else ApplyAll(ApplyCommand(c, cmds[0]), cmds[1..])
  }

  /** After a run ending in a full command, the controls are that command's alone. */
  lemma {:induction false} ApplyAllLastFullWins(c: Controls, cmds: seq<Command>)
    requires cmds != []
    requires var last := cmds[|cmds| - 1];
      "space" in last && "up" in last && ("left" in last || "right" in last)
    ensures ApplyAll(c, cmds) == ApplyCommand(c, cmds[|cmds| - 1])
    decreases |cmds|
  {
    if |cmds| == 1 {
      assert cmds[1..] == [];
    } else {
      ApplyAllLastFullWins(ApplyCommand(c, cmds[0]), cmds[1..]);
      assert cmds[1..][|cmds[1..]| - 1] == cmds[|cmds| - 1];
      FullCommandForgets(ApplyCommand(c, cmds[0]), c, cmds[|cmds| - 1]);
    }
  }

  /** `move(amount)`. */
  method Move(p: Entity, amount: real)
    modifies p`thrust
    ensures p.thrust == amount
  {
    p.thrust := amount;
  }

  /** `rotate(value)`. */
  method Rotate(p: Entity, value: real)
    modifies p`rotateBy
    ensures p.rotateBy == value
  {
    p.rotateBy := value;
  }

  /** `shoot(bool)`: `!!bool` on the key's value. */
  method Shoot(p: Entity, value: int)
    modifies p`shooting
    ensures p.shooting == (value != 0)
  {
    p.shooting := value != 0;
  }

  /** `handleCmd(cmd)`, through `shoot`, `rotate` and `move`. */
  method HandleCmd(p: Entity, cmd: Command)
    modifies p`thrust, p`rotateBy, p`shooting
    ensures ControlsOf(p) == ApplyCommand(old(ControlsOf(p)), cmd)
  {
    if "space" in cmd {
      Shoot(p, cmd["space"]);
    }
    if "left" in cmd || "right" in cmd {
      Rotate(p, if Pressed(cmd, "left") then -0.35 else if Pressed(cmd, "right") then 0.35 else 0.0);
    }
    if "up" in cmd {
      Move(p, if Pressed(cmd, "up") then 0.02 else 0.0);
    }
  }

  /** Shield regeneration: `shield *= regen`, capped at 100. */
  function Regen(shield: real, regen: real): (r: real)
    ensures r <= 100.0
    ensures shield * regen <= 100.0 ==> r == shield * regen
    ensures shield * regen > 100.0 ==> r == 100.0
  {
    var s := shield * regen;
    if s > 100.0 then 100.0 else s
  }

  /** Regeneration never lowers a shield that regenerates (`regen >= 1`) and is not yet above the cap. */
  lemma RegenMonotone(shield: real, regen: real)
    requires 0.0 <= shield <= 100.0 && regen >= 1.0
    ensures shield <= Regen(shield, regen)
  {
    assert shield * regen - shield == shield * (regen - 1.0);
    MulNonNegative(shield, regen - 1.0);
  }

  lemma MulNonNegative(x: real, y: real)
    requires x >= 0.0 && y >= 0.0
    ensures x * y >= 0.0
  {
  }

  /**
   * The new velocity: `vel * accel` component-wise plus the thrust along
   * the new heading, `[-sin(angle) * thrust, cos(angle) * thrust, 0]`,
   * where `trig(angle)` stands for `(Math.sin(angle), Math.cos(angle))`.
   */
  function Thrusted(vel: Vec3, accel: Vec3, angle: real, thrust: real, trig: real -> (real, real)): Vec3 {
    var (sin, cos) := trig(angle);
    Add(Mul(vel, accel), Vec3(-sin * thrust, cos * thrust, 0.0))
  }

  /** Without thrust, the velocity only decays by the acceleration factors. */
  lemma NoThrustOnlyDecays(vel: Vec3, accel: Vec3, angle: real, trig: real -> (real, real))
    ensures Thrusted(vel, accel, angle, 0.0, trig) == Add(Mul(vel, accel), Zero)
  {
    var (sin, cos) := trig(angle);
    assert -sin * 0.0 == 0.0 && cos * 0.0 == 0.0;
  }

  /**
   * `computeState(delta)`: remember the position, turn by `π/8 * rotateBy`,
   * update the velocity, regenerate the shield up to 100 and move.
   */
  method ComputeState(p: Entity, delta: real, trig: real -> (real, real))
    requires p.kind == PlayerKind && p.Valid()
    modifies p`lastPos, p`angle, p`velocity, p`shield, p`pos
    ensures p.Valid()
    ensures p.lastPos == old(p.pos)
    ensures p.angle == Some(old(p.angle.value) + PiOver8 * p.rotateBy)
    ensures p.velocity == Thrusted(old(p.velocity), p.acceleration.value, p.angle.value, p.thrust, trig)
    ensures p.shield == Regen(old(p.shield), p.shieldRegen) && p.shield <= 100.0
    ensures p.pos == Step(old(p.pos), p.velocity, delta)
  {
    p.lastPos := p.pos;
    p.angle := Some(p.angle.value + PiOver8 * p.rotateBy);
    p.velocity := Thrusted(p.velocity, p.acceleration.value, p.angle.value, p.thrust, trig);
    p.shield := Regen(p.shield, p.shieldRegen);
    p.pos := Step(p.pos, p.velocity, delta);
  }

  /**
   * `setShield(value)`: stores the shield and records it for replication.
   * The method is called but not defined in the player's source; this is
   * the least it must do.
   */
  method SetShield(p: Entity, value: real, tr: DeltaTracker)
    requires p.kind == PlayerKind
    modifies p`shield, tr
    ensures p.shield == value
    ensures tr.changes == Register(old(tr.changes), Scope, KeyOf(p.id), Field(Prop.Shield, Num(value)))
    ensures tr.events == old(tr.events)
  {
    p.shield := value;
    p.RegisterChange(tr, Field(Prop.Shield, Num(value)));
  }

  /** `adjustShield(amount)`: `setShield(shield + amount)`. */
  method AdjustShield(p: Entity, amount: real, tr: DeltaTracker)
    requires p.kind == PlayerKind
    modifies p`shield, tr
    ensures p.shield == old(p.shield) + amount
    ensures tr.changes == Register(old(tr.changes), Scope, KeyOf(p.id), Field(Prop.Shield, Num(p.shield)))
    ensures tr.events == old(tr.events)
  {
    SetShield(p, p.shield + amount, tr);
  }

  /**
   * `handleHit(bullet)` of a player. The engine calls it, but no file of
   * the repository defines it for a Player, so only its frame is modelled:
   * it may change the player's shield and either entity's removal flag,
   * it leaves both valid, and, as everywhere in the repository outside the
   * constructors, a removal flag is only ever set, never cleared. What it
   * does within that frame is not modelled.
   */
  method HandleHit(p: Entity, bullet: Entity, tr: DeltaTracker)
    requires p.kind == PlayerKind && bullet.kind == BulletKind
    requires p.Valid() && bullet.Valid()
    modifies p`shield, p`remove, bullet`remove, tr
    ensures p.Valid() && bullet.Valid()
    ensures old(p.Removed()) ==> p.Removed()
    ensures old(bullet.Removed()) ==> bullet.Removed()
  {
  }
}

=== FILE: powerup.dfy ===
/**
 * The power-ups: Shield tops a player's shield up, ShieldUp raises its
 * maximum. Their constructors are `Entities.Entity.Shield` and
 * `Entities.Entity.ShieldUp`; both inherit `type` ("powerup") and `remove`
 * (false) from the Powerup prototype.
 */
module Powerups {
  import opened Options
  import opened Json
  import opened DeltaTracking
  import opened Entities
  import Players

  /** `computeState()`: the whole serialised power-up is recorded every tick. */
  method ComputeState(u: Entity, tr: DeltaTracker)
    requires IsPowerup(u.kind)
    modifies tr
    ensures tr.changes == Register(old(tr.changes), Scope, KeyOf(u.id), Whole(u.ToJSON()))
    ensures tr.events == old(tr.events)
  {
    u.RegisterChange(tr, Whole(u.ToJSON()));
  }

  /** The shield a Shield pickup leaves: topped up by `power` only when that stays within 100. */
  function ShieldTopUp(shield: real, power: real): (r: real)
    ensures shield + power <= 100.0 ==> r == shield + power
    ensures shield + power > 100.0 ==> r == shield
    ensures r <= 100.0 || r == shield
  {
    if shield + power <= 100.0 then shield + power else shield
  }

  /** A pickup never lifts a shield over 100, and never takes one away. */
  lemma TopUpBounded(shield: real, power: real)
    requires shield <= 100.0 && power >= 0.0
    ensures shield <= ShieldTopUp(shield, power) <= 100.0
  {
  }

  /** `Shield.activate(player)` before the shared part: the top-up. */
  method ApplyShield(u: Entity, player: Entity, tr: DeltaTracker)
    requires u.kind == ShieldKind && player.kind == PlayerKind
    modifies player`shield, tr
    ensures player.shield == ShieldTopUp(old(player.shield), u.power)
    ensures tr.events == old(tr.events)
  {
    if player.shield + u.power <= 100.0 {
      Players.AdjustShield(player, u.power, tr);
    }
  }

  /** `ShieldUp.activate(player)` before the shared part: a new maximum, and the shield set to it. */
  method ApplyShieldUp(u: Entity, player: Entity, tr: DeltaTracker)
    requires u.kind == ShieldUpKind && player.kind == PlayerKind
    modifies player`shield, player`shieldMax, tr
    ensures player.shieldMax == Some(100.0 + u.increase)
    ensures player.shield == 100.0 + u.increase
    ensures tr.events == old(tr.events)
  {
    player.shieldMax := Some(100.0 + u.increase);
    Players.SetShield(player, 100.0 + u.increase, tr);
  }

  /** `Powerup.activate(player)`: a `powerup` event with the subtype and the player's id, then destruction. */
  method Consume(u: Entity, player: Entity, tr: DeltaTracker)
    requires IsPowerup(u.kind) && u.Valid()
    modifies u`remove, tr
    ensures u.Valid() && u.Removed()
    ensures tr.events == old(tr.events) +
      [Event("powerup", u.id, [Str(u.subtype.value), InArray(player.id)]), Event("destroy", u.id, [])]
  {
    u.RegisterEvent(tr, "powerup", [Str(u.subtype.value), InArray(player.id)]);
    u.Destroy(tr);
  }

  /** `activate(player)` of either power-up: its effect on the player, then the shared part. */
  method Activate(u: Entity, player: Entity, tr: DeltaTracker)
    requires IsPowerup(u.kind) && u.Valid() && player.kind == PlayerKind
    modifies player`shield, player`shieldMax, u`remove, tr
    ensures u.Valid() && u.Removed()
    ensures u.kind == ShieldKind ==>
      player.shield == ShieldTopUp(old(player.shield), u.power) && player.shieldMax == old(player.shieldMax)
    ensures u.kind == ShieldUpKind ==>
      player.shieldMax == Some(100.0 + u.increase) && player.shield == 100.0 + u.increase
    ensures tr.events == old(tr.events) +
      [Event("powerup", u.id, [Str(u.subtype.value), InArray(player.id)]), Event("destroy", u.id, [])]
  {
    if u.kind == ShieldKind {
      ApplyShield(u, player, tr);
    } else {
      ApplyShieldUp(u, player, tr);
    }
    Consume(u, player, tr);
  }
}

=== FILE: schedule.dfy ===
/**
 * The engine's scheduler: `Game.schedule` queues `[callback, ms, repeat]`
 * and every tick counts each task down, walking the buffer from its last
 * task to its first.
 */
module Scheduling {
  import opened Options

  /** A callback function object, by identity. */
  type Callback = nat

  /** A scheduled task `[callback, countdown, repeat]`. */
  datatype Task = Task(callback: Callback, countdown: real, repeat: bool)

  /**
   * `callback._ms`, the interval `schedule` last stored on the callback
   * object itself; an undefined one reads as 0, which is just as falsy.
   */
  function MsOf(ms: map<Callback, real>, cb: Callback): real {
    if cb in ms then ms[cb] else 0.0
  }

  /** A task fires (its callback is called) when its countdown, less `delta`, reaches zero. */
  predicate Fires(t: Task, delta: real) {
    t.countdown - delta <= 0.0
  }

  /**
   * One task in the countdown pass. `returnsFalse(cb)` says whether calling
   * the callback returns `false`. A task whose countdown is still positive
   * is kept; one that fired is kept only if it repeats, its callback did not
   * return `false` and the callback's `_ms` (written back as the new
   * countdown) is non-zero.
   */
  function Countdown(t: Task, delta: real, ms: map<Callback, real>, returnsFalse: Callback -> bool): (r: Option<Task>)
    ensures r.Some? <==>
      !Fires(t, delta) || (t.repeat && !returnsFalse(t.callback) && MsOf(ms, t.callback) != 0.0)
    ensures r.Some? ==> r.value.callback == t.callback && r.value.repeat == t.repeat
    ensures r.Some? && !Fires(t, delta) ==> r.value.countdown == t.countdown - delta > 0.0
    ensures r.Some? && Fires(t, delta) ==> r.value.countdown == MsOf(ms, t.callback) != 0.0
  {
    var left := t.countdown - delta;
    if left > 0.0 then Some(t.(countdown := left))
    else if t.repeat && !returnsFalse(t.callback) && MsOf(ms, t.callback) != 0.0 then
      Some(t.(countdown := MsOf(ms, t.callback)))
    else None
  }

  /** A task that does not repeat is gone once it has fired. */
  lemma OneShotGoesAfterFiring(t: Task, delta: real, ms: map<Callback, real>, returnsFalse: Callback -> bool)
    requires !t.repeat && Fires(t, delta)
    ensures Countdown(t, delta, ms, returnsFalse).None?
  {
  }

  function AsSeq<T>(o: Option<T>): seq<T> {
    if o.Some? then [o.value] else []
  }

  /**
   * The new schedule buffer, in the order the pass pushes the survivors:
   * the last task is visited, and pushed, first.
   */
  function Survivors(tasks: seq<Task>, delta: real, ms: map<Callback, real>, returnsFalse: Callback -> bool): seq<Task> {
    if tasks == [] then []
    else Survivors(tasks[1..], delta, ms, returnsFalse) + AsSeq(Countdown(tasks[0], delta, ms, returnsFalse))
  }

  /** The surviving tasks in their old order. */
  function InOrder(tasks: seq<Task>, delta: real, ms: map<Callback, real>, returnsFalse: Callback -> bool): seq<Task> {
    if tasks == [] then []
    else AsSeq(Countdown(tasks[0], delta, ms, returnsFalse)) + InOrder(tasks[1..], delta, ms, returnsFalse)
  }

  function Reverse<T>(s: seq<T>): (r: seq<T>)
    ensures |r| == |s|
  {
    if s == [] then [] else Reverse(s[1..]) + [s[0]]
  }

  lemma {:induction false} ReverseAppend<T>(a: seq<T>, b: seq<T>)
    ensures Reverse(a + b) == Reverse(b) + Reverse(a)
    decreases |a|
  {
    if a == [] {
      assert a + b == b;
    } else {
      assert (a + b)[1..] == a[1..] + b;
      ReverseAppend(a[1..], b);
    }
  }

  /** The survivors are stored in the reverse of their previous order. */
  lemma {:induction false} SurvivorsReversed(tasks: seq<Task>, delta: real, ms: map<Callback, real>, returnsFalse: Callback -> bool)
    ensures Survivors(tasks, delta, ms, returnsFalse) == Reverse(InOrder(tasks, delta, ms, returnsFalse))
    decreases |tasks|
  {
    if tasks != [] {
      var head := AsSeq(Countdown(tasks[0], delta, ms, returnsFalse));
      SurvivorsReversed(tasks[1..], delta, ms, returnsFalse);
      ReverseAppend(head, InOrder(tasks[1..], delta, ms, returnsFalse));
      assert Reverse(head) == head;
    }
  }

  /** When no task fires, the pass keeps every task, counted down, and reverses the buffer. */
  lemma {:induction false} QuietTickKeepsAll(tasks: seq<Task>, delta: real, ms: map<Callback, real>, returnsFalse: Callback -> bool)
    requires forall k :: 0 <= k < |tasks| ==> !Fires(tasks[k], delta)
    ensures |Survivors(tasks, delta, ms, returnsFalse)| == |tasks|
    ensures forall k :: 0 <= k < |tasks| ==>
      Survivors(tasks, delta, ms, returnsFalse)[k] == tasks[|tasks| - 1 - k].(countdown := tasks[|tasks| - 1 - k].countdown - delta)
    decreases |tasks|
  {
    if tasks != [] {
      QuietTickKeepsAll(tasks[1..], delta, ms, returnsFalse);
      assert forall k :: 0 <= k < |tasks| - 1 ==> tasks[1..][k] == tasks[k + 1];
    }
  }

  /** The callbacks the pass calls, in the order it calls them. */
  function FiredCallbacks(tasks: seq<Task>, delta: real): seq<Callback> {
    if tasks == [] then []
    else FiredCallbacks(tasks[1..], delta) + (if Fires(tasks[0], delta) then [tasks[0].callback] else [])
  }

  /** A callback is called exactly when one of its tasks fires. */
  lemma {:induction false} FiredExactly(tasks: seq<Task>, delta: real, cb: Callback)
    ensures cb in FiredCallbacks(tasks, delta) <==>
      exists k :: 0 <= k < |tasks| && tasks[k].callback == cb && Fires(tasks[k], delta)
    decreases |tasks|
  {
    if tasks != [] {
      FiredExactly(tasks[1..], delta, cb);
      if exists k :: 0 <= k < |tasks| - 1 && tasks[1..][k].callback == cb && Fires(tasks[1..][k], delta) {
        var k :| 0 <= k < |tasks| - 1 && tasks[1..][k].callback == cb && Fires(tasks[1..][k], delta);
        assert tasks[k + 1] == tasks[1..][k];
      }
      if exists k :: 0 <= k < |tasks| && tasks[k].callback == cb && Fires(tasks[k], delta) {
        var k :| 0 <= k < |tasks| && tasks[k].callback == cb && Fires(tasks[k], delta);
        if k > 0 {
          assert tasks[1..][k - 1] == tasks[k];
        }
      }
    }
  }

  /**
   * The countdown pass over the buffer: the loop of `computeState` that
   * walks it backwards. It returns the new buffer and the callbacks called.
   */
  method RunSchedule(tasks: seq<Task>, delta: real, ms: map<Callback, real>, returnsFalse: Callback -> bool)
    returns (ongoing: seq<Task>, called: seq<Callback>)
    ensures ongoing == Survivors(tasks, delta, ms, returnsFalse)
    ensures called == FiredCallbacks(tasks, delta)
  {
    ongoing, called := [], [];
    var i := |tasks|;
    while i > 0
      invariant 0 <= i <= |tasks|
      invariant ongoing == Survivors(tasks[i..], delta, ms, returnsFalse)
      invariant called == FiredCallbacks(tasks[i..], delta)
    {
      i := i - 1;
      var task := tasks[i];
      assert tasks[i..][1..] == tasks[i + 1..];
      var left := task.countdown - delta;
      if left <= 0.0 {
        called := called + [task.callback];
      }
      if left > 0.0 {
        ongoing := ongoing + [task.(countdown := left)];
      } else if task.repeat && !returnsFalse(task.callback) && MsOf(ms, task.callback) != 0.0 {
        ongoing := ongoing + [task.(countdown := MsOf(ms, task.callback))];
      }
    }
  }
}

=== FILE: sequence.dfy ===
/**
 * Message sequence numbers. `Sequence.create` stamps a message with the next
 * number of a module-wide counter that wraps to 0 once it has passed 4000;
 * `Sequence.reply` answers with the number of the request.
 */
module Sequencing {
  /** The counter's ceiling: after a number above it comes 0. */
  const Max := 4000

  /** The number `create` hands out after `n`: `n++ > max ? 0 : n + 1`. */
  function Next(n: int): (r: int)
    ensures 0 <= n <= Max + 1 ==> 0 <= r <= Max + 1
    ensures n >= 0 ==> (r == 0 <==> n > Max)
  {
    if n > Max then 0 else n + 1
  }

  /** The counter after `k` calls of `create`, starting from its initial 0. */
  function After(k: nat): int {
    if k == 0 then 0 else Next(After(k - 1))
  }

  /** The counter runs through 0, 1, ..., 4001 and starts over. */
  lemma {:induction false} AfterIsModular(k: nat)
    ensures After(k) == k % (Max + 2)
  {
    if k > 0 {
      AfterIsModular(k - 1);
    }
  }

  /** Any 4002 consecutive messages carry pairwise distinct numbers. */
  lemma DistinctWithinWindow(i: nat, j: nat)
    requires i < j < i + Max + 2
    ensures After(i) != After(j)
  {
    AfterIsModular(i);
    AfterIsModular(j);
    var m := Max + 2;
    var a, b := i / m, j / m;
    assert i == a * m + i % m && j == b * m + j % m;
  }

  /** `Sequence.reply(seq, data)`: the reply carries the request's number. */
  function Reply<T>(seqNo: int, data: T): (r: (int, T))
    ensures r.0 == seqNo && r.1 == data
  {
    (seqNo, data)
  }

  /** The module-wide `sequenceNo` counter. */
  class Sequencer {
    var sequenceNo: int

    ghost predicate Valid()
      reads this
    {
      0 <= sequenceNo <= Max + 1
    }

    constructor ()
      ensures sequenceNo == 0 && Valid()
    {
      sequenceNo := 0;
    }

    /** `Sequence.create(data)`: advances the counter and stamps `data` with it. */
    method Create<T>(data: T) returns (r: (int, T))
      requires Valid()
      modifies this
      ensures Valid()
      ensures sequenceNo == Next(old(sequenceNo))
      ensures r == (sequenceNo, data)
    {
      sequenceNo := Next(sequenceNo);
      r := (sequenceNo, data);
    }
  }
}

=== FILE: snapshot.dfy ===
/**
 * The data the engine exchanges whole: saved states (`save` / `load`), the
 * class lookup `_instantiate` goes through, and the delta messages a
 * replica receives (`delta`).
 */
module Snapshots {
  import opened Options
  import opened Json
  import opened Entities

  /** A saved state: entity records (None for a falsy entry), the id map and the time stamp. */
  datatype Snapshot = Snapshot(entities: seq<Option<Bag>>, entityMap: map<string, int>, timeStamp: real)

  /**
   * `Game.instanceMap[record.type][record.subtype]`: the class a record
   * instantiates, if its (type, subtype) pair has one.
   */
  function ClassOf(r: Bag): (k: Option<Kind>)
    ensures k.Some? ==> StrOf(r, Type) == Some(KindType(k.value))
  {
    var t, s := StrOf(r, Type), StrOf(r, Subtype);
    if t == Some("player") then
      (if s == Some("player") || s == Some("bot") then Some(PlayerKind) else None)
    else if t == Some("object") then
      (if s == Some("asteroid") then Some(AsteroidKind) else None)
    else if t == Some("bullet") then
      (if s == Some("bullet") then Some(BulletKind) else None)
    else if t == Some("powerup") then
      (if s == Some("shield") then Some(ShieldKind) else if s == Some("shieldup") then Some(ShieldUpKind) else None)
    else None
  }

  /** The subtype under which the class is listed in the instance map. */
  function ClassSubtype(k: Kind): string {
    match k
    case PlayerKind => "player"
    case BulletKind => "bullet"
    case AsteroidKind => "asteroid"
    case ShieldKind => "shield"
    case ShieldUpKind => "shieldup"
  }

  /** Every class is found under its type and its listed subtype. */
  lemma ClassOfListed(r: Bag, k: Kind)
    requires StrOf(r, Type) == Some(KindType(k)) && StrOf(r, Subtype) == Some(ClassSubtype(k))
    ensures ClassOf(r) == Some(k)
  {
  }

  /**
   * The record `save` should write for an entity: `toJSON()` with the
   * class's type and subtype added, so that `load` can instantiate it.
   */
  function SaveRecord(e: Entity): (r: Bag)
    reads e
    ensures ClassOf(r) == Some(e.kind)
    ensures IdOf(r) == e.id
    ensures forall q :: q != Type && q != Subtype ==> (q in r <==> q in e.ToJSON())
    ensures forall q :: q != Type && q != Subtype && q in r ==> r[q] == e.ToJSON()[q]
  {
    var r := e.ToJSON()[Type := Str(KindType(e.kind))][Subtype := Str(ClassSubtype(e.kind))];
    ClassOfListed(r, e.kind);
    r
  }

  /**
   * What `save` writes as written, `toJSON()`, cannot be loaded for a
   * Player or a Bullet (neither has a `subtype`) or for a power-up whose
   * `type` is still the prototype's (`toJSON` copies own properties only).
   */
  lemma ToJSONNotLoadable(e: Entity)
    requires e.Valid()
    requires e.kind == PlayerKind || e.kind == BulletKind || (IsPowerup(e.kind) && e.typeName.None?)
    ensures ClassOf(e.ToJSON()).None?
  {
    var r := e.ToJSON();
    if IsPowerup(e.kind) {
      assert Type !in r;
    } else {
      assert Subtype !in r;
    }
  }

  /** The records `save` writes for the entity array: the last entity first. */
  function SavedRecords(es: seq<Entity>): (r: seq<Option<Bag>>)
    reads es
    ensures |r| == |es|
    ensures forall k :: 0 <= k < |es| ==> r[k] == Some(SaveRecord(es[|es| - 1 - k]))
  {
    if es == [] then []
    else
      var tail := es[1..];
      assert forall j :: 1 <= j < |es| ==> tail[j - 1] == es[j];
      SavedRecords(tail) + [Some(SaveRecord(es[0]))]
  }

  /** The records `save` writes for the entity array as written, `toJSON()` of each: the last entity first. */
  function JSONRecords(es: seq<Entity>): (r: seq<Option<Bag>>)
    reads es
    ensures |r| == |es|
    ensures forall k :: 0 <= k < |es| ==> r[k] == Some(es[|es| - 1 - k].ToJSON())
  {
    if es == [] then []
    else
      var tail := es[1..];
      assert forall j :: 1 <= j < |es| ==> tail[j - 1] == es[j];
      JSONRecords(tail) + [Some(es[0].ToJSON())]
  }

  /** As written, the record `save` writes for a Player or a Bullet names no class `load` knows. */
  lemma JSONRecordsUnloadable(es: seq<Entity>, k: int)
    requires 0 <= k < |es| && es[k].Valid() && (es[k].kind == PlayerKind || es[k].kind == BulletKind)
    ensures ClassOf(JSONRecords(es)[|es| - 1 - k].value).None?
  {
    ToJSONNotLoadable(es[k]);
  }

  /** The records `load` instantiates: those before the first falsy entry that have a class. */
  function Loadable(entries: seq<Option<Bag>>): (r: seq<Bag>)
    ensures |r| <= |entries|
  {
    if entries == [] || entries[0].None? then []
    else (if ClassOf(entries[0].value).Some? then [entries[0].value] else []) + Loadable(entries[1..])
  }

  /** A record is loaded only if it has a class. */
  lemma {:induction false} LoadableHaveClass(entries: seq<Option<Bag>>, k: int)
    requires 0 <= k < |Loadable(entries)|
    ensures ClassOf(Loadable(entries)[k]).Some?
    ensures Some(Loadable(entries)[k]) in entries
    decreases |entries|
  {
    var head := if ClassOf(entries[0].value).Some? then [entries[0].value] else [];
    if k >= |head| {
      LoadableHaveClass(entries[1..], k - |head|);
      assert Some(Loadable(entries[1..])[k - |head|]) in entries[1..];
    }
  }

  /** Loading stops at the first falsy entry: nothing after it is looked at. */
  lemma {:induction false} LoadStopsAtFalsy(entries: seq<Option<Bag>>, tail: seq<Option<Bag>>)
    ensures Loadable(entries + [None] + tail) == Loadable(entries)
    decreases |entries|
  {
    if entries == [] {
      assert (entries + [None] + tail)[0] == None;
    } else if entries[0].Some? {
      assert (entries + [None] + tail)[1..] == entries[1..] + [None] + tail;
      LoadStopsAtFalsy(entries[1..], tail);
    }
  }

  /** Entries that are all loadable records are all loaded, in order. */
  lemma {:induction false} AllLoadable(entries: seq<Option<Bag>>)
    requires forall k :: 0 <= k < |entries| ==> entries[k].Some? && ClassOf(entries[k].value).Some?
    ensures |Loadable(entries)| == |entries|
    ensures forall k :: 0 <= k < |entries| ==> Some(Loadable(entries)[k]) == entries[k]
    decreases |entries|
  {
    if entries != [] {
      AllLoadable(entries[1..]);
      assert forall k :: 1 <= k < |entries| ==> entries[1..][k - 1] == entries[k];
    }
  }

  /**
   * With the corrected records, loading a saved array gives back every
   * entity's class and id, in reverse order.
   */
  lemma SaveLoadRoundTrip(es: seq<Entity>)
    ensures |Loadable(SavedRecords(es))| == |es|
    ensures forall k :: 0 <= k < |es| ==>
      var r := Loadable(SavedRecords(es))[k];
      ClassOf(r) == Some(es[|es| - 1 - k].kind) && IdOf(r) == es[|es| - 1 - k].id
  {
    AllLoadable(SavedRecords(es));
  }

  /** As written, a saved single-player game loads with no entity at all. */
  lemma PlayerLostOnReload(p: Entity)
    requires p.Valid() && p.kind == PlayerKind
    ensures Loadable([Some(p.ToJSON())]) == []
  {
    ToJSONNotLoadable(p);
    assert [Some(p.ToJSON())][1..] == [];
  }

  /** A delta message: the changed entity records by id, in enumeration order, and the events. */
  datatype DeltaMsg = DeltaMsg(entities: seq<(string, Bag)>, events: seq<seq<Value>>)

  /** `event.shift()`'s effect on the event: its first element is gone. */
  function Rest(e: seq<Value>): seq<Value> {
    if e == [] then [] else e[1..]
  }

  /**
   * The name (`event.shift()`) and the arguments one event is fired with.
   * Every event is built with its name first, so events are never empty;
   * for the empty case the model gives `null` where `shift()` gives undefined.
   */
  function FireOf(e: seq<Value>): (f: (Value, seq<Value>))
    ensures e != [] ==> [f.0] + f.1 == e
    ensures e == [] ==> f == (Null, [])
  {
    (if e == [] then Null else e[0], Rest(e))
  }

  /** The `fire` calls for a delta's events: the last event first. */
  function Firings(events: seq<seq<Value>>): (r: seq<(Value, seq<Value>)>)
    ensures |r| == |events|
  {
    if events == [] then [] else [FireOf(events[|events| - 1])] + Firings(events[..|events| - 1])
  }

  /** The k-th call fires the k-th event from the end. */
  lemma {:induction false} FiringsReversed(events: seq<seq<Value>>)
    ensures forall k :: 0 <= k < |events| ==> Firings(events)[k] == FireOf(events[|events| - 1 - k])
    decreases |events|
  {
    if events != [] {
      var n := |events| - 1;
      var prefix := events[..n];
      FiringsReversed(prefix);
      var tail := Firings(prefix);
      assert Firings(events) == [FireOf(events[n])] + tail;
      forall k | 1 <= k <= n
        ensures Firings(events)[k] == FireOf(events[n - k])
      {
        assert prefix[n - k] == events[n - k];
        assert Firings(events)[k] == tail[k - 1];
      }
    }
  }

  /**
   * The message as the state buffer holds it once its events are fired:
   * the buffer keeps the same object, whose events have lost their names.
   */
  function Shifted(d: DeltaMsg): (r: DeltaMsg)
    ensures r.entities == d.entities && |r.events| == |d.events|
    ensures forall k :: 0 <= k < |d.events| ==> r.events[k] == FireOf(d.events[k]).1
  {
    d.(events := seq(|d.events|, k requires 0 <= k < |d.events| => Rest(d.events[k])))
  }

  /** `STATE_BUFFER_TIME / TICK_RATE`: how many messages the state buffer keeps. */
  const BufferLimit := 3

  /** The buffer after a push: the oldest message goes once there are more than the limit. */
  function Window<T>(buffer: seq<T>): (r: seq<T>)
    ensures |buffer| <= BufferLimit + 1 ==> |r| <= BufferLimit
    ensures |buffer| > BufferLimit ==> r == buffer[1..]
    ensures |buffer| <= BufferLimit ==> r == buffer
  {
    if |buffer| > BufferLimit then buffer[1..] else buffer
  }

  /** The newest message is always kept, and a bounded buffer stays bounded. */
  lemma WindowKeepsNewest<T>(buffer: seq<T>, d: T)
    requires |buffer| <= BufferLimit
    ensures |Window(buffer + [d])| <= BufferLimit
    ensures Window(buffer + [d])[|Window(buffer + [d])| - 1] == d
  {
  }
}

=== FILE: vectors.dfy ===
/**
 * Three-component vectors, standing in for the `vec3` values of the vector
 * library the engine uses. Components are exact reals; `z` is carried but the
 * game is two-dimensional.
 */
module Vectors {
  datatype Vec3 = Vec3(x: real, y: real, z: real)

  const Zero := Vec3(0.0, 0.0, 0.0)

  function Add(a: Vec3, b: Vec3): Vec3 {
    Vec3(a.x + b.x, a.y + b.y, a.z + b.z)
  }

  function Sub(a: Vec3, b: Vec3): Vec3 {
    Vec3(a.x - b.x, a.y - b.y, a.z - b.z)
  }

  function Scale(a: Vec3, k: real): Vec3 {
    Vec3(a.x * k, a.y * k, a.z * k)
  }

  /** Component-wise product (`vec3.multiply`). */
  function Mul(a: Vec3, b: Vec3): Vec3 {
    Vec3(a.x * b.x, a.y * b.y, a.z * b.z)
  }

  function Dot(a: Vec3, b: Vec3): real {
    a.x * b.x + a.y * b.y + a.z * b.z
  }

  /** Squared centre distance; `vec3.dist` is its square root. */
  function DistSq(a: Vec3, b: Vec3): (r: real)
    ensures r >= 0.0
  {
    SumOfSquares(a.x - b.x, a.y - b.y, a.z - b.z);
    Dot(Sub(a, b), Sub(a, b))
  }

  lemma SumOfSquares(p: real, q: real, r: real)
    ensures p * p + q * q + r * r >= 0.0
  {
    assert p * p >= 0.0;
    assert q * q >= 0.0;
    assert r * r >= 0.0;
  }

  lemma DistSqSymmetric(a: Vec3, b: Vec3)
    ensures DistSq(a, b) == DistSq(b, a)
  {
  }
}

=== FILE: viewport.dfy ===
/**
 * The client's viewport: a window of the screen's size onto the world,
 * centred on `pos`, with conversions from world to screen coordinates and
 * strict visibility tests.
 */
module Viewports {
  import opened Vectors
  import opened Options

  datatype Viewport = Viewport(
    worldWidth: real, worldHeight: real,
    width: real, height: real,
    /** Half the screen size: the screen point the viewport's `pos` is drawn at. */
    centre: Vec3,
    worldCentre: Vec3,
    /** The world point at the middle of the screen. */
    pos: Vec3)

  /** A box `[left, right, top, bottom]` as `withinBounds` takes it. */
  datatype Box = Box(left: real, right: real, top: real, bottom: real)

  /** `new Viewport(width, height, worldw, worldh)`: starts looking at the middle of the world. */
  function New(width: real, height: real, worldw: real, worldh: real): (v: Viewport)
    ensures v.width == width && v.height == height
    ensures v.worldWidth == worldw && v.worldHeight == worldh
    ensures v.centre.x * 2.0 == width && v.centre.y * 2.0 == height && v.centre.z == 0.0
    ensures v.pos == v.worldCentre
    ensures v.pos.x * 2.0 == worldw && v.pos.y * 2.0 == worldh && v.pos.z == 0.0
  {
    var worldCentre := Vec3(worldw / 2.0, worldh / 2.0, 0.0);
    Viewport(worldw, worldh, width, height, Vec3(width / 2.0, height / 2.0, 0.0), worldCentre, worldCentre)
  }

  /** Static `Viewport.withinBounds(coords, bounds)`: strictly inside on all four sides. */
  predicate InBox(coords: Vec3, b: Box) {
    coords.x > b.left && coords.x < b.right && coords.y > b.top && coords.y < b.bottom
  }

  /** No point on an edge of a box is inside it. */
  lemma InBoxStrict(coords: Vec3, b: Box)
    requires coords.x == b.left || coords.x == b.right || coords.y == b.top || coords.y == b.bottom
    ensures !InBox(coords, b)
  {
  }

  /** The padding `withinBounds` uses when none is passed. */
  const DefaultPadding := 50.0

  /** The box instance `withinBounds` tests against: `pos ± (centre + padding)`. */
  function ViewBox(v: Viewport, padding: Option<real>): (b: Box)
    ensures var p := padding.GetOr(DefaultPadding);
      && b.left + v.centre.x + p == v.pos.x && b.right - v.centre.x - p == v.pos.x
      && b.top + v.centre.y + p == v.pos.y && b.bottom - v.centre.y - p == v.pos.y
  {
    var p := padding.GetOr(DefaultPadding);
    Box((v.pos.x - v.centre.x) - p, (v.pos.x + v.centre.x) + p,
        (v.pos.y - v.centre.y) - p, (v.pos.y + v.centre.y) + p)
  }

  /** Instance `withinBounds(coords, padding)`: visible, give or take the padding. */
  predicate WithinBounds(v: Viewport, coords: Vec3, padding: Option<real>) {
    InBox(coords, ViewBox(v, padding))
  }

  /** `withinWorldBounds(coords)`: strictly inside the world. */
  predicate WithinWorldBounds(v: Viewport, coords: Vec3) {
    InBox(coords, Box(0.0, v.worldWidth, 0.0, v.worldHeight))
  }

  /** `worldXToScreenX(x)`. */
  function ScreenX(v: Viewport, x: real): (sx: real)
    ensures sx == x - (v.pos.x - v.centre.x)
  {
    ((v.pos.x - v.centre.x) - x) * -1.0
  }

  /** `worldYToScreenY(y)`. */
  function ScreenY(v: Viewport, y: real): (sy: real)
    ensures sy == y - (v.pos.y - v.centre.y)
  {
    ((v.pos.y - v.centre.y) - y) * -1.0
  }

  /** `worldToScreen(pos)`: the screen point of a world point, on the z = 0 plane. */
  function WorldToScreen(v: Viewport, p: Vec3): (s: Vec3)
    ensures s.z == 0.0
  {
    Vec3(ScreenX(v, p.x), ScreenY(v, p.y), 0.0)
  }

  /** The viewport's own position is drawn at the screen centre. */
  lemma PosAtCentre(v: Viewport)
    ensures WorldToScreen(v, v.pos) == Vec3(v.centre.x, v.centre.y, 0.0)
  {
  }

  /** Moving a world point moves its screen point by the same amount. */
  lemma ScreenTranslation(v: Viewport, p: Vec3, d: Vec3)
    ensures WorldToScreen(v, Add(p, d)) == Add(WorldToScreen(v, p), Vec3(d.x, d.y, 0.0))
  {
  }

  /** Screen conversion is invertible: the world point is recovered by adding back the offset. */
  lemma ScreenInverse(v: Viewport, p: Vec3)
    ensures ScreenX(v, p.x) + (v.pos.x - v.centre.x) == p.x
    ensures ScreenY(v, p.y) + (v.pos.y - v.centre.y) == p.y
  {
  }

  /**
   * A world point is within the padded view exactly when its screen point
   * is within `padding` of the screen rectangle `[0, width] x [0, height]`.
   */
  lemma WithinBoundsOnScreen(v: Viewport, coords: Vec3, padding: Option<real>)
    requires v.centre.x * 2.0 == v.width && v.centre.y * 2.0 == v.height
    ensures var p := padding.GetOr(DefaultPadding); var s := WorldToScreen(v, coords);
      WithinBounds(v, coords, padding) <==>
        -p < s.x < v.width + p && -p < s.y < v.height + p
  {
  }

  /** A fresh viewport sees the world centre, which is inside the world when the world has area. */
  lemma FreshViewSeesCentre(width: real, height: real, worldw: real, worldh: real)
    requires width > 0.0 && height > 0.0 && worldw > 0.0 && worldh > 0.0
    ensures var v := New(width, height, worldw, worldh);
      WithinBounds(v, v.worldCentre, None) && WithinWorldBounds(v, v.worldCentre)
  {
  }
}

=== FILE: world.dfy ===
/**
 * The physics pass of `Game.computeState`: every entity not flagged for
 * removal is advanced, wrapped round the world and tested against every
 * later entity; the kept entities form the new entity array and map.
 */
module World {
  import opened Options
  import opened Vectors
  import opened Json
  import opened DeltaTracking
  import opened Entities
  import Players
  import Bullets
  import Asteroids
  import Powerups
  import Elastic

  /** `WIDTH` and `HEIGHT`. */
  const Width: real := 2500.0
  const Height: real := 2500.0

  /** One coordinate after the wrap: the side's sign says which way the world's size is added. */
  function WrapAxis(c: real, side: int, size: real): (r: real)
    ensures side < 0 ==> r == c + size
    ensures side > 0 ==> r == c - size
    ensures side == 0 ==> r == c
  {
    if side == 0 then c else c + (if side < 0 then 1.0 else -1.0) * size
  }

  /** The position after the wrap the engine applies to an entity of radius `r` at `p`. */
  function WrapPos(p: Vec3, r: real): Vec3 {
    match OutsideWorldAt(p, r, Width, Height)
    case None => p
    case Some(side) => Vec3(WrapAxis(p.x, side.x, Width), WrapAxis(p.y, side.y, Height), p.z)
  }

  /**
   * An entity inside the world stays put; one that crossed a low edge moves
   * up by the world's size, one that crossed a high edge down by it.
   */
  lemma WrapRule(p: Vec3, r: real)
    ensures var q := WrapPos(p, r);
      && q.z == p.z
      && (r <= p.x && p.x + r <= Width ==> q.x == p.x)
      && (p.x < r ==> q.x == p.x + Width)
      && (r <= p.x && p.x + r > Width ==> q.x == p.x - Width)
      && (r <= p.y && p.y + r <= Height ==> q.y == p.y)
      && (p.y < r ==> q.y == p.y + Height)
      && (r <= p.y && p.y + r > Height ==> q.y == p.y - Height)
  {
  }

  /**
   * The wrap makes no round trip: a small entity that has just crossed the
   * low edge (centre within its radius of it) lands across the high edge
   * and would be wrapped straight back.
   */
  lemma WrapStraddlingLowEdge(p: Vec3, r: real)
    requires 0.0 < r && 0.0 <= p.x < r && r <= p.y && p.y + r <= Height
    ensures var q := WrapPos(p, r); q.x + r > Width && WrapPos(q, r).x == p.x
  {
  }

  /** How a colliding pair is handled. */
  datatype Action = HitFirst | HitSecond | ActivateFirst | ActivateSecond | Bounce

  /** The `switch` on the concatenated `type` strings of the pair. */
  function Dispatch(pair: string): Action {
    if pair == "playerbullet" || pair == "objectbullet" then HitFirst
    else if pair == "bulletplayer" || pair == "bulletobject" then HitSecond
    else if pair == "powerupplayer" then ActivateFirst
    else if pair == "playerpowerup" then ActivateSecond
    else Bounce
  }

  /** The type names the classes give their instances. */
  predicate KnownType(t: string) {
    t == "player" || t == "bullet" || t == "object" || t == "powerup"
  }

  /**
   * The rule the switch implements: a bullet hits a player or an asteroid
   * (the non-bullet handles it), a power-up is activated by a player, and
   * every other pair bounces.
   */
  function ByTypes(t1: string, t2: string): Action {
    if t2 == "bullet" && (t1 == "player" || t1 == "object") then HitFirst
    else if t1 == "bullet" && (t2 == "player" || t2 == "object") then HitSecond
    else if t1 == "powerup" && t2 == "player" then ActivateFirst
    else if t1 == "player" && t2 == "powerup" then ActivateSecond
    else Bounce
  }

  lemma DispatchFromPlayer(t2: string)
    requires KnownType(t2)
    ensures Dispatch("player" + t2) == ByTypes("player", t2)
  {
    if t2 == "player" { assert "player" + t2 == "playerplayer"; }
    else if t2 == "bullet" { assert "player" + t2 == "playerbullet"; }
    else if t2 == "object" { assert "player" + t2 == "playerobject"; }
    else { assert "player" + t2 == "playerpowerup"; }
  }

  lemma DispatchFromBullet(t2: string)
    requires KnownType(t2)
    ensures Dispatch("bullet" + t2) == ByTypes("bullet", t2)
  {
    if t2 == "player" { assert "bullet" + t2 == "bulletplayer"; }
    else if t2 == "bullet" { assert "bullet" + t2 == "bulletbullet"; }
    else if t2 == "object" { assert "bullet" + t2 == "bulletobject"; }
    else { assert "bullet" + t2 == "bulletpowerup"; }
  }

  lemma DispatchFromObject(t2: string)
    requires KnownType(t2)
    ensures Dispatch("object" + t2) == ByTypes("object", t2)
  {
    if t2 == "player" { assert "object" + t2 == "objectplayer"; }
    else if t2 == "bullet" { assert "object" + t2 == "objectbullet"; }
    else if t2 == "object" { assert "object" + t2 == "objectobject"; }
    else { assert "object" + t2 == "objectpowerup"; }
  }

  lemma DispatchFromPowerup(t2: string)
    requires KnownType(t2)
    ensures Dispatch("powerup" + t2) == ByTypes("powerup", t2)
  {
    if t2 == "player" { assert "powerup" + t2 == "powerupplayer"; }
    else if t2 == "bullet" { assert "powerup" + t2 == "powerupbullet"; }
    else if t2 == "object" { assert "powerup" + t2 == "powerupobject"; }
    else { assert "powerup" + t2 == "poweruppowerup"; }
  }

  lemma DispatchByTypes(t1: string, t2: string)
    requires KnownType(t1) && KnownType(t2)
    ensures Dispatch(t1 + t2) == ByTypes(t1, t2)
  {
    if t1 == "player" {
      DispatchFromPlayer(t2);
    } else if t1 == "bullet" {
      DispatchFromBullet(t2);
    } else if t1 == "object" {
      DispatchFromObject(t2);
    } else {
      DispatchFromPowerup(t2);
    }
  }

  /** Swapping the pair swaps which side handles it. */
  lemma DispatchMirrors(t1: string, t2: string)
    requires KnownType(t1) && KnownType(t2)
    ensures var a := Dispatch(t1 + t2); var b := Dispatch(t2 + t1);
      && (a == HitFirst <==> b == HitSecond)
      && (a == ActivateFirst <==> b == ActivateSecond)
      && (a == Bounce <==> b == Bounce)
  {
    DispatchByTypes(t1, t2);
    DispatchByTypes(t2, t1);
  }

  /**
   * What the pair tests read of an entity and the physics pass never
   * writes: its class, id, owner, effective `type`, radius, and the
   * controls and spin its `computeState` uses.
   */
  datatype Shape = Shape(kind: Kind, id: Option<Value>, owner: Option<Value>, typ: string, radius: real,
                         accel: Option<Vec3>, thrust: real, rotateBy: real, spin: real)

  function ShapeOf(e: Entity): Shape
    reads e`id, e`owner, e`typeName, e`radius, e`acceleration, e`thrust, e`rotateBy, e`angularVel
  {
    Shape(e.kind, e.id, e.owner, e.Type(), e.radius, e.acceleration, e.thrust, e.rotateBy, e.angularVel)
  }

  /** `S` lists the shapes of the entities `es`. */
  ghost predicate ShapesAre(es: seq<Entity>, S: seq<Shape>)
    reads es`id, es`owner, es`typeName, es`radius, es`acceleration, es`thrust, es`rotateBy, es`angularVel
  {
    |S| == |es| && forall k {:trigger ShapeOf(es[k])} :: 0 <= k < |es| ==> S[k] == ShapeOf(es[k])
  }

  /** The shapes of the entities `es` as they are now. */
  ghost function ShapesNow(es: seq<Entity>): (S: seq<Shape>)
    reads es
    ensures ShapesAre(es, S)
  {
    seq(|es|, k requires 0 <= k < |es| reads es => ShapeOf(es[k]))
  }

  /** What the physics pass may change of an entity: its removal flag, position, last position, velocity and angle. */
  datatype Snap = Snap(removed: bool, pos: Vec3, last: Vec3, vel: Vec3, angle: Option<real>)

  function SnapOf(e: Entity): Snap
    reads e`remove, e`pos, e`lastPos, e`velocity, e`angle
  {
    Snap(e.Removed(), e.pos, e.lastPos, e.velocity, e.angle)
  }

  /** `h` lists the snapshots of the entities `es`. */
  ghost predicate SnapsAre(es: seq<Entity>, h: seq<Snap>)
    reads es`remove, es`pos, es`lastPos, es`velocity, es`angle
  {
    |h| == |es| && forall k {:trigger SnapOf(es[k])} :: 0 <= k < |es| ==> h[k] == SnapOf(es[k])
  }

  /** The snapshots of the entities `es` as they are now. */
  ghost function SnapsNow(es: seq<Entity>): (h: seq<Snap>)
    reads es
    ensures SnapsAre(es, h)
  {
    seq(|es|, k requires 0 <= k < |es| reads es => SnapOf(es[k]))
  }

  /**
   * The gate a pair must pass, for entities of shapes `s1`, `s2` at `p1`,
   * `p2`: neither owns the other (`owner !== id`, so an entity without an
   * owner and one without an id never pass), not two bullets, and they
   * intersect.
   */
  predicate Meets(s1: Shape, p1: Vec3, s2: Shape, p2: Vec3) {
    && !StrictEquals(s1.owner, s2.id)
    && !StrictEquals(s2.owner, s1.id)
    && s1.typ + s2.typ != "bulletbullet"
    && IntersectsAt(p1, s1.radius, p2, s2.radius)
  }

  /**
   * `owner !== id` with both undefined is false: an entity without an
   * owner never meets one without an id, wherever they stand.
   */
  lemma UndefinedIdsNeverMeet(s1: Shape, p1: Vec3, s2: Shape, p2: Vec3)
    requires s1.owner.None? && s2.id.None?
    ensures !Meets(s1, p1, s2, p2) && !Meets(s2, p2, s1, p1)
  {
  }

  /** A bullet never meets the entity whose id is its owner, unless that id is an array. */
  lemma OwnerNeverMet(s1: Shape, p1: Vec3, s2: Shape, p2: Vec3)
    requires s1.owner == s2.id && !(s2.id.Some? && s2.id.value.Vec?)
    ensures !Meets(s1, p1, s2, p2) && !Meets(s2, p2, s1, p1)
  {
  }

  /** The gate on two entities where they stand. */
  predicate Eligible(e1: Entity, e2: Entity)
    reads e1, e2
  {
    Meets(ShapeOf(e1), e1.pos, ShapeOf(e2), e2.pos)
  }

  /** Whether an entity of class `k` has a `handleHit` that takes an entity of class `b`. */
  predicate TakesHits(k: Kind, b: Kind) {
    (k == PlayerKind || k == AsteroidKind) && b == BulletKind
  }

  /**
   * Whether the `handleHit` an entity of class `k` has for an entity of
   * class `b` is one whose effect is known: an asteroid's, which destroys
   * the bullet. A player's `handleHit` is defined in no file of the
   * repository.
   */
  predicate HitDestroys(k: Kind, b: Kind) {
    k == AsteroidKind && b == BulletKind
  }

  /**
   * What handling a pair of shapes `s1`, `s2` guarantees about their
   * removal flags `f1`, `f2` afterwards: the bullet of a hit is destroyed,
   * and so is the power-up a player activates.
   */
  predicate Handled(s1: Shape, s2: Shape, f1: bool, f2: bool) {
    var a := Dispatch(s1.typ + s2.typ);
    && (a == HitFirst && HitDestroys(s1.kind, s2.kind) ==> f2)
    && (a == HitSecond && HitDestroys(s2.kind, s1.kind) ==> f1)
    && (a == ActivateFirst && IsPowerup(s1.kind) && s2.kind == PlayerKind ==> f1)
    && (a == ActivateSecond && IsPowerup(s2.kind) && s1.kind == PlayerKind ==> f2)
  }

  predicate Distinct<T(==)>(xs: seq<T>) {
    forall i, j :: 0 <= i < j < |xs| ==> xs[i] != xs[j]
  }

  ghost predicate AllValid(es: seq<Entity>)
    reads es`typeName, es`subtype, es`acceleration, es`angle, es`remove, es`radius
  {
    forall k :: 0 <= k < |es| ==> es[k].Valid()
  }

  /** The keys the entities' ids index maps by, in order. */
  function Ids(es: seq<Entity>): (r: seq<string>)
    reads es`id
    ensures |r| == |es| && forall k :: 0 <= k < |es| ==> r[k] == KeyOf(es[k].id)
  {
    if es == [] then [] else Ids(es[..|es| - 1]) + [KeyOf(es[|es| - 1].id)]
  }

  /** Every mapped id names an index holding that id. */
  predicate MapSound(ids: seq<string>, m: map<string, int>) {
    forall id :: id in m ==> 0 <= m[id] < |ids| && ids[m[id]] == id
  }

  /** No id after index `k` is the one at `k`. */
  predicate LastWithId(ids: seq<string>, k: int)
    requires 0 <= k < |ids|
  {
    forall j :: k < j < |ids| ==> ids[j] != ids[k]
  }

  /** `m` maps every id in `ids`, and nothing else, to the last index holding it. */
  predicate IndexMap(ids: seq<string>, m: map<string, int>) {
    && MapSound(ids, m)
    && (forall k :: 0 <= k < |ids| ==> ids[k] in m)
    && (forall id :: id in m ==> LastWithId(ids, m[id]))
  }

  /** `newMap[entity.id] = newEntities.push(entity) - 1` keeps the map right. */
  lemma IndexMapPush(ids: seq<string>, m: map<string, int>, id: string)
    requires IndexMap(ids, m)
    ensures IndexMap(ids + [id], m[id := |ids|])
  {
    var ids', m' := ids + [id], m[id := |ids|];
    forall x | x in m'
      ensures 0 <= m'[x] < |ids'| && ids'[m'[x]] == x && LastWithId(ids', m'[x])
    {
      if x != id {
        assert ids'[m[x]] == ids[m[x]];
      }
    }
  }

  /** The elements whose flag in `keep` is set, in their order. */
  function Filter<T>(xs: seq<T>, keep: seq<bool>): (r: seq<T>)
    requires |keep| == |xs|
    ensures |r| <= |xs|
  {
    if xs == [] then []
    else
      var n := |xs| - 1;
      Filter(xs[..n], keep[..n]) + (if keep[n] then [xs[n]] else [])
  }

  /** The filter keeps only elements of the sequence. */
  lemma {:induction false} FilterSubset<T>(xs: seq<T>, keep: seq<bool>, x: T)
    requires |keep| == |xs| && x in Filter(xs, keep)
    ensures x in xs
    decreases |xs|
  {
    var n := |xs| - 1;
    if x !in Filter(xs[..n], keep[..n]) {
      assert x == xs[n];
    } else {
      FilterSubset(xs[..n], keep[..n], x);
    }
  }

  /** Filtering valid entities leaves valid entities. */
  lemma FilterValid(es: seq<Entity>, keep: seq<bool>)
    requires |keep| == |es| && AllValid(es)
    ensures AllValid(Filter(es, keep))
  {
    forall x | x in Filter(es, keep)
      ensures x.Valid()
    {
      FilterSubset(es, keep, x);
    }
  }

  /** The number of flags set. */
  function CountKept(keep: seq<bool>): nat {
    if keep == [] then 0 else CountKept(keep[..|keep| - 1]) + (if keep[|keep| - 1] then 1 else 0)
  }

  /** The filtered sequence has one element per flag set. */
  lemma {:induction false} FilterLength<T>(xs: seq<T>, keep: seq<bool>)
    requires |keep| == |xs|
    ensures |Filter(xs, keep)| == CountKept(keep)
    decreases |xs|
  {
    if xs != [] {
      FilterLength(xs[..|xs| - 1], keep[..|xs| - 1]);
    }
  }

  /** With every flag set the filter keeps the sequence. */
  lemma {:induction false} FilterAll<T>(xs: seq<T>, keep: seq<bool>)
    requires |keep| == |xs| && forall k :: 0 <= k < |keep| ==> keep[k]
    ensures Filter(xs, keep) == xs
    decreases |xs|
  {
    if xs != [] {
      var n := |xs| - 1;
      FilterAll(xs[..n], keep[..n]);
      assert xs[..n] + [xs[n]] == xs;
    }
  }

  /** The ids of the kept entities are the kept ids. */
  lemma {:induction false} FilterIds(es: seq<Entity>, keep: seq<bool>)
    requires |keep| == |es|
    ensures Ids(Filter(es, keep)) == Filter(Ids(es), keep)
    decreases |es|
  {
    if es != [] {
      var n := |es| - 1;
      FilterIds(es[..n], keep[..n]);
      assert Ids(es)[..n] == Ids(es[..n]);
      var tail := if keep[n] then [es[n]] else [];
      IdsAppend(Filter(es[..n], keep[..n]), tail);
    }
  }

  lemma IdsAppend(a: seq<Entity>, b: seq<Entity>)
    ensures Ids(a + b) == Ids(a) + Ids(b)
  {
  }

  /** The engine's `_handleCollision` with every mass 1 (see `Elastic.UnitMass`). */
  method HandleCollision(e1: Entity, e2: Entity, unit: Vec3 -> Vec3, tr: DeltaTracker)
    requires e1 != e2
    modifies e1`velocity, e2`velocity, tr
    ensures (e1.velocity, e2.velocity) ==
      Elastic.Collide(unit(Sub(e1.pos, e2.pos)), old(e1.velocity), old(e2.velocity), Elastic.UnitMass, Elastic.UnitMass)
    ensures tr.events == old(tr.events) + [Event("collision", e1.id, [InArray(e2.id)])]
  {
    var n := unit(Sub(e1.pos, e2.pos));
    var (w1, w2) := Elastic.Collide(n, e1.velocity, e2.velocity, Elastic.UnitMass, Elastic.UnitMass);
    e1.velocity := w1;
    e2.velocity := w2;
    e1.RegisterChange(tr, Field(Velocity, Vec(w1)));
    e2.RegisterChange(tr, Field(Velocity, Vec(w2)));
    e1.RegisterEvent(tr, "collision", [InArray(e2.id)]);
  }

  /** `handleHit(bullet)` of whichever class `e` is. */
  method Hit(e: Entity, b: Entity, tr: DeltaTracker)
    requires e != b && TakesHits(e.kind, b.kind) && e.Valid() && b.Valid()
    modifies e`shield, e`health, e`remove, b`remove, tr
    ensures e.Valid() && b.Valid()
    ensures old(e.Removed()) ==> e.Removed()
    ensures old(b.Removed()) ==> b.Removed()
    ensures e.kind == AsteroidKind ==>
      b.Removed() && |tr.events| > 0 && tr.events[|tr.events| - 1] == Event("hit", e.id, [InArray(b.id)])
  {
    if e.kind == PlayerKind {
      Players.HandleHit(e, b, tr);
    } else {
      Asteroids.HandleHit(e, b, tr);
    }
  }

  /**
   * A pair that passed the gate, handled as the type switch says
   * (`action` is the switch's verdict on the pair's types). A handler the
   * object lacks (a `type` a merge rewrote to another class's) and a bounce
   * involving a power-up, which has no velocity, leave the pair alone.
   */
  method Interact(e1: Entity, e2: Entity, action: Action, unit: Vec3 -> Vec3, tr: DeltaTracker)
    requires e1 != e2 && e1.Valid() && e2.Valid()
    modifies e1`shield, e1`shieldMax, e1`health, e1`remove, e1`velocity
    modifies e2`shield, e2`shieldMax, e2`health, e2`remove, e2`velocity, tr
    ensures e1.Valid() && e2.Valid()
    ensures old(e1.Removed()) ==> e1.Removed()
    ensures old(e2.Removed()) ==> e2.Removed()
    ensures action == HitFirst && HitDestroys(e1.kind, e2.kind) ==>
      e2.Removed() && |tr.events| > 0 && tr.events[|tr.events| - 1] == Event("hit", e1.id, [InArray(e2.id)])
    ensures action == HitSecond && HitDestroys(e2.kind, e1.kind) ==>
      e1.Removed() && |tr.events| > 0 && tr.events[|tr.events| - 1] == Event("hit", e2.id, [InArray(e1.id)])
    ensures action == ActivateFirst && IsPowerup(e1.kind) && e2.kind == PlayerKind ==>
      e1.Removed() &&
      tr.events == old(tr.events) + [Event("powerup", e1.id, [Str(e1.subtype.value), InArray(e2.id)]), Event("destroy", e1.id, [])]
    ensures action == ActivateSecond && IsPowerup(e2.kind) && e1.kind == PlayerKind ==>
      e2.Removed() &&
      tr.events == old(tr.events) + [Event("powerup", e2.id, [Str(e2.subtype.value), InArray(e1.id)]), Event("destroy", e2.id, [])]
    ensures action == Bounce && Moves(e1.kind) && Moves(e2.kind) ==>
      (e1.velocity, e2.velocity) ==
        Elastic.Collide(unit(Sub(e1.pos, e2.pos)), old(e1.velocity), old(e2.velocity), Elastic.UnitMass, Elastic.UnitMass)
  {
    match action {
      case HitFirst =>
        if TakesHits(e1.kind, e2.kind) {
          Hit(e1, e2, tr);
        }
      case HitSecond =>
        if TakesHits(e2.kind, e1.kind) {
          Hit(e2, e1, tr);
        }
      case ActivateFirst =>
        if IsPowerup(e1.kind) && e2.kind == PlayerKind {
          Powerups.Activate(e1, e2, tr);
        }
      case ActivateSecond =>
        if IsPowerup(e2.kind) && e1.kind == PlayerKind {
          Powerups.Activate(e2, e1, tr);
        }
      case Bounce =>
        if Moves(e1.kind) && Moves(e2.kind) {
          HandleCollision(e1, e2, unit, tr);
        }
    }
  }

  /**
   * The snapshot `computeState` and the wrap leave for an entity of shape
   * `s`: a player turns by `π/8 * rotateBy` and thrusts, an asteroid spins
   * by `angularVel`, and each of them and a bullet remembers its position
   * and steps along its velocity; a power-up only wraps. (A player or
   * asteroid without the angle or acceleration its class always sets is
   * left as it is.)
   */
  function Stepped(s: Shape, b: Snap, delta: real, trig: real -> (real, real)): Snap {
    match s.kind
    case PlayerKind =>
      if b.angle.Some? && s.accel.Some? then
        var a := b.angle.value + PiOver8 * s.rotateBy;
        var v := Players.Thrusted(b.vel, s.accel.value, a, s.thrust, trig);
        b.(pos := WrapPos(Step(b.pos, v, delta), s.radius), last := b.pos, vel := v, angle := Some(a))
      else b
    case BulletKind => b.(pos := WrapPos(Step(b.pos, b.vel, delta), s.radius), last := b.pos)
    case AsteroidKind =>
      if b.angle.Some? then
        b.(pos := WrapPos(Step(b.pos, b.vel, delta), s.radius), last := b.pos, angle := Some(b.angle.value + s.spin))
      else b
    case _ => b.(pos := WrapPos(b.pos, s.radius))
  }

  /**
   * `computeState(delta)` of whichever class `e` is, then the wrap round
   * the world.
   */
  method StepEntity(e: Entity, delta: real, trig: real -> (real, real), tr: DeltaTracker)
    requires e.Valid()
    modifies e`lastPos, e`angle, e`velocity, e`shield, e`pos, tr
    ensures e.Valid()
    ensures SnapOf(e) == Stepped(ShapeOf(e), old(SnapOf(e)), delta, trig)
    ensures tr.events == old(tr.events)
  {
    match e.kind {
      case PlayerKind => StepPlayer(e, delta, trig);
      case BulletKind => Bullets.ComputeState(e, delta); e.pos := WrapPos(e.pos, e.radius);
      case AsteroidKind => StepAsteroid(e, delta, trig, tr);
      case _ => Powerups.ComputeState(e, tr); e.pos := WrapPos(e.pos, e.radius);
    }
  }

  /** `StepEntity` for a Player. */
  method StepPlayer(e: Entity, delta: real, trig: real -> (real, real))
    requires e.kind == PlayerKind && e.Valid()
    modifies e`lastPos, e`angle, e`velocity, e`shield, e`pos
    ensures e.Valid()
    ensures SnapOf(e) == Stepped(ShapeOf(e), old(SnapOf(e)), delta, trig)
  {
    Players.ComputeState(e, delta, trig);
    e.pos := WrapPos(e.pos, e.radius);
  }

  /** `StepEntity` for an Asteroid. */
  method StepAsteroid(e: Entity, delta: real, trig: real -> (real, real), tr: DeltaTracker)
    requires e.kind == AsteroidKind && e.Valid()
    modifies e`lastPos, e`angle, e`pos, tr
    ensures e.Valid() && tr.events == old(tr.events)
    ensures SnapOf(e) == Stepped(ShapeOf(e), old(SnapOf(e)), delta, trig)
  {
    Asteroids.ComputeState(e, delta, tr);
    e.pos := WrapPos(e.pos, e.radius);
  }

  /** Pairs are compared by their first index, then their second. */
  predicate Before(p: (int, int), q: (int, int)) {
    p.0 < q.0 || (p.0 == q.0 && p.1 < q.1)
  }

  /** Whether each entity is flagged for removal. */
  function RemovedFlags(es: seq<Entity>): (f: seq<bool>)
    reads es`remove
    ensures |f| == |es| && forall k :: 0 <= k < |es| ==> f[k] == es[k].Removed()
  {
    if es == [] then [] else RemovedFlags(es[..|es| - 1]) + [es[|es| - 1].Removed()]
  }

  /** A later snapshot of an entity within the pair tests: it stands where it stood, and a set flag stays set. */
  predicate Later(b: Snap, a: Snap) {
    a.pos == b.pos && a.last == b.last && a.angle == b.angle && (b.removed ==> a.removed)
  }

  /**
   * The test of the pair `(i, j)` over shapes `S`, from snapshots `b` to
   * `a`: the pair is handled exactly when `j` is unflagged and the gate
   * holds; only the two entities change; the handling flags the bullet of
   * a hit and an activated power-up, and a bounce of two movers sets their
   * velocities to the elastic collision's.
   */
  predicate PairOk(S: seq<Shape>, i: int, j: int, b: seq<Snap>, a: seq<Snap>, ps: seq<int>, ps': seq<int>,
                   unit: Vec3 -> Vec3)
    requires 0 <= i < j < |S| == |b| == |a|
  {
    var hit := !b[j].removed && Meets(S[i], b[i].pos, S[j], b[j].pos);
    && ps' == ps + (if hit then [j] else [])
    && (!hit ==> a == b)
    && (hit ==> (forall m :: 0 <= m < |S| && m != i && m != j ==> a[m] == b[m]) &&
                PairEffect(S[i], S[j], b[i], b[j], a[i], a[j], unit))
  }

  /**
   * Where the pair tests of `i` stand once every `m < j` was tested, from
   * the snapshots `b` they started from to `cur`: the partners are, in
   * order, the later entities that were unflagged when the turn's tests
   * began and met the gate against `i`; every other entity but `i` is as
   * it was; nothing moved, no flag was cleared; and each handled pair left
   * its mark on the flags.
   */
  predicate PairsSoFar(S: seq<Shape>, i: int, j: int, b: seq<Snap>, cur: seq<Snap>, ps: seq<int>) {
    && 0 <= i < j <= |S| == |b| == |cur|
    && (forall x, y :: 0 <= x < y < |ps| ==> ps[x] < ps[y])
    && (forall x :: 0 <= x < |ps| ==> i < ps[x] < j)
    && (forall m :: i < m < j ==> (m in ps <==> !b[m].removed && Meets(S[i], b[i].pos, S[m], b[m].pos)))
    && (forall m :: 0 <= m < |S| && m != i && m !in ps ==> cur[m] == b[m])
    && (forall m :: 0 <= m < |S| ==> Later(b[m], cur[m]))
    && (forall m :: m in ps ==> Handled(S[i], S[m], cur[i].removed, cur[m].removed))
  }

  /** One more pair test keeps the account. */
  lemma PairsStep(S: seq<Shape>, i: int, j: int, b: seq<Snap>, cur: seq<Snap>, cur': seq<Snap>,
                  ps: seq<int>, ps': seq<int>, unit: Vec3 -> Vec3)
    requires PairsSoFar(S, i, j, b, cur, ps) && j < |S| && |cur'| == |S|
    requires PairOk(S, i, j, cur, cur', ps, ps', unit)
    ensures PairsSoFar(S, i, j + 1, b, cur', ps')
  {
    assert j !in ps;
    assert cur[j] == b[j];
    forall m | m in ps'
      ensures Handled(S[i], S[m], cur'[i].removed, cur'[m].removed)
    {
      if m != j {
        assert m in ps;
      }
    }
  }

  /**
   * The inner loop for the entity at `i`: every later entity not flagged
   * for removal is tested, and the pairs that pass the gate are handled.
   * Returns the partners handled, in order.
   */
  method CheckPairs(es: seq<Entity>, i: int, unit: Vec3 -> Vec3, tr: DeltaTracker, ghost S: seq<Shape>, ghost b: seq<Snap>)
    returns (partners: seq<int>, ghost a: seq<Snap>)
    requires 0 <= i < |es| && Distinct(es) && AllValid(es) && ShapesAre(es, S) && SnapsAre(es, b)
    modifies es`shield, es`shieldMax, es`health, es`remove, es`velocity, tr
    ensures AllValid(es) && ShapesAre(es, S) && SnapsAre(es, a)
    ensures PairsSoFar(S, i, |es|, b, a, partners)
  {
    partners, a := [], b;
    var j := i + 1;
    while j < |es|
      invariant i + 1 <= j <= |es|
      invariant AllValid(es) && ShapesAre(es, S) && SnapsAre(es, a)
      invariant PairsSoFar(S, i, j, b, a, partners)
    {
      ghost var cur, ps := a, partners;
      partners, a := CheckPair(es, i, j, partners, unit, tr, S, a);
      PairsStep(S, i, j, b, cur, a, ps, partners, unit);
      j := j + 1;
    }
  }

  /** The test of the pair `(i, j)` in the inner loop: `j` becomes a partner if it is handled. */
  method CheckPair(es: seq<Entity>, i: int, j: int, partners: seq<int>, unit: Vec3 -> Vec3, tr: DeltaTracker,
                   ghost S: seq<Shape>, ghost b: seq<Snap>)
    returns (partners': seq<int>, ghost a: seq<Snap>)
    requires 0 <= i < j < |es| && Distinct(es) && AllValid(es) && ShapesAre(es, S) && SnapsAre(es, b)
    modifies es`shield, es`shieldMax, es`health, es`remove, es`velocity, tr
    ensures AllValid(es) && ShapesAre(es, S) && SnapsAre(es, a)
    ensures PairOk(S, i, j, b, a, partners, partners', unit)
  {
    var e1, e2 := es[i], es[j];
    assert b[i] == SnapOf(e1) && b[j] == SnapOf(e2) && S[i] == ShapeOf(e1) && S[j] == ShapeOf(e2);
    partners', a := partners, b;
    if !e2.Removed() && Eligible(e1, e2) {
      a := HandlePair(es, i, j, unit, tr, S, b);
      partners' := partners + [j];
    }
  }

  /** The handling of a pair `(i, j)` that passed the gate, as the snapshots see it. */
  method HandlePair(es: seq<Entity>, i: int, j: int, unit: Vec3 -> Vec3, tr: DeltaTracker,
                    ghost S: seq<Shape>, ghost b: seq<Snap>)
    returns (ghost a: seq<Snap>)
    requires 0 <= i < j < |es| && Distinct(es) && AllValid(es) && ShapesAre(es, S) && SnapsAre(es, b)
    modifies es`shield, es`shieldMax, es`health, es`remove, es`velocity, tr
    ensures AllValid(es) && ShapesAre(es, S) && SnapsAre(es, a)
    ensures forall m :: 0 <= m < |es| && m != i && m != j ==> a[m] == b[m]
    ensures PairEffect(S[i], S[j], b[i], b[j], a[i], a[j], unit)
  {
    var e1, e2 := es[i], es[j];
    Switch(e1, e2, unit, tr);
    a := b[i := SnapOf(e1)][j := SnapOf(e2)];
    forall m | 0 <= m < |es| && m != i && m != j
      ensures a[m] == SnapOf(es[m]) && es[m].Valid()
    {
      assert es[m] != e1 && es[m] != e2;
    }
  }

  /**
   * What handling a pair of shapes `s1`, `s2` does to their snapshots,
   * from `b1`, `b2` to `a1`, `a2`: neither moves, no flag is cleared, the
   * flags are `Handled`, and a bounce of two movers sets their velocities
   * to the elastic collision's.
   */
  predicate PairEffect(s1: Shape, s2: Shape, b1: Snap, b2: Snap, a1: Snap, a2: Snap, unit: Vec3 -> Vec3) {
    && Later(b1, a1) && Later(b2, a2)
    && Handled(s1, s2, a1.removed, a2.removed)
    && (Dispatch(s1.typ + s2.typ) == Bounce && Moves(s1.kind) && Moves(s2.kind) ==>
          (a1.vel, a2.vel) == Elastic.Collide(unit(Sub(b1.pos, b2.pos)), b1.vel, b2.vel, Elastic.UnitMass, Elastic.UnitMass))
  }

  /** The `switch` on `entity.type + entity2.type` for a pair that passed the gate. */
  method Switch(e1: Entity, e2: Entity, unit: Vec3 -> Vec3, tr: DeltaTracker)
    requires e1 != e2 && e1.Valid() && e2.Valid()
    modifies e1`shield, e1`shieldMax, e1`health, e1`remove, e1`velocity
    modifies e2`shield, e2`shieldMax, e2`health, e2`remove, e2`velocity, tr
    ensures e1.Valid() && e2.Valid()
    ensures PairEffect(ShapeOf(e1), ShapeOf(e2), old(SnapOf(e1)), old(SnapOf(e2)), SnapOf(e1), SnapOf(e2), unit)
  {
    Interact(e1, e2, Dispatch(e1.Type() + e2.Type()), unit, tr);
  }

  /** `computeState` and the pair tests for the entity at `i`. */
  method Visit(es: seq<Entity>, i: int, delta: real, trig: real -> (real, real), unit: Vec3 -> Vec3, tr: DeltaTracker,
               ghost S: seq<Shape>, ghost b: seq<Snap>)
    returns (partners: seq<int>, ghost a: seq<Snap>)
    requires 0 <= i < |es| && Distinct(es) && AllValid(es) && ShapesAre(es, S) && SnapsAre(es, b)
    modifies es`lastPos, es`angle, es`velocity, es`shield, es`pos, es`shieldMax, es`health, es`remove, tr
    ensures AllValid(es) && ShapesAre(es, S) && SnapsAre(es, a)
    ensures PairsSoFar(S, i, |es|, b[i := Stepped(S[i], b[i], delta, trig)], a, partners)
  {
    var e := es[i];
    StepEntity(e, delta, trig, tr);
    ghost var stepped := b[i := SnapOf(e)];
    forall m | 0 <= m < |es| && m != i
      ensures stepped[m] == SnapOf(es[m]) && es[m].Valid()
    {
      assert es[m] != e;
    }
    partners, a := CheckPairs(es, i, unit, tr, S, stepped);
  }


  /**
   * The turn of the entity at `k`, from the snapshots `h` at its start to
   * `h'` at its end, with partners `ps`: an entity already flagged is
   * skipped and nothing changes; any other is stepped, and then its pair
   * tests run from the stepped snapshots.
   */
  predicate Turn(S: seq<Shape>, k: int, h: seq<Snap>, h': seq<Snap>, ps: seq<int>,
                 delta: real, trig: real -> (real, real))
    requires 0 <= k < |S| == |h| == |h'|
  {
    if h[k].removed then h' == h && ps == []
    else PairsSoFar(S, k, |S|, h[k := Stepped(S[k], h[k], delta, trig)], h', ps)
  }

  /**
   * The physics loop after `|P|` turns: `H[k]` are the snapshots when turn
   * `k` began (and `H[|P|]` those now), `P[k]` the partners of turn `k`,
   * and `visited[k]` whether entity `k` was unflagged when its turn came,
   * which is what decides that it is kept.
   */
  predicate Trace(S: seq<Shape>, H: seq<seq<Snap>>, P: seq<seq<int>>, visited: seq<bool>,
                  delta: real, trig: real -> (real, real))
  {
    && |H| == |P| + 1 && |visited| == |P| <= |S|
    && (forall a :: 0 <= a < |H| ==> |H[a]| == |S|)
    && (forall k :: 0 <= k < |P| ==> visited[k] == !H[k][k].removed)
    && (forall k :: 0 <= k < |P| ==> Turn(S, k, H[k], H[k + 1], P[k], delta, trig))
  }

  /** One more turn extends the trace. */
  lemma TraceStep(S: seq<Shape>, H: seq<seq<Snap>>, P: seq<seq<int>>, visited: seq<bool>,
                  delta: real, trig: real -> (real, real), h': seq<Snap>, ps: seq<int>)
    requires Trace(S, H, P, visited, delta, trig) && |P| < |S| && |h'| == |S|
    requires Turn(S, |P|, H[|P|], h', ps, delta, trig)
    ensures Trace(S, H + [h'], P + [ps], visited + [!H[|P|][|P|].removed], delta, trig)
  {
    var H', P' := H + [h'], P + [ps];
    forall k | 0 <= k < |P'|
      ensures Turn(S, k, H'[k], H'[k + 1], P'[k], delta, trig)
    {
      if k < |P| {
        assert H'[k] == H[k] && H'[k + 1] == H[k + 1] && P'[k] == P[k];
      }
    }
  }

  /** The pairs `(i, j)` for the partners `js` of `i`. */
  function PairsWith(i: int, js: seq<int>): (ps: seq<(int, int)>)
    ensures |ps| == |js| && forall k :: 0 <= k < |js| ==> ps[k] == (i, js[k])
  {
    seq(|js|, k requires 0 <= k < |js| => (i, js[k]))
  }

  /** The pairs handled over the turns with partners `P`, in the order they were handled. */
  function AllPairs(P: seq<seq<int>>): seq<(int, int)> {
    if P == [] then [] else AllPairs(P[..|P| - 1]) + PairsWith(|P| - 1, P[|P| - 1])
  }

  /** Pairs in increasing order, each `(i, j)` with `i < j < n` and `i` below `k`. */
  predicate PairsOrdered(pairs: seq<(int, int)>, k: int, n: int) {
    && (forall a, b :: 0 <= a < b < |pairs| ==> Before(pairs[a], pairs[b]))
    && (forall p :: p in pairs ==> 0 <= p.0 < k && p.0 < p.1 < n)
  }

  lemma PairsExtend(pairs: seq<(int, int)>, i: int, n: int, partners: seq<int>)
    requires PairsOrdered(pairs, i, n) && 0 <= i
    requires forall x, y :: 0 <= x < y < |partners| ==> partners[x] < partners[y]
    requires forall x :: 0 <= x < |partners| ==> i < partners[x] < n
    ensures PairsOrdered(pairs + PairsWith(i, partners), i + 1, n)
  {
    var added := PairsWith(i, partners);
    var all := pairs + added;
    forall a, b | 0 <= a < b < |all|
      ensures Before(all[a], all[b])
    {
      if b >= |pairs| {
        assert all[b] == added[b - |pairs|];
        if a >= |pairs| {
          assert all[a] == added[a - |pairs|];
        } else {
          assert all[a] in pairs;
        }
      }
    }
    forall p | p in all
      ensures 0 <= p.0 < i + 1 && p.0 < p.1 < n
    {
      if p !in pairs {
        var k :| 0 <= k < |added| && added[k] == p;
      }
    }
  }

  /** Every pair is handled at most once, the pairs in increasing order. */
  lemma {:induction false} AllPairsOrdered(S: seq<Shape>, H: seq<seq<Snap>>, P: seq<seq<int>>, visited: seq<bool>,
                                           delta: real, trig: real -> (real, real))
    requires Trace(S, H, P, visited, delta, trig)
    ensures PairsOrdered(AllPairs(P), |P|, |S|)
    decreases |P|
  {
    if P != [] {
      var n := |P| - 1;
      assert Trace(S, H[..n + 1], P[..n], visited[..n], delta, trig) by {
        forall k | 0 <= k < n
          ensures Turn(S, k, H[..n + 1][k], H[..n + 1][k + 1], P[..n][k], delta, trig)
        {
          assert Turn(S, k, H[k], H[k + 1], P[k], delta, trig);
        }
      }
      AllPairsOrdered(S, H[..n + 1], P[..n], visited[..n], delta, trig);
      assert Turn(S, n, H[n], H[n + 1], P[n], delta, trig);
      PairsExtend(AllPairs(P[..n]), n, |S|, P[n]);
    }
  }

  /** Two snapshots of an entity at the same place: position, previous position and heading. */
  predicate Placed(x: Snap, y: Snap) {
    x.pos == y.pos && x.last == y.last && x.angle == y.angle
  }

  /**
   * What turn `k` does to each entity: the others keep their place and
   * their flags; `k` itself is left alone when flagged, and otherwise
   * ends at its stepped place.
   */
  lemma TurnEffect(S: seq<Shape>, k: int, h: seq<Snap>, h': seq<Snap>, ps: seq<int>,
                   delta: real, trig: real -> (real, real))
    requires 0 <= k < |S| == |h| == |h'| && Turn(S, k, h, h', ps, delta, trig)
    ensures forall m :: 0 <= m < |S| && m != k ==> Placed(h[m], h'[m]) && (h[m].removed ==> h'[m].removed)
    ensures h[k].removed ==> h'[k] == h[k] && ps == []
    ensures !h[k].removed ==> Placed(h'[k], Stepped(S[k], h[k], delta, trig))
  {
    if !h[k].removed {
      var b := h[k := Stepped(S[k], h[k], delta, trig)];
      assert Later(b[k], h'[k]);
      forall m | 0 <= m < |S| && m != k
        ensures Placed(h[m], h'[m]) && (h[m].removed ==> h'[m].removed)
      {
        assert b[m] == h[m] && Later(b[m], h'[m]);
      }
    }
  }

  /** Between turns `a` and `b`, an entity whose turn does not fall in between keeps its place and its flag. */
  lemma {:induction false} Settled(S: seq<Shape>, H: seq<seq<Snap>>, P: seq<seq<int>>, visited: seq<bool>,
                                   delta: real, trig: real -> (real, real), a: int, b: int, m: int)
    requires Trace(S, H, P, visited, delta, trig) && 0 <= a <= b < |H| && 0 <= m < |S| && (m < a || b <= m)
    ensures Placed(H[a][m], H[b][m]) && (H[a][m].removed ==> H[b][m].removed)
    decreases b - a
  {
    if a < b {
      Settled(S, H, P, visited, delta, trig, a, b - 1, m);
      TurnEffect(S, b - 1, H[b - 1], H[b], P[b - 1], delta, trig);
    }
  }

  /** A flag for removal, once set, stays set for the rest of the pass. */
  lemma {:induction false} FlagsPersist(S: seq<Shape>, H: seq<seq<Snap>>, P: seq<seq<int>>, visited: seq<bool>,
                                        delta: real, trig: real -> (real, real), a: int, b: int, m: int)
    requires Trace(S, H, P, visited, delta, trig) && 0 <= a <= b < |H| && 0 <= m < |S|
    ensures H[a][m].removed ==> H[b][m].removed
    decreases b - a
  {
    if a < b {
      FlagsPersist(S, H, P, visited, delta, trig, a, b - 1, m);
      TurnEffect(S, b - 1, H[b - 1], H[b], P[b - 1], delta, trig);
    }
  }

  /**
   * Where a whole pass leaves each entity `k`: it reaches its turn where it
   * began; if it was unflagged then, it ends at the place `Stepped` gives
   * from the snapshot its turn found (its velocity may have changed in an
   * earlier bounce), and otherwise it ends where it began, still flagged.
   * An entity flagged when the pass began is never kept.
   */
  lemma PassPlaces(before: seq<Entity>, sw: Sweep, kept: seq<Entity>, pairs: seq<(int, int)>,
                   delta: real, trig: real -> (real, real))
    requires Swept(before, sw, kept, pairs, delta, trig)
    ensures forall k :: 0 <= k < |before| ==> Placed(sw.turns[0][k], sw.turns[k][k])
    ensures forall k :: 0 <= k < |before| && sw.visited[k] ==>
      Placed(sw.turns[|before|][k], Stepped(sw.shapes[k], sw.turns[k][k], delta, trig))
    ensures forall k :: 0 <= k < |before| && !sw.visited[k] ==>
      Placed(sw.turns[|before|][k], sw.turns[0][k]) && sw.turns[|before|][k].removed
    ensures forall k :: 0 <= k < |before| && sw.turns[0][k].removed ==> !sw.visited[k]
  {
    var S, H, P, n := sw.shapes, sw.turns, sw.partners, |before|;
    forall k | 0 <= k < n
      ensures Placed(H[0][k], H[k][k])
      ensures sw.visited[k] ==> Placed(H[n][k], Stepped(S[k], H[k][k], delta, trig))
      ensures !sw.visited[k] ==> Placed(H[n][k], H[0][k]) && H[n][k].removed
      ensures H[0][k].removed ==> !sw.visited[k]
    {
      Settled(S, H, P, sw.visited, delta, trig, 0, k, k);
      TurnEffect(S, k, H[k], H[k + 1], P[k], delta, trig);
      Settled(S, H, P, sw.visited, delta, trig, k + 1, n, k);
    }
  }

  /** A pair is in `AllPairs(P)` exactly when its second index is among the partners of its first's turn. */
  lemma {:induction false} AllPairsMember(P: seq<seq<int>>, k: int, j: int)
    ensures (k, j) in AllPairs(P) <==> 0 <= k < |P| && j in P[k]
    decreases |P|
  {
    if P != [] {
      var n := |P| - 1;
      AllPairsMember(P[..n], k, j);
      assert (k, j) in PairsWith(n, P[n]) <==> k == n && j in P[n] by {
        if k == n && j in P[n] {
          var x :| 0 <= x < |P[n]| && P[n][x] == j;
          assert PairsWith(n, P[n])[x] == (k, j);
        }
      }
      if 0 <= k < n {
        assert P[..n][k] == P[k];
      }
    }
  }

  /**
   * Which pairs a whole pass handles, and what each leaves behind: `(k, j)`
   * is handled exactly when `k < j`, `k` was kept, `j` was unflagged when
   * `k`'s turn began, and the gate held between `k`'s stepped position and
   * the position `j` began the pass at; and the final flags show every
   * handled pair's hit or activation.
   */
  lemma PassPairs(before: seq<Entity>, sw: Sweep, kept: seq<Entity>, pairs: seq<(int, int)>,
                  delta: real, trig: real -> (real, real), k: int, j: int)
    requires Swept(before, sw, kept, pairs, delta, trig) && 0 <= k < |before| && 0 <= j < |before|
    ensures (k, j) in pairs <==>
      && k < j && sw.visited[k] && !sw.turns[k][j].removed
      && Meets(sw.shapes[k], Stepped(sw.shapes[k], sw.turns[k][k], delta, trig).pos, sw.shapes[j], sw.turns[0][j].pos)
    ensures (k, j) in pairs ==>
      Handled(sw.shapes[k], sw.shapes[j], sw.turns[|before|][k].removed, sw.turns[|before|][j].removed)
  {
    var S, H, P, n := sw.shapes, sw.turns, sw.partners, |before|;
    AllPairsMember(P, k, j);
    assert Turn(S, k, H[k], H[k + 1], P[k], delta, trig);
    TurnEffect(S, k, H[k], H[k + 1], P[k], delta, trig);
    if k < j {
      Settled(S, H, P, sw.visited, delta, trig, 0, k, j);
    }
    if !H[k][k].removed {
      var b := H[k][k := Stepped(S[k], H[k][k], delta, trig)];
      assert PairsSoFar(S, k, n, b, H[k + 1], P[k]);
      if j in P[k] {
        assert b[j] == H[k][j];
        FlagsPersist(S, H, P, sw.visited, delta, trig, k + 1, n, k);
        FlagsPersist(S, H, P, sw.visited, delta, trig, k + 1, n, j);
      } else if k < j {
        assert b[j] == H[k][j];
      }
    }
  }

  /** One more flag: the filter gains the element exactly when it is kept. */
  lemma FilterStep<T>(xs: seq<T>, i: int, visited: seq<bool>, b: bool)
    requires 0 <= i < |xs| && |visited| == i
    ensures Filter(xs[..i + 1], visited + [b]) == Filter(xs[..i], visited) + (if b then [xs[i]] else [])
  {
    assert xs[..i + 1][..i] == xs[..i];
    assert (visited + [b])[..i] == visited;
  }

  /**
   * The new array and map after `i` turns: `kept`/`keptIds` are the
   * entities `visited` marks and their ids, and `keptMap` indexes them by id.
   */
  predicate Books(es: seq<Entity>, ids: seq<string>, i: int, visited: seq<bool>,
                  kept: seq<Entity>, keptIds: seq<string>, keptMap: map<string, int>)
  {
    && 0 <= i <= |es| && |ids| == |es|
    && |visited| == i && kept == Filter(es[..i], visited) && keptIds == Filter(ids[..i], visited)
    && Distinct(kept) && IndexMap(keptIds, keptMap)
  }

  /** Skipping an entity keeps the books. */
  lemma SkipStep(es: seq<Entity>, ids: seq<string>, i: int, visited: seq<bool>,
                 kept: seq<Entity>, keptIds: seq<string>, keptMap: map<string, int>)
    requires Books(es, ids, i, visited, kept, keptIds, keptMap) && i < |es|
    ensures Books(es, ids, i + 1, visited + [false], kept, keptIds, keptMap)
  {
    FilterStep(es, i, visited, false);
    FilterStep(ids, i, visited, false);
  }

  /** Pushing the entity at `i` onto the new array and map keeps the books. */
  lemma KeepStep(es: seq<Entity>, ids: seq<string>, i: int, visited: seq<bool>,
                 kept: seq<Entity>, keptIds: seq<string>, keptMap: map<string, int>)
    requires Books(es, ids, i, visited, kept, keptIds, keptMap) && i < |es| && Distinct(es)
    ensures Books(es, ids, i + 1, visited + [true], kept + [es[i]], keptIds + [ids[i]], keptMap[ids[i] := |kept|])
  {
    FilterStep(es, i, visited, true);
    FilterStep(ids, i, visited, true);
    assert es[i] !in kept by {
      if es[i] in kept {
        FilterSubset(es[..i], visited, es[i]);
        assert false;
      }
    }
    FilterLength(es[..i], visited);
    FilterLength(ids[..i], visited);
    IndexMapPush(keptIds, keptMap, ids[i]);
  }

  /**
   * One turn of the physics loop: an entity flagged for removal is skipped;
   * any other is stepped, tested against the later ones, and pushed onto
   * the new array and map.
   */
  method PassStep(es: seq<Entity>, i: int, delta: real, trig: real -> (real, real), unit: Vec3 -> Vec3, tr: DeltaTracker,
                  ghost S: seq<Shape>, ghost ids: seq<string>, ghost H: seq<seq<Snap>>, ghost P: seq<seq<int>>,
                  ghost visited: seq<bool>, kept: seq<Entity>, ghost keptIds: seq<string>, keptMap: map<string, int>,
                  pairs: seq<(int, int)>)
    returns (ghost H': seq<seq<Snap>>, ghost P': seq<seq<int>>, ghost visited': seq<bool>, kept': seq<Entity>,
             ghost keptIds': seq<string>, keptMap': map<string, int>, pairs': seq<(int, int)>)
    requires 0 <= i < |es| && Distinct(es) && AllValid(es) && Ids(es) == ids && ShapesAre(es, S)
    requires Books(es, ids, i, visited, kept, keptIds, keptMap)
    requires Trace(S, H, P, visited, delta, trig) && |P| == i && SnapsAre(es, H[i]) && pairs == AllPairs(P)
    modifies es`lastPos, es`angle, es`velocity, es`shield, es`pos, es`shieldMax, es`health, es`remove, tr
    ensures AllValid(es) && Ids(es) == ids && ShapesAre(es, S)
    ensures Books(es, ids, i + 1, visited', kept', keptIds', keptMap')
    ensures Trace(S, H', P', visited', delta, trig) && |P'| == i + 1 && H'[..i + 1] == H && SnapsAre(es, H'[i + 1])
    ensures pairs' == AllPairs(P')
  {
    var e := es[i];
    ghost var h := H[i];
    assert h[i] == SnapOf(e);
    if e.Removed() {
      SkipStep(es, ids, i, visited, kept, keptIds, keptMap);
      TraceStep(S, H, P, visited, delta, trig, h, []);
      assert AllPairs(P + [[]]) == AllPairs(P) by {
        assert (P + [[]])[..i] == P;
      }
      H', P', visited', kept', keptIds', keptMap', pairs' := H + [h], P + [[]], visited + [false], kept, keptIds, keptMap, pairs;
    } else {
      ghost var a;
      var partners;
      partners, a := Visit(es, i, delta, trig, unit, tr, S, h);
      KeepStep(es, ids, i, visited, kept, keptIds, keptMap);
      TraceStep(S, H, P, visited, delta, trig, a, partners);
      assert AllPairs(P + [partners]) == AllPairs(P) + PairsWith(i, partners) by {
        assert (P + [partners])[..i] == P;
      }
      assert KeyOf(e.id) == ids[i];
      H', P' := H + [a], P + [partners];
      keptMap' := keptMap[KeyOf(e.id) := |kept|];
      kept' := kept + [e];
      keptIds' := keptIds + [ids[i]];
      visited' := visited + [true];
      pairs' := pairs + PairsWith(i, partners);
    }
  }

  /** The loop itself: every turn, in index order, keeping the books and the trace. */
  method PassLoop(es: seq<Entity>, delta: real, trig: real -> (real, real), unit: Vec3 -> Vec3, tr: DeltaTracker,
                  ghost S: seq<Shape>, ghost ids: seq<string>, ghost h: seq<Snap>)
    returns (ghost H: seq<seq<Snap>>, ghost P: seq<seq<int>>, ghost visited: seq<bool>, kept: seq<Entity>,
             ghost keptIds: seq<string>, keptMap: map<string, int>, pairs: seq<(int, int)>)
    requires Distinct(es) && AllValid(es) && Ids(es) == ids && ShapesAre(es, S) && SnapsAre(es, h)
    modifies es`lastPos, es`angle, es`velocity, es`shield, es`pos, es`shieldMax, es`health, es`remove, tr
    ensures AllValid(es) && Ids(es) == ids && ShapesAre(es, S)
    ensures Books(es, ids, |es|, visited, kept, keptIds, keptMap)
    ensures Trace(S, H, P, visited, delta, trig) && |P| == |es|
    ensures H[0] == h && SnapsAre(es, H[|es|]) && pairs == AllPairs(P)
  {
    H, P, keptIds := [h], [], [];
    kept, keptMap, visited, pairs := [], map[], [], [];
    var i := 0;
    while i < |es|
      invariant 0 <= i <= |es|
      invariant AllValid(es) && Ids(es) == ids && ShapesAre(es, S)
      invariant Books(es, ids, i, visited, kept, keptIds, keptMap)
      // compared with `true` so that the trace is checked as one fact rather than conjunct by conjunct
      invariant Trace(S, H, P, visited, delta, trig) == true
      invariant |P| == i && SnapsAre(es, H[i]) && H[0] == h && pairs == AllPairs(P)
    {
      H, P, visited, kept, keptIds, keptMap, pairs :=
        PassStep(es, i, delta, trig, unit, tr, S, ids, H, P, visited, kept, keptIds, keptMap, pairs);
      i := i + 1;
    }
  }

  /**
   * The record of one physics pass over `before`, the entity array it
   * began with: the shapes, the snapshots at the start of every turn and
   * at the end, every turn's partners, and which entities were kept.
   */
  datatype Sweep = Sweep(shapes: seq<Shape>, turns: seq<seq<Snap>>, partners: seq<seq<int>>, visited: seq<bool>)

  /** The pass over `before` as `sw` records it left the array `kept` and handled `pairs`. */
  predicate Swept(before: seq<Entity>, sw: Sweep, kept: seq<Entity>, pairs: seq<(int, int)>,
                  delta: real, trig: real -> (real, real))
  {
    && |sw.shapes| == |before| == |sw.partners|
    && Trace(sw.shapes, sw.turns, sw.partners, sw.visited, delta, trig)
    && kept == Filter(before, sw.visited)
    && pairs == AllPairs(sw.partners)
  }

  /**
   * The physics loop of `computeState` over the entity array `es`. It
   * returns the new entity array and map, the pairs it handled, and the
   * record `sw` of its turns.
   */
  method PhysicsPass(es: seq<Entity>, delta: real, trig: real -> (real, real), unit: Vec3 -> Vec3, tr: DeltaTracker,
                     ghost h: seq<Snap>)
    returns (kept: seq<Entity>, keptMap: map<string, int>, pairs: seq<(int, int)>, ghost sw: Sweep)
    requires Distinct(es) && AllValid(es) && SnapsAre(es, h)
    modifies es`lastPos, es`angle, es`velocity, es`shield, es`pos, es`shieldMax, es`health, es`remove, tr
    ensures AllValid(es)
    ensures Swept(es, sw, kept, pairs, delta, trig)
    ensures ShapesAre(es, sw.shapes) && sw.turns[0] == h && SnapsAre(es, sw.turns[|es|])
    ensures Distinct(kept) && IndexMap(Ids(kept), keptMap)
  {
    ghost var ids, S := Ids(es), ShapesNow(es);
    ghost var H, P, visited, keptIds;
    H, P, visited, kept, keptIds, keptMap, pairs := PassLoop(es, delta, trig, unit, tr, S, ids, h);
    sw := Sweep(S, H, P, visited);
    assert es[..|es|] == es && ids[..|es|] == ids;
    FilterIds(es, visited);
  }
}
